=== FILE: README.md ===
# imgconv_fft in Dafny

imgconv_fft is a small command-line image filter. It reads a grayscale image
and builds one of four named kernels: a box blur of any odd size, or a fixed
3x3 sharpen, edge or emboss table. It filters the image with one of two
convolvers:

- `convolve_naive` sums the taps around every pixel and pads the border with
  zeros.
- `convolve_fft` pads the image and the kernel to power-of-two grids, runs a
  radix-2 FFT over each, multiplies the spectra and transforms back.

This project models the core of the program:

- the FFT: `is_power_of_two`, `next_pow2`, `fft1d_inplace` and
  `fft2d_inplace`;
- both convolvers, `place_centered_kernel` included;
- the kernel factory;
- argument parsing and the method dispatch of `main.cpp`.

The model uses exact arithmetic. Pixels and weights are `real`, and FFT data
is a pair of reals (`ComplexNumbers.Complex`). The stage twiddle base
`wlen = exp(±2πi/len)` is a parameter `tw` of every transform. So the FFT is
modelled by its data flow: the bit-reversal permutation, the butterflies of
every stage and block, the inverse scaling, and the row-then-column passes.
Its numerical value is not modelled.

One fact about the numerical transform is the convolution theorem:
multiplying spectra and transforming back gives the cyclic convolution.
`Alignment.ConvolutionTheorem` states it as a hypothesis. From it the model
derives what `convolve_fft` computes.

The source changes buffers step by step, and the model does the same:

- `fft1d_inplace`, `fft2d_inplace`, `place_centered_kernel`, the image copy,
  the pointwise product and the crop are methods over `array`s.
- Each method is proved against a function of the old contents.
- The naive convolver's four nested loops are methods with loop invariants,
  proved against the function `ConvNaive.NaiveResult`.
- `parse_args` is a `while` loop proved against a recursive token scan.

Modules follow the source files:

- `Bits` and `Fft` cover `src/fft.h`.
- `ConvFft` covers `src/conv_fft.cpp`.
- `ConvNaive` covers `src/conv_naive.cpp`.
- `Kernels` covers `src/kernels.cpp`.
- `Cli` covers `src/main.cpp`.
- `Images` holds the `Image` and `Kernel` records and the checks both
  convolvers share.
- `Alignment` relates the two convolvers.
- `Grid`, `Sums`, `ComplexNumbers` and `Wrappers` are shared helpers.

## Model

| member | source | states |
|---|---|---|
| Grid.Idx | src/conv_fft.cpp:9-11 | cell `(x, y)` of a row-major grid of width `w` is at `y * w + x`; its meaning is stated by the three lemmas below |
| Grid.IdxBounds | src/conv_fft.cpp:9-11 | every in-range cell has an index inside the `w * h` buffer |
| Grid.IdxDivMod | src/conv_fft.cpp:9-11 | the index gives back the column as remainder and the row as quotient |
| Grid.IdxInjective | src/conv_fft.cpp:9-11 | distinct in-range cells have distinct indices |
| Bits.IsPowerOfTwo | src/fft.h:7-9 | the test `n > 0 && (n & (n - 1)) == 0`; its meaning is stated by the three lemmas below |
| Bits.Pow2IsPowerOfTwo | src/fft.h:7-9 | every `2^m` passes the `n > 0 && (n & (n - 1)) == 0` test |
| Bits.PowerOfTwoIsPow2 | src/fft.h:7-9 | every number passing the test is `2^log2(n)` |
| Bits.PowerOfTwoIff | src/fft.h:7-9 | the bit test holds exactly for the positive powers of two |
| Bits.PowerOfTwoGap | src/fft.h:7-9 | two different powers of two differ by at least a factor 2 |
| Bits.CeilPow2 | src/fft.h:11-16 | the least power of two `>= n`: a power of two, at least `n`, and half of it is below `n` |
| Bits.CeilPow2Least | src/fft.h:11-16 | no power of two `>= n` is smaller than `CeilPow2(n)` |
| Bits.NextPow2 | src/fft.h:11-16 | the doubling loop rejects `n <= 0` and otherwise returns the least power of two `>= n` |
| Bits.RevInvolution | src/fft.h:25-31 | reversing the low `m` bits twice gives back the index; the reversal stays below `2^m` |
| Bits.ReversedIncrementStep | src/fft.h:27-29 | clearing the top set bits and setting the first clear one turns `rev(i)` into `rev(i + 1)` |
| Bits.BitAndPow2 | src/fft.h:28 | `j & bit` is non-zero exactly when that bit of `j` is set |
| Bits.BitXorPow2 | src/fft.h:28-29 | `j ^= bit` clears a set bit (subtracts it) and sets a clear bit (adds it) |
| Fft.BitReversedTwice | src/fft.h:25-31 | the bit-reversal permutation is its own inverse |
| Fft.AdvanceReversed | src/fft.h:27-29 | the inner loop of the permutation advances `j` from `rev(i - 1)` to `rev(i)` |
| Fft.ReversedPrefixStep | src/fft.h:26-31 | after step `i` the buffer has swapped positions `i` and `rev(i)` exactly when `i < rev(i)` |
| Fft.BitReversePermute | src/fft.h:25-31 | the buffer becomes its bit-reversed reordering, a permutation of the old contents |
| Fft.ButterflyPair | src/fft.h:43-46 | explains `ButterflyOutput` in the source's pair form: output `j` of a block is `u + v` and output `j + half` is `u - v`, where `v` is the upper input times `w^j` |
| Fft.BlockStepsPartial | src/fft.h:39-48 | after `j` butterflies the running twiddle is `wlen^j` and the first `j` pairs hold their block outputs |
| Fft.ButterflyBlock | src/fft.h:39-48 | one block of a stage is replaced by its butterfly outputs, and nothing else changes |
| Fft.StagePrefixStep | src/fft.h:38-49 | processing block `b` extends the stage result from `b` blocks to `b + 1` |
| Fft.ButterflyStage | src/fft.h:38-49 | one stage applies the block butterfly to every consecutive block of length `len` |
| Fft.NormalizeInPlace | src/fft.h:53-55 | the inverse divides every element by `n` |
| Fft.AllStages | src/fft.h:34-51 | stages of length 2, 4, …, n in order, each with twiddle base `tw(len, invert)` |
| Fft.Fft1d | src/fft.h:18-56 | an empty buffer is returned unchanged; a non-power-of-two length is an error; otherwise the length is kept |
| Fft.Fft1dInPlace | src/fft.h:18-56 | fails exactly when `Fft1d` does, leaving the buffer unchanged; otherwise the buffer is permuted, staged and, for the inverse, scaled |
| Fft.TransformOnePoint | src/fft.h:18-56 | a one-element buffer is its own transform in both directions |
| Fft.TransformTwoPoints | src/fft.h:18-56 | a two-element buffer becomes `[x + y, x - y]`, halved for the inverse |
| Fft.TwoPointRoundTrip | src/fft.h:53-55 | forward then inverse on two elements gives back the input, for every twiddle: the `1/n` scaling is right |
| Fft.RowPassRow | src/fft.h:70-79 | after the row pass every row is the 1D transform of the old row |
| Fft.ColPassCol | src/fft.h:82-91 | after the column pass every column is the 1D transform of the old column |
| Fft.GatherRow | src/fft.h:72-74 | the scratch row receives row `y` of the grid |
| Fft.ScatterRow | src/fft.h:76-78 | row `y` of the grid is overwritten with the scratch row |
| Fft.GatherCol | src/fft.h:84-86 | the scratch column receives column `x` of the grid |
| Fft.ScatterCol | src/fft.h:88-90 | column `x` of the grid is overwritten with the scratch column |
| Fft.RowAdvance | src/fft.h:71-79 | transforming row `y` extends the row pass from `y` rows to `y + 1` |
| Fft.ColAdvance | src/fft.h:83-91 | transforming column `x` extends the column pass from `x` columns to `x + 1` |
| Fft.RowPassInPlace | src/fft.h:70-79 | the loop over rows leaves every row transformed |
| Fft.ColPassInPlace | src/fft.h:82-91 | the loop over columns leaves every column transformed |
| Fft.Fft2d | src/fft.h:58-96 | succeeds exactly for power-of-two sides whose product is the data size; non-positive sides are reported first, then non-power-of-two sides, then a size mismatch; success keeps the size |
| Fft.Fft2dInPlace | src/fft.h:58-96 | fails exactly when `Fft2d` does, with its error and the data unchanged; otherwise rows then columns are transformed |
| Images.CheckInputs | src/conv_naive.cpp:6-17 | accepts exactly a valid image and kernel; otherwise reports the first failing check in source order |
| Images.Rotate180 | src/conv_fft.cpp:13-15 | the turned kernel has weight `(kx, ky)` equal to the original's `(size-1-kx, size-1-ky)` |
| Images.RotateTwice | src/conv_fft.cpp:13-15 | turning twice is the identity; a kernel is symmetric iff the turn leaves it unchanged |
| ConvNaive.Correlate | src/conv_naive.cpp:26-48 | output `(x, y)` is the sum over taps of `img(x + kx - r, y + ky - r) * w(kx, ky)`, zero outside the image |
| ConvNaive.NaiveResult | src/conv_naive.cpp:5-51 | fails exactly when the input checks fail, with their error; otherwise the output has the input's size |
| ConvNaive.RowStepInside | src/conv_naive.cpp:37-42 | an in-image tap adds `pixel * w` at the row-major indices the source reads |
| ConvNaive.RowStepOutside | src/conv_naive.cpp:37-38 | a tap whose column is outside the image adds nothing |
| ConvNaive.RowOutside | src/conv_naive.cpp:33-34 | a kernel row whose image row is outside the image adds nothing |
| ConvNaive.AccumulateRow | src/conv_naive.cpp:36-43 | the inner loop adds exactly the sum of one kernel row's taps to the accumulator |
| ConvNaive.PixelSum | src/conv_naive.cpp:30-44 | the accumulator for pixel `(x, y)` ends at the correlation sum at `(x, y)` |
| ConvNaive.FillRow | src/conv_naive.cpp:29-47 | writing row `y` extends the correct prefix of the output by one row |
| ConvNaive.ConvolveNaive | src/conv_naive.cpp:5-51 | the loops return exactly `NaiveResult`: the error of the first failing check, or the correlation image |
| ConvNaive.IdentityKernel | src/conv_naive.cpp:26-48 | the 1x1 kernel `[1]` returns the input image unchanged |
| ConvNaive.ZeroKernel | src/conv_naive.cpp:26-48 | an all-zero kernel gives an all-zero image |
| ConvNaive.Linearity | src/conv_naive.cpp:26-48 | every output pixel is linear in the input image |
| ConvFft.CppRem | src/conv_fft.cpp:26-27 | C++ `%` with a positive divisor: the remainder is below `n` in size and takes the sign of the dividend |
| ConvFft.Wrap | src/conv_fft.cpp:26-29 | the remainder, plus `n` when negative, lands in `[0, n)` |
| ConvFft.WrapIsMod | src/conv_fft.cpp:26-29 | the wrapped offset is the mathematical (Euclidean) remainder |
| ConvFft.UnwrapPlace | src/conv_fft.cpp:26-29 | a placed tap offset can be recovered from its cell |
| ConvFft.PlacementInjective | src/conv_fft.cpp:23-31 | distinct taps land in distinct cells when the grid is wider than the kernel, so `+=` never merges two weights |
| ConvFft.KernelPadPlaced | src/conv_fft.cpp:23-31 | tap `(kx, ky)` is stored at cell `((kx - r) mod Wp, (ky - r) mod Hp)` |
| ConvFft.KernelPadCentre | src/conv_fft.cpp:13-31 | the kernel centre lands at cell `(0, 0)` |
| ConvFft.KernelPadCell | src/conv_fft.cpp:23-31 | every cell holds the weight of the one tap placed there, or zero when none is |
| ConvFft.PlacedPrefixStep | src/conv_fft.cpp:26-31 | one tap adds its weight to its wrapped cell and changes nothing else |
| ConvFft.PlaceTap | src/conv_fft.cpp:26-31 | the loop body adds one tap's weight at its wrapped cell |
| ConvFft.PlaceRow | src/conv_fft.cpp:24-32 | the inner loop places one kernel row |
| ConvFft.PlaceCenteredKernel | src/conv_fft.cpp:16-34 | on a zeroed grid the result is the kernel with its centre at `(0, 0)`, offsets wrapped, zero elsewhere |
| ConvFft.PaddedSize | src/conv_fft.cpp:55-60 | a padded side is `next_pow2(n + ks - 1)`; its properties are stated by `PaddedSizeFacts` |
| ConvFft.PaddedSizeFacts | src/conv_fft.cpp:54-60 | each padded side is the least power of two holding `n + ks - 1` cells |
| ConvFft.PaddedSizeExample | src/conv_fft.cpp:54-60 | a 10-wide image with a 3x3 kernel is padded to 16 |
| ConvFft.PaddedSizeBound | src/conv_fft.cpp:54-60 | within the model's dimension bound a padded side is at most `2^14` |
| ConvFft.PaddedArea | src/conv_fft.cpp:54-64 | the padded grid holds the image and the kernel, and its area fits a 32-bit `int` |
| ConvFft.PadImageCell | src/conv_fft.cpp:66-71 | the padded image holds the image in its top-left corner and zeros elsewhere |
| ConvFft.CopyPrefixStep | src/conv_fft.cpp:68-70 | one copy step writes one pixel, as a complex number with zero imaginary part, at its padded index |
| ConvFft.CopyRow | src/conv_fft.cpp:68-70 | the inner loop copies one image row |
| ConvFft.CopyImage | src/conv_fft.cpp:63-71 | a fresh zeroed grid receives the image in its top-left corner |
| ConvFft.MultiplyInPlace | src/conv_fft.cpp:81-83 | every cell of the image spectrum is multiplied by the same cell of the kernel spectrum |
| ConvFft.Crop | src/conv_fft.cpp:90-99 | the output has the image's size, and output cell `(x, y)` is the real part of padded cell `(x, y)` |
| ConvFft.CropRow | src/conv_fft.cpp:96-98 | the inner loop writes one output row, from the real parts of the padded grid |
| ConvFft.CropReal | src/conv_fft.cpp:90-99 | the output is the real part of the top-left `W x H` block |
| ConvFft.FilterInPlace | src/conv_fft.cpp:77-86 | both forward transforms, the product and the inverse transform |
| ConvFft.PadInputs | src/conv_fft.cpp:63-74 | two distinct fresh grids: the padded image and the placed kernel |
| ConvFft.FrequencyPath | src/conv_fft.cpp:50-101 | for valid inputs the result has the input image's size |
| ConvFft.FrequencyConvolve | src/conv_fft.cpp:50-101 | the in-place pipeline computes exactly `FrequencyPath` |
| ConvFft.FftResult | src/conv_fft.cpp:36-102 | fails exactly when the input checks fail, with their error; otherwise the output has the input's size |
| ConvFft.ConvolveFft | src/conv_fft.cpp:36-102 | the method returns exactly `FftResult` |
| Kernels.Make3 | src/kernels.cpp:5-13 | succeeds exactly for nine values, returning them as a 3x3 kernel |
| Kernels.BoxBlur | src/kernels.cpp:15-27 | succeeds exactly for a positive odd size; every weight is `1/size^2` |
| Kernels.BoxBlurFill | src/kernels.cpp:15-27 | the fill loop builds exactly `BoxBlur(size)` |
| Kernels.BoxBlurSumsToOne | src/kernels.cpp:23-24 | a box blur's weights sum to 1 |
| Kernels.BoxBlurSymmetric | src/kernels.cpp:15-27 | a box blur is unchanged by the 180-degree turn |
| Kernels.MakeKernel | src/kernels.cpp:29-80 | a bad size fails first; blur takes any odd size; other filters need size 3; an unknown name fails; success exactly for the four names; at size 3, blur, sharpen, edge and emboss return exactly their listed 3x3 tables, and blur at any other size is the box blur |
| Kernels.BlurIsBoxBlur | src/kernels.cpp:34-44 | the fixed 3x3 blur table is the 3x3 box blur |
| Kernels.TableSums | src/kernels.cpp:52-77 | sharpen and emboss weights sum to 1, edge weights sum to 0 |
| Kernels.Symmetric3 | src/kernels.cpp:52-77 | a 3x3 kernel is turn-symmetric exactly when its table reads the same backwards |
| Kernels.TableSymmetry | src/kernels.cpp:34-77 | blur, sharpen and edge are turn-symmetric; emboss is not |
| Alignment.CyclicConvolve | src/conv_fft.cpp:77-86 | cell `(x, y)` is the cyclic convolution sum of the two grids at `(x, y)` |
| Alignment.Convolve | src/conv_fft.cpp:13-15 | output `(x, y)` is the sum over taps of `img(x - kx + r, y - ky + r) * w(kx, ky)` |
| Alignment.ConvolutionIsRotatedCorrelation | src/conv_naive.cpp:26-43 | convolution at a pixel equals the naive correlation with the turned kernel |
| Alignment.ConvolveIsRotatedCorrelate | src/conv_naive.cpp:26-48 | the whole convolution image is the correlation image of the turned kernel |
| Alignment.SumUnwrap | src/conv_fft.cpp:26-29 | summing over a padded side equals summing over the kernel taps in tap order |
| Alignment.WrapsIntoPadding | src/conv_fft.cpp:54-56 | with `n + ks - 1` cells a sample offset wraps inside the image only when it lies inside the image |
| Alignment.PaddedPixel | src/conv_fft.cpp:54-71 | a wrapped read of the padded image gives the zero-padded pixel |
| Alignment.SampleAtTap | src/conv_fft.cpp:26-31 | at a placed tap the padded image supplies `img(x - kx + r, y - ky + r)` |
| Alignment.CellsAtTap | src/conv_fft.cpp:23-31 | at a placed tap the kernel grid supplies the weight and the image grid the matching pixel |
| Alignment.GapRows | src/conv_fft.cpp:23-31 | grid rows that hold no tap add nothing to the cyclic sum |
| Alignment.GapColumns | src/conv_fft.cpp:23-31 | grid columns that hold no tap add nothing to the cyclic sum |
| Alignment.RowAtTap | src/conv_fft.cpp:23-31 | the cyclic row sum at a placed kernel row equals that row's convolution sum |
| Alignment.CyclicIsSpatial | src/conv_fft.cpp:54-60 | inside the image the cyclic convolution of the padded grids is the zero-padded spatial convolution |
| Alignment.FilterIsCyclic | src/conv_fft.cpp:77-86 | under the convolution theorem the real part of the filtered grid is the cyclic convolution |
| Alignment.FrequencyPathIsConvolution | src/conv_fft.cpp:36-102 | under the convolution theorem `convolve_fft` computes the spatial convolution |
| Alignment.SymmetricKernelsAgree | src/conv_fft.cpp:13-15 | for a turn-symmetric kernel the two convolvers return the same result, errors included |
| Alignment.ConvolveFftMatched | src/conv_fft.cpp:16-34 | placing the turned kernel makes the frequency path return exactly what `convolve_naive` returns, for every kernel |
| Alignment.EmbossCorrelation | src/conv_naive.cpp:26-48 | on the dot image the naive emboss at `(0, 0)` is 2 |
| Alignment.EmbossConvolution | src/conv_fft.cpp:13-15 | on the dot image the emboss convolution at `(0, 0)` is -2 |
| Alignment.EmbossDisagrees | src/conv_fft.cpp:13-15 | on the 3x3 dot image with the emboss kernel, pixel 0 is 2 from `convolve_naive` and -2 from `convolve_fft` |
| Alignment.DotOf | src/conv_fft.cpp:13-15 | a valid `side x side` image whose only non-zero pixel is a 1 at the centre |
| Alignment.DotCorrelation | src/conv_naive.cpp:26-48 | correlating the dot image of the kernel's size gives, at `(x, y)`, the weight at `(ks-1-x, ks-1-y)` |
| Alignment.AgreeOnlyIfSymmetric | src/conv_fft.cpp:13-15 | a kernel whose convolution and correlation agree on its dot image is turn-symmetric |
| Alignment.AgreeIffSymmetric | src/conv_fft.cpp:13-15 | on the dot image of the kernel's size the two convolvers agree exactly when the kernel is turn-symmetric, under the convolution theorem |
| Cli.ToInt | src/main.cpp:47-56 | every failure is the invalid-integer error naming the option and the text |
| Cli.ToIntWholeString | src/main.cpp:47-56 | succeeds exactly when `stoi` returns a value and read the whole string, and returns that value |
| Cli.StdStoi | src/main.cpp:50 | a base-10 `stoi` result reads at least one character, ends on a digit, and fits an `int` |
| Cli.ToIntDecimal | src/main.cpp:47-56 | the decimal spelling of every `int` converts back to it |
| Cli.ToIntLeadingSpace | src/main.cpp:50-51 | leading whitespace is skipped: `" 42"` is 42 |
| Cli.ToIntPlusSign | src/main.cpp:50-51 | an explicit plus sign is accepted: `"+7"` is 7 |
| Cli.ToIntRefusesJunk | src/main.cpp:51 | trailing space, trailing letters, a bare sign and the empty string are all rejected |
| Cli.IsFlag | src/main.cpp:43-45 | a token is a flag exactly when it starts with `-` |
| Cli.Apply | src/main.cpp:77-88 | storing a value fails only for the two numeric options, with the invalid-integer error |
| Cli.Check | src/main.cpp:94-115 | accepts exactly a record with both paths, an odd positive size, `repeat >= 1`, a known method and filter, and size 3 unless blur; the first three failures come in source order |
| Cli.Scan | src/main.cpp:62-92 | the token loop fails only with a missing value, an unknown argument or an invalid integer; it sets `help` only when a help token was seen |
| Cli.ParseArgsSpec | src/main.cpp:58-118 | an accepted record without `--help` passes every check; `help` is set only when a help token was given; without help tokens, the result is the scan followed by the checks |
| Cli.ParseArgs | src/main.cpp:58-118 | the token loop returns exactly the token scan followed by the checks |
| Cli.ParsedArgsAreChecked | src/main.cpp:94-117 | every accepted record without `--help` satisfies all the post-scan checks |
| Cli.HelpStops | src/main.cpp:65-68 | `--help` or `-h` ends the scan at once, with the checks skipped |
| Cli.MissingValueFails | src/main.cpp:70-75 | an option at the end, or followed by a token starting with `-`, fails; otherwise its value is consumed |
| Cli.UnknownTokenFails | src/main.cpp:89-91 | a token that is neither help nor a known option fails, naming it |
| Cli.ScanSuffix | src/main.cpp:62-92 | scanning from position `d + i` is scanning the suffix from `d` at position `i` |
| Cli.ScanFrom | src/main.cpp:62-92 | the scan from token `i` depends only on the tokens from `i` on |
| Cli.ApplyOverwrites | src/main.cpp:77-88 | storing an option twice, string or numeric, keeps only the second value when the first was accepted |
| Cli.ApplyCommutes | src/main.cpp:77-88 | two different options are stored independently: either order succeeds alike and gives the same record |
| Cli.LaterValueWins | src/main.cpp:77-88 | at any position, `flag x flag y` scans as `flag y` alone, for every option with a value, numeric ones included when `x` is a valid integer |
| Cli.SeparatedRepeat | src/main.cpp:77-88 | with another option in between, `flag x other z flag y` scans as `other z flag y`: the earlier value is lost |
| Cli.NegativeValueMissing | src/main.cpp:70-75 | a negative number after an option is taken for a flag, so the option fails with a missing value |
| Cli.DefaultsKept | src/main.cpp:16-26 | with only the paths given, the record has blur, naive, size 3 and one run |
| Cli.RunOnce | src/main.cpp:120-123 | method `naive` runs the naive convolver; every other name runs the FFT convolver |
| Cli.MethodIrrelevantForSymmetricFilters | src/main.cpp:120-123 | for every filter but emboss, `--method` does not change the output, under the convolution theorem |

## Left out

- Floating point: pixels, weights and FFT data are exact reals. Rounding, `1.0/9` in binary and any tolerance between the two convolvers are not modelled.
- Fft.Fft1dInPlace: the twiddle base `wlen` (`cos`/`sin` of `2π/len`) is a parameter. The model says which twiddle powers each butterfly uses, not their values.
- Alignment.FrequencyPathIsConvolution: the convolution theorem for the radix-2 transform is a hypothesis (`ConvolutionTheorem`), not a proved fact. It is a statement about the numerical twiddles.
- Alignment.SymmetricKernelsAgree: the two convolvers agree only under the same hypothesis.
- Alignment.AgreeIffSymmetric: also relies on the convolution-theorem hypothesis, at the dot image's padding.
- Cli.MethodIrrelevantForSymmetricFilters: also relies on the convolution-theorem hypothesis.
- Image files: `src/image.cpp` (PGM/PPM reading and writing) is not part of this model.
- `main()`: the output file, printing, `print_usage`, the clock and the timed repeat loop are left out. They are I/O and time.
- Integer width: dimensions and sizes are unbounded integers, and the cases where the source's 32-bit arithmetic overflows are not modelled.
- ConvFft.ConvolveFft: requires `Images.WithinBounds`, so image sides and kernel sizes above 8192 (`Images.MaxDim`) are excluded. This is stricter than the source's own limit, which is that the padded sides and their product stay within `int`. `Cli.RunOnce` requires the same bound for every method other than `naive`.
- Fft.Fft2dInPlace: for power-of-two sides it requires `width * height <= 2^30` (`Bits.MaxPow2Arg`), and both sides below `2^30` when the buffer size matches. Above that bound the source's `int` product `width * height` overflows.
- Bits.NextPow2: requires `n <= 2^30`, above which the source's doubling overflows.
- Cli.ToInt: `std::stoi` is a parameter. `Cli.StdStoi` is a base-10 reference model without locale.
- Cli.ToIntRefusesJunk: the out-of-range case of `std::stoi` is stated only through `StdStoi`'s range bound, with no example lemma.
- Cli.Check: only the first three failures are stated in their order. The rest are covered by `Check`'s success condition (`r == None <==> …`).
- Cli.MissingValueFails: stated for one token position at a time.
- Cli.UnknownTokenFails: stated for one token position at a time.
- Cli.ParseArgs: takes the tokens after the program name, as the source's `v` does.
- Cli.RunOnce: models `run_once` as written. With the emboss filter it returns the FFT convolver's result, which differs from the naive one (see Findings).

## Findings

| source | as written | input that shows it | evidently intended | confidence | as-written member | corrected member |
|---|---|---|---|---|---|---|
| src/conv_fft.cpp:13-34 | the kernel is placed unturned, so the product of spectra gives a convolution, while `convolve_naive` computes a correlation; the comment says they match | 3x3 image with 1 at the centre and 0 elsewhere, emboss kernel (padded to 8x8): pixel 0 is 2 from `convolve_naive` and -2 from `convolve_fft` | the FFT path matches the naive one for every kernel, i.e. the kernel is turned 180 degrees before placement | not executed | Alignment.EmbossDisagrees | Alignment.ConvolveFftMatched |

=== FILE: alignment.dfy ===
/** What the frequency convolver computes, in exact arithmetic.

    Multiplying spectra and transforming back gives the cyclic convolution
    of the two padded grids. That fact (the convolution theorem) is a
    statement about the numerical transform, which this model leaves
    abstract, so it enters here as the hypothesis `ConvolutionTheorem` and
    is never assumed. From it:

    - the cropped output of `convolve_fft` is the spatial CONVOLUTION
      `sum of img(x - kx + r, y - ky + r) * w(kx, ky)`: the padding is wide
      enough that no wrapped sample ever lands inside the image;
    - a convolution is the correlation with the kernel turned by 180
      degrees, while `convolve_naive` computes the correlation with the
      kernel itself; so the two convolvers agree on every image for the
      kernels the turn leaves unchanged (blur, sharpen, edge), and every
      other kernel, emboss among them, is told apart on the image with a
      single lit centre pixel;
    - turning the kernel before it is placed makes the frequency path
      compute what the spatial one does, for every kernel. */
module Alignment {
  import opened Wrappers
  import opened Bits
  import opened Grid
  import opened Sums
  import opened ComplexNumbers
  import opened Images
  import opened Fft
  import opened ConvNaive
  import opened ConvFft
  import opened Kernels

  // ---------------------------------------------------------------------------
  // Cyclic convolution and the hypothesis

  /** The term of cell `(u, v)` of `b` in cell `(x, y)` of the cyclic
      convolution of `a` with `b`. */
  function CyclicTermAt(a: seq<real>, b: seq<real>, w: int, h: int, x: int, y: int, u: int, v: int): real
  {
    if 0 <= u < w && 0 <= v < h && |a| == w * h && |b| == w * h
    then Cell(a, w, h, (x - u) % w, (y - v) % h) * Cell(b, w, h, u, v)
    else 0.0
  }

  function CyclicTerm(a: seq<real>, b: seq<real>, w: int, h: int, x: int, y: int, v: int): int -> real
  {
    u => CyclicTermAt(a, b, w, h, x, y, u, v)
  }

  function CyclicRow(a: seq<real>, b: seq<real>, w: int, h: int, x: int, y: int): int -> real
  {
    v => Sum(w, CyclicTerm(a, b, w, h, x, y, v))
  }

  /** Cell `(x, y)` of the cyclic convolution of `a` with `b`: the sum over
      every cell `(u, v)` of `a(x - u, y - v) * b(u, v)`, both differences
      taken modulo the sides. */
  function CyclicAt(a: seq<real>, b: seq<real>, w: int, h: int, x: int, y: int): real
  {
    Sum(h, CyclicRow(a, b, w, h, x, y))
  }

  function CyclicFn(a: seq<real>, b: seq<real>, w: int, h: int): (int, int) -> real
  {
    (x, y) => CyclicAt(a, b, w, h, x, y)
  }

  function CyclicConvolve(a: seq<real>, b: seq<real>, w: int, h: int): (r: seq<real>)
    requires w > 0 && h >= 0
    ensures |r| == w * h
    ensures forall x, y :: 0 <= x < w && 0 <= y < h ==> Cell(r, w, h, x, y) == CyclicAt(a, b, w, h, x, y)
  {
    Tabulate(w, h, CyclicFn(a, b, w, h))
  }

  /** The convolution theorem for the transform with twiddles `tw` on
      `w x h` grids: filtering two real grids gives, in its real parts,
      their cyclic convolution. */
  ghost predicate ConvolutionTheorem(tw: Twiddle, w: int, h: int)
  {
    IsPowerOfTwo(w) && IsPowerOfTwo(h) &&
    forall a: seq<real>, b: seq<real> :: |a| == w * h && |b| == w * h ==>
      Re(Filter(ToComplex(a), ToComplex(b), w, h, tw)) == CyclicConvolve(a, b, w, h)
  }

  // ---------------------------------------------------------------------------
  // The spatial convolution

  /** Tap `(kx, ky)` of the convolution at output `(x, y)`. */
  function ConvTapAt(img: Image, k: Kernel, x: int, y: int, kx: int, ky: int): real
  {
    Pixel(img, x - kx + Radius(k), y - ky + Radius(k)) * Weight(k, kx, ky)
  }

  function ConvTap(img: Image, k: Kernel, x: int, y: int, ky: int): int -> real
  {
    kx => ConvTapAt(img, k, x, y, kx, ky)
  }

  function ConvRow(img: Image, k: Kernel, x: int, y: int): int -> real
  {
    ky => Sum(k.size, ConvTap(img, k, x, y, ky))
  }

  /** Output `(x, y)` of the convolution: the sum over the taps of
      `img(x - kx + r, y - ky + r) * w(kx, ky)`, 0 outside the image. */
  function ConvolutionAt(img: Image, k: Kernel, x: int, y: int): real
  {
    Sum(k.size, ConvRow(img, k, x, y))
  }

  function ConvolutionFn(img: Image, k: Kernel): (int, int) -> real
  {
    (x, y) => ConvolutionAt(img, k, x, y)
  }

  function Convolve(img: Image, k: Kernel): (out: Image)
    requires ValidImage(img)
    ensures ValidImage(out) && out.width == img.width && out.height == img.height
    ensures forall x, y :: 0 <= x < img.width && 0 <= y < img.height ==>
      Cell(out.pixels, out.width, out.height, x, y) == ConvolutionAt(img, k, x, y)
  {
    Image(img.width, img.height, Tabulate(img.width, img.height, ConvolutionFn(img, k)))
  }

  // ---------------------------------------------------------------------------
  // Convolution versus correlation

  /** A correlation tap of the turned kernel reads the same weight and
      sample as the opposite convolution tap. */
  lemma RotatedTap(img: Image, k: Kernel, x: int, y: int, kx: int, ky: int)
    requires ValidKernel(k) && 0 <= kx < k.size && 0 <= ky < k.size
    ensures TapsAcross(img, Rotate180(k), x, y, ky)(kx) == ConvTap(img, k, x, y, k.size - 1 - ky)(k.size - 1 - kx)
  {
    var ks, r := k.size, Radius(k);
    assert ks - 1 == 2 * r;
    assert x + (kx - r) == x - (ks - 1 - kx) + r && y + (ky - r) == y - (ks - 1 - ky) + r;
    var p, w := Pixel(img, x + (kx - r), y + (ky - r)), Weight(k, ks - 1 - kx, ks - 1 - ky);
    TapValue(img, Rotate180(k), x, y, kx, ky, p, w);
    ConvTapValue(img, k, x, y, ks - 1 - kx, ks - 1 - ky, p, w);
  }

  lemma ConvTapValue(img: Image, k: Kernel, x: int, y: int, kx: int, ky: int, p: real, w: real)
    requires Pixel(img, x - kx + Radius(k), y - ky + Radius(k)) == p && Weight(k, kx, ky) == w
    ensures ConvTap(img, k, x, y, ky)(kx) == p * w
  {
  }

  /** Row `ky` of the correlation with the turned kernel is row
      `size - 1 - ky` of the convolution, read backwards. */
  lemma RotatedRow(img: Image, k: Kernel, x: int, y: int, ky: int)
    requires ValidKernel(k) && 0 <= ky < k.size
    ensures RowSums(img, Rotate180(k), x, y)(ky) == ConvRow(img, k, x, y)(k.size - 1 - ky)
  {
    var ks := k.size;
    forall kx | 0 <= kx < ks
      ensures TapsAcross(img, Rotate180(k), x, y, ky)(kx) == ConvTap(img, k, x, y, ks - 1 - ky)(ks - 1 - kx)
    {
      RotatedTap(img, k, x, y, kx, ky);
    }
    SumReverse(ks, ConvTap(img, k, x, y, ks - 1 - ky), TapsAcross(img, Rotate180(k), x, y, ky));
  }

  /** A convolution is the correlation with the kernel turned by 180 degrees. */
  lemma ConvolutionIsRotatedCorrelation(img: Image, k: Kernel, x: int, y: int)
    requires ValidKernel(k)
    ensures ConvolutionAt(img, k, x, y) == CorrelationAt(img, Rotate180(k), x, y)
  {
    var ks := k.size;
    forall ky | 0 <= ky < ks
      ensures RowSums(img, Rotate180(k), x, y)(ky) == ConvRow(img, k, x, y)(ks - 1 - ky)
    {
      RotatedRow(img, k, x, y, ky);
    }
    SumReverse(ks, ConvRow(img, k, x, y), RowSums(img, Rotate180(k), x, y));
  }

  /** As images: the convolution with `k` is the naive result for the turned kernel. */
  lemma ConvolveIsRotatedCorrelate(img: Image, k: Kernel)
    requires ValidImage(img) && ValidKernel(k)
    ensures Convolve(img, k) == Correlate(img, Rotate180(k))
  {
    var c, n := Convolve(img, k), Correlate(img, Rotate180(k));
    forall x, y | 0 <= x < img.width && 0 <= y < img.height
      ensures Cell(c.pixels, img.width, img.height, x, y) == Cell(n.pixels, img.width, img.height, x, y)
    {
      ConvolutionIsRotatedCorrelation(img, k, x, y);
    }
    GridEq(c.pixels, n.pixels, img.width, img.height);
  }

  // ---------------------------------------------------------------------------
  // The padded cyclic convolution is the spatial convolution

  /** The non-negative remainders of the taps' offsets `kx - r`. */
  lemma WrapOffset(d: int, r: int, n: int)
    requires -r <= d <= r && 2 * r < n
    ensures Wrap(d, n) == if d < 0 then d + n else d
  {
    WrapIsMod(d, n);
    if d < 0 {
      DivModUnique(d, n, -1, d + n);
    } else {
      DivModUnique(d, n, 0, d);
    }
  }

  /** A sum over a padded side of length `n`, where `f` vanishes on every
      cell no tap is placed on, is the sum over the `m = 2r + 1` taps. */
  lemma SumUnwrap(n: int, r: int, m: int, f: int -> real, g: int -> real)
    requires r >= 0 && 2 * r < n && m == 2 * r + 1
    requires forall u :: r < u < n - r ==> f(u) == 0.0
    requires forall t :: 0 <= t <= 2 * r ==> g(t) == f(Wrap(t - r, n))
    ensures Sum(n, f) == Sum(m, g)
  {
    var wrapped := (i: int) => f(n - r + i);
    var upper := (i: int) => g(r + i);
    SumOverSide(n, r, f, wrapped);
    LeftTaps(n, r, f, g, wrapped);
    RightTaps(n, r, f, g, upper);
    SumOverTaps(r, m, f, g, wrapped, upper);
  }

  /** The side is the `r + 1` cells from 0, a zero middle, and the `r`
      cells ending at `n - 1`. */
  lemma SumOverSide(n: int, r: int, f: int -> real, wrapped: int -> real)
    requires r >= 0 && 2 * r < n
    requires forall u :: r < u < n - r ==> f(u) == 0.0
    requires forall i :: 0 <= i < r ==> wrapped(i) == f(n - r + i)
    ensures Sum(n, f) == Sum(r + 1, f) + Sum(r, wrapped)
  {
    var high := (i: int) => f(r + 1 + i);
    SumSplit(r + 1, n - r - 1, n, f, high);
    SumSplit(n - 2 * r - 1, r, n - r - 1, high, wrapped);
    SumOfZeros(n - 2 * r - 1, high);
  }

  /** The `m = 2r + 1` taps: the `r` left of the centre are the cells
      ending the side, the others the cells starting it. */
  lemma SumOverTaps(r: int, m: int, f: int -> real, g: int -> real, wrapped: int -> real, upper: int -> real)
    requires r >= 0 && m == 2 * r + 1
    requires forall i :: 0 <= i < r ==> g(i) == wrapped(i)
    requires forall i :: 0 <= i < r + 1 ==> upper(i) == g(r + i)
    requires forall i :: 0 <= i < r + 1 ==> upper(i) == f(i)
    ensures Sum(m, g) == Sum(r + 1, f) + Sum(r, wrapped)
  {
    SumSplit(r, r + 1, m, g, upper);
    SumCongruence(r, g, wrapped);
    SumCongruence(r + 1, upper, f);
  }

  /** The taps left of the centre wrap to the end of the side. */
  lemma LeftTaps(n: int, r: int, f: int -> real, g: int -> real, wrapped: int -> real)
    requires r >= 0 && 2 * r < n
    requires forall t :: 0 <= t <= 2 * r ==> g(t) == f(Wrap(t - r, n))
    requires forall i :: 0 <= i < r ==> wrapped(i) == f(n - r + i)
    ensures forall i :: 0 <= i < r ==> g(i) == wrapped(i)
  {
    forall i | 0 <= i < r ensures g(i) == wrapped(i) {
      WrapOffset(i - r, r, n);
      assert g(i) == f(i - r + n);
    }
  }

  /** The centre tap and those right of it land on the start of the side. */
  lemma RightTaps(n: int, r: int, f: int -> real, g: int -> real, upper: int -> real)
    requires r >= 0 && 2 * r < n
    requires forall t :: 0 <= t <= 2 * r ==> g(t) == f(Wrap(t - r, n))
    requires forall i :: 0 <= i < r + 1 ==> upper(i) == g(r + i)
    ensures forall i :: 0 <= i < r + 1 ==> upper(i) == f(i)
  {
    forall i | 0 <= i < r + 1 ensures upper(i) == f(i) {
      WrapOffset(i, r, n);
      assert upper(i) == g(r + i) == f(Wrap(i, n));
    }
  }

  /** `(x - (c mod n)) mod n` is `(x - c) mod n`. */
  lemma ModSub(x: int, c: int, n: int)
    requires n > 0
    ensures (x - c % n) % n == (x - c) % n
  {
    var q := c / n;
    assert x - c % n == (x - c) + q * n;
    DivModUnique(x - c % n, n, (x - c) / n + q, (x - c) % n);
  }

  /** A sample `d` at most `r` outside a side of length `len` lands, modulo
      a side `n >= len + 2r`, on itself or outside `0 .. len - 1`: wrapped
      samples fall in the zero padding. */
  lemma WrapsIntoPadding(d: int, len: int, r: int, n: int)
    requires -r <= d < len + r && len + 2 * r <= n && r >= 0 && len > 0
    ensures (0 <= d % n < len) <==> (0 <= d < len)
    ensures 0 <= d < len ==> d % n == d
  {
    if d < 0 {
      DivModUnique(d, n, -1, d + n);
    } else {
      DivModUnique(d, n, 0, d);
    }
  }

  /** The padded image read at a wrapped position is the zero-padded image
      read at the unwrapped one. */
  lemma PaddedPixel(img: Image, wp: int, hp: int, dx: int, dy: int, r: int)
    requires ValidImage(img) && r >= 0 && img.width + 2 * r <= wp && img.height + 2 * r <= hp
    requires -r <= dx < img.width + r && -r <= dy < img.height + r
    ensures Cell(PadImage(img, wp, hp), wp, hp, dx % wp, dy % hp) == Pixel(img, dx, dy)
  {
    WrapsIntoPadding(dx, img.width, r, wp);
    WrapsIntoPadding(dy, img.height, r, hp);
    PadImageCell(img, wp, hp, dx % wp, dy % hp);
  }

  /** The setting of the alignment: inputs that passed the checks, a
      padding at least `W + ks - 1` by `H + ks - 1`, and an output pixel. */
  predicate Padded(img: Image, k: Kernel, wp: int, hp: int)
  {
    ValidImage(img) && ValidKernel(k) && img.width + k.size - 1 <= wp && img.height + k.size - 1 <= hp
  }

  /** The image sample a placed tap meets in the cyclic sum is the one
      the spatial convolution reads. */
  lemma SampleAtTap(img: Image, k: Kernel, wp: int, hp: int, x: int, y: int, kx: int, ky: int)
    requires Padded(img, k, wp, hp) && 0 <= x < img.width && 0 <= y < img.height
    requires 0 <= kx < k.size && 0 <= ky < k.size
    ensures Cell(PadImage(img, wp, hp), wp, hp, (x - Wrap(kx - Radius(k), wp)) % wp, (y - Wrap(ky - Radius(k), hp)) % hp)
         == Pixel(img, x - kx + Radius(k), y - ky + Radius(k))
  {
    var r := Radius(k);
    assert k.size == 2 * r + 1;
    SampleShift(img, wp, hp, x, y, kx - r, ky - r, r);
  }

  /** The padded image, read at `(x, y)` minus a wrapped offset of at most
      `r` per axis, is the zero-padded image read at the true difference. */
  lemma SampleShift(img: Image, wp: int, hp: int, x: int, y: int, cx: int, cy: int, r: int)
    requires ValidImage(img) && r >= 0 && img.width + 2 * r <= wp && img.height + 2 * r <= hp
    requires 0 <= x < img.width && 0 <= y < img.height && -r <= cx <= r && -r <= cy <= r
    ensures Cell(PadImage(img, wp, hp), wp, hp, (x - Wrap(cx, wp)) % wp, (y - Wrap(cy, hp)) % hp)
         == Pixel(img, x - cx, y - cy)
  {
    WrapIsMod(cx, wp);
    WrapIsMod(cy, hp);
    ModSub(x, cx, wp);
    ModSub(y, cy, hp);
    PaddedPixel(img, wp, hp, x - cx, y - cy, r);
  }

  /** The two cells the cyclic sum multiplies at the cell a tap is placed
      on: that tap's weight, and the sample the spatial convolution reads. */
  lemma CellsAtTap(img: Image, k: Kernel, wp: int, hp: int, x: int, y: int, kx: int, ky: int)
    requires Padded(img, k, wp, hp) && 0 <= x < img.width && 0 <= y < img.height
    requires 0 <= kx < k.size && 0 <= ky < k.size
    ensures var u, v := Wrap(kx - Radius(k), wp), Wrap(ky - Radius(k), hp);
      Cell(KernelPad(k, wp, hp), wp, hp, u, v) == Weight(k, kx, ky)
      && Cell(PadImage(img, wp, hp), wp, hp, (x - u) % wp, (y - v) % hp) == Pixel(img, x - kx + Radius(k), y - ky + Radius(k))
  {
    KernelPadPlaced(k, wp, hp, kx, ky);
    SampleAtTap(img, k, wp, hp, x, y, kx, ky);
  }

  /** One term of the cyclic sum, at the cell a tap is placed on, is that
      tap's term of the spatial convolution. */
  lemma TermAtTap(img: Image, k: Kernel, wp: int, hp: int, x: int, y: int, kx: int, ky: int)
    requires Padded(img, k, wp, hp) && 0 <= x < img.width && 0 <= y < img.height
    requires 0 <= kx < k.size && 0 <= ky < k.size
    ensures CyclicTerm(PadImage(img, wp, hp), KernelPad(k, wp, hp), wp, hp, x, y, Wrap(ky - Radius(k), hp))(Wrap(kx - Radius(k), wp))
         == ConvTap(img, k, x, y, ky)(kx)
  {
    CellsAtTap(img, k, wp, hp, x, y, kx, ky);
    TermValue(img, k, PadImage(img, wp, hp), KernelPad(k, wp, hp), wp, hp, x, y, kx, ky,
              Wrap(kx - Radius(k), wp), Wrap(ky - Radius(k), hp));
  }

  /** A term of the cyclic sum is the product of the two cells it reads:
      when those are a tap's weight and sample, it is that tap's term. */
  lemma TermValue(img: Image, k: Kernel, a: seq<real>, b: seq<real>, w: int, h: int, x: int, y: int,
                  kx: int, ky: int, u: int, v: int)
    requires 0 <= u < w && 0 <= v < h && |a| == w * h && |b| == w * h
    requires Cell(b, w, h, u, v) == Weight(k, kx, ky)
    requires Cell(a, w, h, (x - u) % w, (y - v) % h) == Pixel(img, x - kx + Radius(k), y - ky + Radius(k))
    ensures CyclicTerm(a, b, w, h, x, y, v)(u) == ConvTap(img, k, x, y, ky)(kx)
  {
    assert CyclicTerm(a, b, w, h, x, y, v)(u) == CyclicTermAt(a, b, w, h, x, y, u, v);
    assert ConvTap(img, k, x, y, ky)(kx) == ConvTapAt(img, k, x, y, kx, ky);
  }

  /** A padded row no kernel row is placed on contributes nothing. */
  lemma EmptyRow(img: Image, k: Kernel, wp: int, hp: int, x: int, y: int, v: int)
    requires Padded(img, k, wp, hp) && Radius(k) < v < hp - Radius(k)
    ensures CyclicRow(PadImage(img, wp, hp), KernelPad(k, wp, hp), wp, hp, x, y)(v) == 0.0
  {
    var pi, kp := PadImage(img, wp, hp), KernelPad(k, wp, hp);
    var f := CyclicTerm(pi, kp, wp, hp, x, y, v);
    forall u | 0 <= u < wp ensures f(u) == 0.0 {
      KernelPadCell(k, wp, hp, u, v);
    }
    SumOfZeros(wp, f);
  }

  /** In a padded row, the cells between the last column a tap is placed
      on and the wrapped left taps contribute nothing. */
  lemma GapColumns(img: Image, k: Kernel, wp: int, hp: int, x: int, y: int, v: int)
    requires Padded(img, k, wp, hp) && 0 <= v < hp
    ensures forall u :: Radius(k) < u < wp - Radius(k) ==>
      CyclicTerm(PadImage(img, wp, hp), KernelPad(k, wp, hp), wp, hp, x, y, v)(u) == 0.0
  {
    var r := Radius(k);
    var f := CyclicTerm(PadImage(img, wp, hp), KernelPad(k, wp, hp), wp, hp, x, y, v);
    forall u | r < u < wp - r ensures f(u) == 0.0 {
      KernelPadCell(k, wp, hp, u, v);
    }
  }

  /** Row `ky` of the kernel, read through the placement, is that row's
      taps of the spatial convolution. */
  lemma PlacedTaps(img: Image, k: Kernel, wp: int, hp: int, x: int, y: int, ky: int)
    requires Padded(img, k, wp, hp) && 0 <= x < img.width && 0 <= y < img.height && 0 <= ky < k.size
    ensures forall kx :: 0 <= kx <= 2 * Radius(k) ==>
      ConvTap(img, k, x, y, ky)(kx)
      == CyclicTerm(PadImage(img, wp, hp), KernelPad(k, wp, hp), wp, hp, x, y, Wrap(ky - Radius(k), hp))(Wrap(kx - Radius(k), wp))
  {
    forall kx | 0 <= kx <= 2 * Radius(k)
      ensures ConvTap(img, k, x, y, ky)(kx)
        == CyclicTerm(PadImage(img, wp, hp), KernelPad(k, wp, hp), wp, hp, x, y, Wrap(ky - Radius(k), hp))(Wrap(kx - Radius(k), wp))
    {
      TermAtTap(img, k, wp, hp, x, y, kx, ky);
    }
  }

  /** The padded row a kernel row is placed on contributes that row's taps. */
  lemma RowAtTap(img: Image, k: Kernel, wp: int, hp: int, x: int, y: int, ky: int)
    requires Padded(img, k, wp, hp) && 0 <= x < img.width && 0 <= y < img.height && 0 <= ky < k.size
    ensures CyclicRow(PadImage(img, wp, hp), KernelPad(k, wp, hp), wp, hp, x, y)(Wrap(ky - Radius(k), hp))
         == ConvRow(img, k, x, y)(ky)
  {
    var v := Wrap(ky - Radius(k), hp);
    assert k.size == 2 * Radius(k) + 1;
    GapColumns(img, k, wp, hp, x, y, v);
    PlacedTaps(img, k, wp, hp, x, y, ky);
    SumUnwrap(wp, Radius(k), k.size, CyclicTerm(PadImage(img, wp, hp), KernelPad(k, wp, hp), wp, hp, x, y, v), ConvTap(img, k, x, y, ky));
  }

  /** The padded rows between the last kernel row placed and the wrapped
      top rows contribute nothing. */
  lemma GapRows(img: Image, k: Kernel, wp: int, hp: int, x: int, y: int)
    requires Padded(img, k, wp, hp)
    ensures forall v :: Radius(k) < v < hp - Radius(k) ==>
      CyclicRow(PadImage(img, wp, hp), KernelPad(k, wp, hp), wp, hp, x, y)(v) == 0.0
  {
    forall v | Radius(k) < v < hp - Radius(k)
      ensures CyclicRow(PadImage(img, wp, hp), KernelPad(k, wp, hp), wp, hp, x, y)(v) == 0.0
    {
      EmptyRow(img, k, wp, hp, x, y, v);
    }
  }

  /** Every kernel row, read through the placement, is that row of the
      spatial convolution. */
  lemma PlacedRows(img: Image, k: Kernel, wp: int, hp: int, x: int, y: int)
    requires Padded(img, k, wp, hp) && 0 <= x < img.width && 0 <= y < img.height
    ensures forall ky :: 0 <= ky <= 2 * Radius(k) ==>
      ConvRow(img, k, x, y)(ky)
      == CyclicRow(PadImage(img, wp, hp), KernelPad(k, wp, hp), wp, hp, x, y)(Wrap(ky - Radius(k), hp))
  {
    forall ky | 0 <= ky <= 2 * Radius(k)
      ensures ConvRow(img, k, x, y)(ky)
        == CyclicRow(PadImage(img, wp, hp), KernelPad(k, wp, hp), wp, hp, x, y)(Wrap(ky - Radius(k), hp))
    {
      RowAtTap(img, k, wp, hp, x, y, ky);
    }
  }

  /** Cell `(x, y)` of the padded image cyclically convolved with the placed
      kernel is output `(x, y)` of the spatial convolution. */
  lemma CyclicIsSpatial(img: Image, k: Kernel, wp: int, hp: int, x: int, y: int)
    requires Padded(img, k, wp, hp) && 0 <= x < img.width && 0 <= y < img.height
    ensures CyclicAt(PadImage(img, wp, hp), KernelPad(k, wp, hp), wp, hp, x, y) == ConvolutionAt(img, k, x, y)
  {
    assert k.size == 2 * Radius(k) + 1;
    GapRows(img, k, wp, hp, x, y);
    PlacedRows(img, k, wp, hp, x, y);
    SumUnwrap(hp, Radius(k), k.size, CyclicRow(PadImage(img, wp, hp), KernelPad(k, wp, hp), wp, hp, x, y), ConvRow(img, k, x, y));
  }


  /** The convolution theorem applied to the padded image and the placed
      kernel. */
  lemma FilterIsCyclic(img: Image, k: Kernel, wp: int, hp: int, tw: Twiddle)
    requires Padded(img, k, wp, hp) && ConvolutionTheorem(tw, wp, hp)
    ensures var f := Filter(ToComplex(PadImage(img, wp, hp)), ToComplex(KernelPad(k, wp, hp)), wp, hp, tw);
      Re(f) == CyclicConvolve(PadImage(img, wp, hp), KernelPad(k, wp, hp), wp, hp)
  {
  }

  /** One output pixel of the frequency path, given the theorem's
      conclusion for the padded grids. */
  lemma FrequencyCell(img: Image, k: Kernel, f: seq<Complex>, wp: int, hp: int, x: int, y: int)
    requires Padded(img, k, wp, hp) && |f| == wp * hp && 0 <= x < img.width && 0 <= y < img.height
    requires Re(f) == CyclicConvolve(PadImage(img, wp, hp), KernelPad(k, wp, hp), wp, hp)
    ensures Cell(Crop(f, wp, hp, img.width, img.height).pixels, img.width, img.height, x, y)
         == Cell(Convolve(img, k).pixels, img.width, img.height, x, y)
  {
    IdxBounds(x, y, wp, hp);
    CyclicIsSpatial(img, k, wp, hp, x, y);
  }

  /** Under the convolution theorem for the padded sides, the frequency
      path of `convolve_fft` computes the spatial convolution. */
  lemma FrequencyPathIsConvolution(img: Image, k: Kernel, tw: Twiddle)
    requires ValidImage(img) && ValidKernel(k)
    requires ConvolutionTheorem(tw, PaddedSize(img.width, k.size), PaddedSize(img.height, k.size))
    ensures FrequencyPath(img, k, tw) == Convolve(img, k)
  {
    var wp, hp := PaddedSize(img.width, k.size), PaddedSize(img.height, k.size);
    PaddedSizeFacts(img.width, k.size);
    PaddedSizeFacts(img.height, k.size);
    var f := Filter(ToComplex(PadImage(img, wp, hp)), ToComplex(KernelPad(k, wp, hp)), wp, hp, tw);
    FilterIsCyclic(img, k, wp, hp, tw);
    var out, c := FrequencyPath(img, k, tw), Convolve(img, k);
    assert out == Crop(f, wp, hp, img.width, img.height);
    forall x, y | 0 <= x < img.width && 0 <= y < img.height
      ensures Cell(out.pixels, img.width, img.height, x, y) == Cell(c.pixels, img.width, img.height, x, y)
    {
      FrequencyCell(img, k, f, wp, hp, x, y);
    }
    GridEq(out.pixels, c.pixels, img.width, img.height);
  }

  // ---------------------------------------------------------------------------
  // When the two convolvers agree

  /** The theorem's hypothesis for the sides `convolve_fft` pads `img` to. */
  ghost predicate TheoremAtPadding(img: Image, k: Kernel, tw: Twiddle)
  {
    ValidImage(img) && ValidKernel(k) ==>
      ConvolutionTheorem(tw, PaddedSize(img.width, k.size), PaddedSize(img.height, k.size))
  }

  /** For a kernel the 180-degree turn leaves unchanged, `convolve_fft` and
      `convolve_naive` return the same result on every input, errors
      included. */
  lemma SymmetricKernelsAgree(img: Image, k: Kernel, tw: Twiddle)
    requires Symmetric(k) && TheoremAtPadding(img, k, tw)
    ensures FftResult(img, k, tw) == NaiveResult(img, k)
  {
    if CheckInputs(img, k).None? {
      FrequencyPathIsConvolution(img, k, tw);
      ConvolveIsRotatedCorrelate(img, k);
      RotateTwice(k);
    }
  }

  /** The convolver the placement comment describes: turning the kernel by
      180 degrees before it is placed (weight `(kx, ky)` at
      `((r - kx) mod Wp, (r - ky) mod Hp)`) makes the frequency path match
      `convolve_naive` on every input. */
  method ConvolveFftMatched(img: Image, k: Kernel, tw: Twiddle) returns (r: Result<Image, ConvError>)
    requires WithinBounds(img, k)
    requires ValidKernel(k) ==> TheoremAtPadding(img, Rotate180(k), tw)
    ensures r == NaiveResult(img, k)
  {
    if !ValidKernel(k) {
      r := ConvolveFft(img, k, tw);
    } else {
      var rk := Rotate180(k);
      r := ConvolveFft(img, rk, tw);
      if ValidImage(img) {
        FrequencyPathIsConvolution(img, rk, tw);
        ConvolveIsRotatedCorrelate(img, rk);
        RotateTwice(k);
      }
    }
  }

  // ---------------------------------------------------------------------------
  // The emboss table tells the two convolvers apart

  function Sum3(f: int -> real): real
  {
    f(0) + f(1) + f(2)
  }

  lemma SumOfThree(f: int -> real)
    ensures Sum(3, f) == Sum3(f)
  {
    assert Sum(1, f) == f(0);
    assert Sum(2, f) == f(0) + f(1);
  }

  /** A single lit pixel in the middle of a 3x3 image. */
  const Dot: Image := Image(3, 3, [0.0, 0.0, 0.0, 0.0, 1.0, 0.0, 0.0, 0.0, 0.0])

  const Emboss: Kernel := Kernel(3, EmbossTable)

  lemma DotPixels(x: int, y: int)
    ensures Pixel(Dot, x, y) == if x == 1 && y == 1 then 1.0 else 0.0
  {
    if 0 <= x < 3 && 0 <= y < 3 {
      assert Pixel(Dot, x, y) == Dot.pixels[y * 3 + x];
    }
  }

  /** Correlation tap `(kx, ky)` at the top-left pixel reads sample
      `(kx - 1, ky - 1)`: only the lit centre, under weight `(2, 2)`, counts. */
  lemma EmbossTap(kx: int, ky: int)
    requires 0 <= kx < 3 && 0 <= ky < 3
    ensures TapsAcross(Dot, Emboss, 0, 0, ky)(kx) == if kx == 2 && ky == 2 then 2.0 else 0.0
  {
    DotPixels(kx - 1, ky - 1);
    if kx == 2 && ky == 2 {
      assert Weight(Emboss, 2, 2) == EmbossTable[8];
    }
  }

  /** At the top-left pixel the correlation picks the weight at `(2, 2)`. */
  lemma EmbossCorrelation()
    ensures CorrelationAt(Dot, Emboss, 0, 0) == 2.0
  {
    var rows := RowSums(Dot, Emboss, 0, 0);
    forall ky | 0 <= ky < 3 ensures rows(ky) == if ky == 2 then 2.0 else 0.0 {
      SumOfThree(TapsAcross(Dot, Emboss, 0, 0, ky));
      EmbossTap(0, ky);
      EmbossTap(1, ky);
      EmbossTap(2, ky);
    }
    SumOfThree(rows);
  }

  /** Convolution tap `(kx, ky)` at the top-left pixel reads sample
      `(1 - kx, 1 - ky)`: only the lit centre, under weight `(0, 0)`, counts. */
  lemma EmbossConvTap(kx: int, ky: int)
    requires 0 <= kx < 3 && 0 <= ky < 3
    ensures ConvTap(Dot, Emboss, 0, 0, ky)(kx) == if kx == 0 && ky == 0 then -2.0 else 0.0
  {
    DotPixels(1 - kx, 1 - ky);
    if kx == 0 && ky == 0 {
      assert Weight(Emboss, 0, 0) == EmbossTable[0];
    }
  }

  /** At the top-left pixel the convolution picks the weight at `(0, 0)`. */
  lemma EmbossConvolution()
    ensures ConvolutionAt(Dot, Emboss, 0, 0) == -2.0
  {
    var rows := ConvRow(Dot, Emboss, 0, 0);
    forall ky | 0 <= ky < 3 ensures rows(ky) == if ky == 0 then -2.0 else 0.0 {
      SumOfThree(ConvTap(Dot, Emboss, 0, 0, ky));
      EmbossConvTap(0, ky);
      EmbossConvTap(1, ky);
      EmbossConvTap(2, ky);
    }
    SumOfThree(rows);
  }

  lemma PaddedSizeOfDot()
    ensures PaddedSize(3, 3) == 8
  {
    var p := PaddedSize(3, 3);
    assert Pow2(3) == 8;
    Pow2IsPowerOfTwo(3);
    CeilPow2Least(5, 8);
    assert 4 < p <= 8;
    if p < 8 {
      PowerOfTwoGap(p, 8);
    }
  }

  /** On the lit-pixel image with the emboss kernel, `convolve_naive` puts
      2 in the top-left pixel while `convolve_fft`, under the convolution
      theorem for its 8x8 padding, puts -2 there. */
  lemma EmbossDisagrees(tw: Twiddle)
    requires ConvolutionTheorem(tw, 8, 8)
    ensures NaiveResult(Dot, Emboss).Ok? && NaiveResult(Dot, Emboss).value.pixels[0] == 2.0
    ensures FftResult(Dot, Emboss, tw).Ok? && FftResult(Dot, Emboss, tw).value.pixels[0] == -2.0
  {
    PaddedSizeOfDot();
    FrequencyPathIsConvolution(Dot, Emboss, tw);
    EmbossCorrelation();
    EmbossConvolution();
    assert Correlate(Dot, Emboss).pixels[0] == Cell(Correlate(Dot, Emboss).pixels, 3, 3, 0, 0);
    assert Convolve(Dot, Emboss).pixels[0] == Cell(Convolve(Dot, Emboss).pixels, 3, 3, 0, 0);
  }

  // ---------------------------------------------------------------------------
  // Only the turn-symmetric kernels agree

  /** A sum whose summands are 0 except the one at `p`, which is `v`. */
  lemma SumOfOne(n: int, f: int -> real, p: int, v: real)
    requires 0 <= p < n && f(p) == v
    requires forall i :: 0 <= i < n && i != p ==> f(i) == 0.0
    ensures Sum(n, f) == v
  {
    var zero := (i: int) => 0.0;
    SumOfZeros(n, zero);
    SumChangeOne(n, zero, f, p);
  }

  function DotFn(side: int): (int, int) -> real
  {
    (x, y) => if x == side / 2 && y == side / 2 then 1.0 else 0.0
  }

  /** A `side * side` image that is 0 except for a 1 at its centre
      `(side / 2, side / 2)`. */
  function DotOf(side: int): (img: Image)
    requires side > 0
    ensures ValidImage(img) && img.width == side && img.height == side
    ensures forall x, y :: Pixel(img, x, y) == if x == side / 2 && y == side / 2 then 1.0 else 0.0
  {
    var img := Image(side, side, Tabulate(side, side, DotFn(side)));
    assert forall x, y :: Pixel(img, x, y) == DotFn(side)(x, y) by {
      forall x, y ensures Pixel(img, x, y) == DotFn(side)(x, y) {
        if 0 <= x < side && 0 <= y < side {
          assert Pixel(img, x, y) == Cell(img.pixels, side, side, x, y);
        }
      }
    }
    img
  }

  /** Correlation tap `(kx, ky)` at output `(x, y)` of the dot image reads
      the lit centre only for `kx = ks - 1 - x`, `ky = ks - 1 - y`. */
  lemma DotTap(k: Kernel, x: int, y: int, kx: int, ky: int)
    requires ValidKernel(k)
    ensures Tap(DotOf(k.size), k, x, y, kx, ky)
         == if kx == k.size - 1 - x && ky == k.size - 1 - y then Weight(k, kx, ky) else 0.0
  {
    var r := Radius(k);
    assert k.size - 1 == 2 * r;
    var p := Pixel(DotOf(k.size), x + (kx - r), y + (ky - r));
    assert p == if kx == k.size - 1 - x && ky == k.size - 1 - y then 1.0 else 0.0;
  }

  /** Kernel row `ky` of the correlation of the dot image at `(x, y)`. */
  lemma DotRow(k: Kernel, x: int, y: int, ky: int)
    requires ValidKernel(k) && 0 <= x < k.size && 0 <= ky < k.size
    ensures RowSums(DotOf(k.size), k, x, y)(ky)
         == if ky == k.size - 1 - y then Weight(k, k.size - 1 - x, ky) else 0.0
  {
    var taps := TapsAcross(DotOf(k.size), k, x, y, ky);
    forall kx | 0 <= kx < k.size
      ensures taps(kx) == if kx == k.size - 1 - x && ky == k.size - 1 - y then Weight(k, kx, ky) else 0.0
    {
      DotTap(k, x, y, kx, ky);
    }
    if ky == k.size - 1 - y {
      SumOfOne(k.size, taps, k.size - 1 - x, Weight(k, k.size - 1 - x, ky));
    } else {
      SumOfZeros(k.size, taps);
    }
  }

  /** Correlating the dot image picks out the weight opposite the output
      pixel: `(ks - 1 - x, ks - 1 - y)`. */
  lemma DotCorrelation(k: Kernel, x: int, y: int)
    requires ValidKernel(k) && 0 <= x < k.size && 0 <= y < k.size
    ensures CorrelationAt(DotOf(k.size), k, x, y) == Weight(k, k.size - 1 - x, k.size - 1 - y)
  {
    var rows := RowSums(DotOf(k.size), k, x, y);
    forall ky | 0 <= ky < k.size
      ensures rows(ky) == if ky == k.size - 1 - y then Weight(k, k.size - 1 - x, ky) else 0.0
    {
      DotRow(k, x, y, ky);
    }
    SumOfOne(k.size, rows, k.size - 1 - y, Weight(k, k.size - 1 - x, k.size - 1 - y));
  }

  /** If convolution and correlation agree on the dot image of the kernel's
      own size, the kernel is turn-symmetric: the converse of
      `SymmetricKernelsAgree`, for every kernel and not only emboss. */
  lemma AgreeOnlyIfSymmetric(k: Kernel)
    requires ValidKernel(k) && Convolve(DotOf(k.size), k) == Correlate(DotOf(k.size), k)
    ensures Symmetric(k)
  {
    var ks, d := k.size, DotOf(k.size);
    var rk := Rotate180(k);
    forall kx, ky | 0 <= kx < ks && 0 <= ky < ks
      ensures Weight(k, kx, ky) == Weight(k, ks - 1 - kx, ks - 1 - ky)
    {
      ConvolutionIsRotatedCorrelation(d, k, kx, ky);
      DotCorrelation(rk, kx, ky);
      DotCorrelation(k, kx, ky);
      assert Cell(Convolve(d, k).pixels, ks, ks, kx, ky) == Cell(Correlate(d, k).pixels, ks, ks, kx, ky);
    }
  }

  /** Under the convolution theorem for the dot image's padding,
      `convolve_fft` and `convolve_naive` agree on the dot image of the
      kernel's size exactly when the kernel is turn-symmetric; with
      `SymmetricKernelsAgree`, a kernel either gives the same result on
      every image or is told apart by this one. */
  lemma AgreeIffSymmetric(k: Kernel, tw: Twiddle)
    requires ValidKernel(k) && TheoremAtPadding(DotOf(k.size), k, tw)
    ensures FftResult(DotOf(k.size), k, tw) == NaiveResult(DotOf(k.size), k) <==> Symmetric(k)
  {
    var d := DotOf(k.size);
    if Symmetric(k) {
      SymmetricKernelsAgree(d, k, tw);
    }
    if FftResult(d, k, tw) == NaiveResult(d, k) {
      FrequencyPathIsConvolution(d, k, tw);
      AgreeOnlyIfSymmetric(k);
    }
  }
}

=== FILE: bits.dfy ===
/** Integer helpers of src/fft.h: powers of two, the bitwise operators the
    bit-reversal loop uses, and `next_pow2`.  C++ `&` and `^` on
    non-negative `int`s are modelled by `BitAnd` and `BitXor` on `nat`. */
module Bits {
  import opened Wrappers

  /** Largest argument for which `next_pow2`'s doubling stays inside a 32-bit `int`. */
  const MaxPow2Arg: int := 0x4000_0000

  function Pow2(m: nat): (p: nat)
    ensures p >= 1
  {
    if m == 0 then 1 else 2 * Pow2(m - 1)
  }

  function Log2(n: nat): nat
  {
    if n <= 1 then 0 else 1 + Log2(n / 2)
  }

  /** C++ `a & b` for non-negative operands. */
  function BitAnd(a: nat, b: nat): nat
  {
    if a == 0 || b == 0 then 0
    else 2 * BitAnd(a / 2, b / 2) + (if a % 2 == 1 && b % 2 == 1 then 1 else 0)
  }

  /** C++ `a ^ b` for non-negative operands. */
  function BitXor(a: nat, b: nat): nat
  {
    if a == 0 then b
    else if b == 0 then a
    else 2 * BitXor(a / 2, b / 2) + (if a % 2 != b % 2 then 1 else 0)
  }

  /** Bit number `k` of `j` (0 or 1). */
  function Bit(j: nat, k: nat): (b: nat)
    ensures b <= 1
  {
    if k == 0 then j % 2 else Bit(j / 2, k - 1)
  }

  /** `is_power_of_two` (src/fft.h:7-9): `n > 0 && (n & (n - 1)) == 0`. */
  predicate IsPowerOfTwo(n: int)
  {
    n > 0 && BitAnd(n, n - 1) == 0
  }

  // ---------------------------------------------------------------------------
  // Powers of two

  lemma {:induction false} Pow2Monotone(a: nat, b: nat)
    requires a <= b
    ensures Pow2(a) <= Pow2(b)
  {
    if a < b {
      Pow2Monotone(a, b - 1);
    }
  }

  lemma Pow2Le(a: nat, b: nat)
    ensures Pow2(a) <= Pow2(b) <==> a <= b
  {
    if a <= b {
      Pow2Monotone(a, b);
    } else {
      Pow2Monotone(b + 1, a);
    }
  }

  lemma {:induction false} Pow2Add(a: nat, b: nat)
    ensures Pow2(a + b) == Pow2(a) * Pow2(b)
  {
    if b > 0 {
      Pow2Add(a, b - 1);
      assert Pow2(a + b) == 2 * Pow2(a + b - 1);
    }
  }

  lemma {:induction false} BitAndSelf(q: nat)
    ensures BitAnd(q, q) == q
  {
    if q > 0 {
      BitAndSelf(q / 2);
    }
  }

  /** Every `Pow2(m)` passes the bitwise test. */
  lemma {:induction false} Pow2IsPowerOfTwo(m: nat)
    ensures IsPowerOfTwo(Pow2(m))
  {
    if m > 0 {
      Pow2IsPowerOfTwo(m - 1);
      var p := Pow2(m - 1);
      assert (2 * p) / 2 == p && (2 * p - 1) / 2 == p - 1;
    }
  }

  /** Every number passing the bitwise test is `Pow2(Log2(n))`. */
  lemma {:induction false} PowerOfTwoIsPow2(n: int)
    requires IsPowerOfTwo(n)
    ensures Pow2(Log2(n)) == n
    decreases n
  {
    if n > 1 {
      var q := n / 2;
      if n % 2 == 1 {
        BitAndSelf(q);
        assert false;
      } else {
        assert BitAnd(n, n - 1) == 2 * BitAnd(q, q - 1);
        PowerOfTwoIsPow2(q);
      }
    }
  }

  /** `is_power_of_two(n)` holds exactly when `n` is `2^m` for some `m`. */
  lemma PowerOfTwoIff(n: int)
    ensures IsPowerOfTwo(n) <==> n > 0 && exists m: nat :: Pow2(m) == n
  {
    if IsPowerOfTwo(n) {
      PowerOfTwoIsPow2(n);
    }
    if n > 0 && exists m: nat :: Pow2(m) == n {
      var m: nat :| Pow2(m) == n;
      Pow2IsPowerOfTwo(m);
    }
  }

  lemma PowerOfTwoDouble(p: int)
    requires IsPowerOfTwo(p)
    ensures IsPowerOfTwo(2 * p)
  {
    assert (2 * p) / 2 == p && (2 * p - 1) / 2 == p - 1;
  }

  lemma PowerOfTwoHalf(p: int)
    requires IsPowerOfTwo(p) && p > 1
    ensures p % 2 == 0 && IsPowerOfTwo(p / 2)
  {
    PowerOfTwoIsPow2(p);
    var m := Log2(p);
    assert m > 0;
    var h := Pow2(m - 1);
    assert p == 2 * h;
    assert p / 2 == h;
    Pow2IsPowerOfTwo(m - 1);
  }

  /** Between two powers of two the smaller is at most half the larger. */
  lemma PowerOfTwoGap(p: int, c: int)
    requires IsPowerOfTwo(p) && IsPowerOfTwo(c) && p < c
    ensures 2 * p <= c
  {
    PowerOfTwoIsPow2(p);
    PowerOfTwoIsPow2(c);
    var a, b := Log2(p), Log2(c);
    if b <= a {
      Pow2Monotone(b, a);
      assert false;
    }
    Pow2Monotone(a + 1, b);
  }

  // ---------------------------------------------------------------------------
  // next_pow2

  /** The smallest power of two that is at least `n`. */
  function CeilPow2(n: int): (p: nat)
    requires n >= 1
    ensures IsPowerOfTwo(p) && p >= n
    ensures p == 1 || p / 2 < n
    decreases n
  {
    if n == 1 then (assert BitAnd(1, 0) == 0; 1)
    else
      var h := CeilPow2((n + 1) / 2);
      PowerOfTwoDouble(h);
      if h > 1 then PowerOfTwoHalf(h); 2 * h else 2 * h
  }

  /** No power of two below `CeilPow2(n)` reaches `n`. */
  lemma CeilPow2Least(n: int, p: int)
    requires n >= 1 && IsPowerOfTwo(p) && p >= n
    ensures CeilPow2(n) <= p
  {
    var c := CeilPow2(n);
    if c > p {
      PowerOfTwoGap(p, c);
      assert false;
    }
  }

  /** One doubling step of `next_pow2` stays at or below the answer. */
  lemma NextPow2Step(k: nat, n: int)
    requires 1 <= n && Pow2(k) < n
    ensures Pow2(k + 1) <= CeilPow2(n)
  {
    Pow2IsPowerOfTwo(k);
    PowerOfTwoGap(Pow2(k), CeilPow2(n));
  }

  /** The first power of two reaching `n` is `CeilPow2(n)`. */
  lemma NextPow2Done(k: nat, n: int)
    requires 1 <= n <= Pow2(k) <= CeilPow2(n)
    ensures Pow2(k) == CeilPow2(n)
  {
    Pow2IsPowerOfTwo(k);
    CeilPow2Least(n, Pow2(k));
  }

  datatype Pow2Error = NonPositiveArgument

  /** `next_pow2` (src/fft.h:11-16): fails for `n <= 0`, otherwise doubles `p`
      from 1 until it reaches `n`. */
  method NextPow2(n: int) returns (r: Result<int, Pow2Error>)
    requires n <= MaxPow2Arg
    ensures n <= 0 ==> r == Err(NonPositiveArgument)
    ensures n >= 1 ==> r.Ok? && IsPowerOfTwo(r.value) && r.value >= n && (r.value == 1 || r.value / 2 < n)
    ensures n >= 1 ==> r == Ok(CeilPow2(n))
  {
    if n <= 0 {
      return Err(NonPositiveArgument);
    }
    var p := 1;
    ghost var k: nat := 0;
    while p < n
      invariant p == Pow2(k) <= CeilPow2(n)
      decreases n - p
    {
      NextPow2Step(k, n);
      p, k := p * 2, k + 1;
    }
    NextPow2Done(k, n);
    return Ok(p);
  }

  // ---------------------------------------------------------------------------
  // Single bits

  lemma {:induction false} BitBelow(x: nat, k: nat)
    requires x < Pow2(k)
    ensures Bit(x, k) == 0
  {
    if k > 0 {
      BitBelow(x / 2, k - 1);
    }
  }

  lemma {:induction false} BitTop(y: nat, k: nat)
    requires y < Pow2(k)
    ensures Bit(Pow2(k) + y, k) == 1
  {
    if k > 0 {
      assert (Pow2(k) + y) / 2 == Pow2(k - 1) + y / 2;
      BitTop(y / 2, k - 1);
    }
  }

  lemma {:induction false} BitSetAtLeast(j: nat, k: nat)
    requires Bit(j, k) == 1
    ensures j >= Pow2(k)
  {
    if k > 0 {
      BitSetAtLeast(j / 2, k - 1);
    }
  }

  /** `j & (1 << k)` is non-zero exactly when bit `k` of `j` is set. */
  lemma {:induction false} BitAndPow2(j: nat, k: nat)
    ensures BitAnd(j, Pow2(k)) != 0 <==> Bit(j, k) == 1
  {
    if j == 0 {
      BitBelow(0, k);
    } else if k > 0 {
      BitAndPow2(j / 2, k - 1);
      assert BitAnd(j, Pow2(k)) == 2 * BitAnd(j / 2, Pow2(k - 1));
    }
  }

  /** `j ^ (1 << k)` clears bit `k` when it is set and sets it otherwise. */
  lemma {:induction false} BitXorPow2(j: nat, k: nat)
    ensures Bit(j, k) == 1 ==> j >= Pow2(k) && BitXor(j, Pow2(k)) == j - Pow2(k)
    ensures Bit(j, k) == 0 ==> BitXor(j, Pow2(k)) == j + Pow2(k)
  {
    if j == 0 {
      BitBelow(0, k);
    } else if k > 0 {
      BitXorPow2(j / 2, k - 1);
      assert BitXor(j, Pow2(k)) == 2 * BitXor(j / 2, Pow2(k - 1)) + j % 2;
    }
  }

  // ---------------------------------------------------------------------------
  // Bit reversal

  /** The `m`-bit reversal of `i`: bit `p` of `i` becomes bit `m - 1 - p`. */
  function Rev(i: nat, m: nat): nat
  {
    if m == 0 then 0 else (if i % 2 == 1 then Pow2(m - 1) else 0) + Rev(i / 2, m - 1)
  }

  lemma {:induction false} RevOfZero(m: nat)
    ensures Rev(0, m) == 0
  {
    if m > 0 {
      RevOfZero(m - 1);
    }
  }

  lemma {:induction false} RevBound(i: nat, m: nat)
    ensures Rev(i, m) < Pow2(m)
  {
    if m > 0 {
      RevBound(i / 2, m - 1);
    }
  }

  /** Reversing `m + 1` bits of `x` with a top bit `top` puts `top` at the bottom. */
  lemma {:induction false} RevTopBit(x: nat, top: bool, m: nat)
    requires x < Pow2(m)
    ensures Rev(x + (if top then Pow2(m) else 0), m + 1) == 2 * Rev(x, m) + (if top then 1 else 0)
  {
    if m > 0 {
      var y := x + (if top then Pow2(m) else 0);
      var h := if top then Pow2(m - 1) else 0;
      assert y == x + 2 * h;
      assert y % 2 == x % 2 && y / 2 == x / 2 + h;
      RevTopBit(x / 2, top, m - 1);
    }
  }

  /** Bit reversal is an involution on `[0, 2^m)`. */
  lemma {:induction false} RevInvolution(i: nat, m: nat)
    requires i < Pow2(m)
    ensures Rev(i, m) < Pow2(m) && Rev(Rev(i, m), m) == i
  {
    RevBound(i, m);
    if m > 0 {
      var y := Rev(i / 2, m - 1);
      RevBound(i / 2, m - 1);
      RevInvolution(i / 2, m - 1);
      RevTopBit(y, i % 2 == 1, m - 1);
    }
  }

  /** What the inner loop of the bit-reversal permutation does to `j`
      starting at bit `k`: clear set bits from the top down, then set the
      first clear one (an increment with the carry running downwards). */
  function ReversedIncrement(j: nat, k: int): nat
    decreases k + 1
  {
    if k < 0 then j
    else if Bit(j, k) == 1 then (BitSetAtLeast(j, k); ReversedIncrement(j - Pow2(k), k - 1))
    else j + Pow2(k)
  }

  /** The loop's running `j` steps from `Rev(i)` to `Rev(i + 1)`. */
  lemma {:induction false} ReversedIncrementStep(i: nat, m: nat)
    requires m >= 1 && i + 1 < Pow2(m)
    ensures Rev(i + 1, m) == ReversedIncrement(Rev(i, m), m - 1)
  {
    if i % 2 == 0 {
      EvenStep(i, m);
    } else {
      var y := Rev(i / 2, m - 1);
      OddUnfold(i, m);
      ReversedIncrementStep(i / 2, m - 1);
      assert Rev(i + 1, m) == Rev(i / 2 + 1, m - 1);
    }
  }

  /** An even `i` has a clear bottom bit, hence a clear top bit after reversal. */
  lemma EvenStep(i: nat, m: nat)
    requires m >= 1 && i % 2 == 0
    ensures Rev(i + 1, m) == ReversedIncrement(Rev(i, m), m - 1)
  {
    var y := Rev(i / 2, m - 1);
    RevBound(i / 2, m - 1);
    assert (i + 1) / 2 == i / 2 && (i + 1) % 2 == 1;
    assert Rev(i, m) == y;
    BitBelow(y, m - 1);
    assert Rev(i + 1, m) == Pow2(m - 1) + y;
  }

  /** An odd `i` has its top reversed bit set: the loop clears it and carries on one bit lower. */
  lemma OddUnfold(i: nat, m: nat)
    requires m >= 1 && i % 2 == 1 && i + 1 < Pow2(m)
    ensures m >= 2 && i / 2 + 1 < Pow2(m - 1)
    ensures ReversedIncrement(Rev(i, m), m - 1) == ReversedIncrement(Rev(i / 2, m - 1), m - 2)
    ensures Rev(i + 1, m) == Rev(i / 2 + 1, m - 1)
  {
    var y := Rev(i / 2, m - 1);
    RevBound(i / 2, m - 1);
    assert Rev(i, m) == Pow2(m - 1) + y;
    BitTop(y, m - 1);
    assert (i + 1) % 2 == 0 && (i + 1) / 2 == i / 2 + 1;
    if m == 1 {
      assert false;
    }
  }
}

=== FILE: cli.dfy ===
/** The command line of src/main.cpp: the argument record, the token scan
    of `parse_args` with its checks after the scan, `to_int` over the
    C++ library's `std::stoi`, and the dispatch of `run_once`. Reading the
    image, timing and printing are not modelled. */
module Cli {
  import opened Wrappers
  import opened Images
  import opened Fft
  import opened ConvNaive
  import opened ConvFft
  import opened Kernels
  import opened Alignment

  /** The options `parse_args` fills in (src/main.cpp:16-26). */
  datatype Args = Args(
    inPath: string,
    outPath: string,
    filter: string,
    methodName: string,
    kernelSize: int,
    repeat: int,
    help: bool)

  /** The record before any token is read: blur, naive, size 3, one run. */
  const Defaults: Args := Args("", "", "blur", "naive", 3, 1, false)

  /** The ways `parse_args` and `to_int` give up, one per message. */
  datatype CliError =
    | MissingValue(flag: string)
    | UnknownArgument(token: string)
    | InvalidInteger(what: string, text: string)
    | MissingPaths
    | BadKernelSize
    | BadRepeat
    | BadMethod
    | BadFilter
    | SizeOnlyForBlur

  /** `is_flag` (src/main.cpp:43-45): the token starts with a minus sign. */
  predicate IsFlag(s: string)
    ensures IsFlag(s) <==> "-" <= s
  {
    |s| > 0 && s[0] == '-'
  }

  // ---------------------------------------------------------------------------
  // to_int

  const IntMin: int := -0x8000_0000
  const IntMax: int := 0x7FFF_FFFF

  /** What a call of `std::stoi(s, &idx)` does: returns a value and the
      number of characters it read, or throws because nothing could be
      read or because the value does not fit an `int`. */
  datatype StoiOutcome = Parsed(value: int, consumed: nat) | NoConversion | OutOfRange

  type Stoi = string -> StoiOutcome

  /** `to_int` (src/main.cpp:47-56), for the conversion `stoi`: a result
      only when `stoi` returned one and read the whole string; any other
      outcome is the invalid-integer error naming the option and the text. */
  function ToInt(s: string, what: string, stoi: Stoi): (r: Result<int, CliError>)
    ensures r.Err? ==> r.error == InvalidInteger(what, s)
  {
    match stoi(s)
    case Parsed(v, idx) => if idx != |s| then Err(InvalidInteger(what, s)) else Ok(v)
    case NoConversion => Err(InvalidInteger(what, s))
    case OutOfRange => Err(InvalidInteger(what, s))
  }

  /** The whole-string rule: `to_int` accepts exactly what `stoi` parses to
      the end, with the value `stoi` read. */
  lemma ToIntWholeString(s: string, what: string, stoi: Stoi)
    ensures ToInt(s, what, stoi).Ok? <==> stoi(s).Parsed? && stoi(s).consumed == |s|
    ensures ToInt(s, what, stoi).Ok? ==> ToInt(s, what, stoi).value == stoi(s).value
  {
  }

  /** The white space `std::stoi` skips before the number. */
  predicate IsSpace(c: char)
  {
    c == ' ' || c == '\t' || c == '\n' || c == '\U{000B}' || c == '\U{000C}' || c == '\r'
  }

  predicate IsDigit(c: char)
  {
    '0' <= c <= '9'
  }

  function DigitValue(c: char): nat
    requires IsDigit(c)
  {
    (c - '0') as nat
  }

  /** The first position at or after `i` that is not white space. */
  function SkipSpaces(s: string, i: nat): (j: nat)
    requires i <= |s|
    ensures i <= j <= |s| && (j == |s| || !IsSpace(s[j]))
    ensures forall t :: i <= t < j ==> IsSpace(s[t])
    decreases |s| - i
  {
    if i < |s| && IsSpace(s[i]) then SkipSpaces(s, i + 1) else i
  }

  /** The end of the run of digits that starts at `i`. */
  function DigitEnd(s: string, i: nat): (j: nat)
    requires i <= |s|
    ensures i <= j <= |s| && (j == |s| || !IsDigit(s[j]))
    ensures forall t :: i <= t < j ==> IsDigit(s[t])
    decreases |s| - i
  {
    if i < |s| && IsDigit(s[i]) then DigitEnd(s, i + 1) else i
  }

  /** The number a string of decimal digits denotes. */
  function DigitsValue(d: string): nat
    requires forall t :: 0 <= t < |d| ==> IsDigit(d[t])
  {
    if |d| == 0 then 0 else DigitsValue(d[..|d| - 1]) * 10 + DigitValue(d[|d| - 1])
  }

  /** `std::stoi` in base 10, as the C library's `strtol` reads: white space,
      an optional sign, then as many digits as follow; no digits is no
      conversion, a value outside `int` is out of range. */
  function StdStoi(s: string): (r: StoiOutcome)
    ensures r.Parsed? ==> 0 < r.consumed <= |s| && IsDigit(s[r.consumed - 1])
    ensures r.Parsed? ==> IntMin <= r.value <= IntMax
  {
    var i := SkipSpaces(s, 0);
    var signed := i < |s| && (s[i] == '-' || s[i] == '+');
    var j := if signed then i + 1 else i;
    var e := DigitEnd(s, j);
    if e == j then NoConversion
    else
      var m: int := DigitsValue(s[j..e]);
      var v := if signed && s[i] == '-' then -m else m;
      if v < IntMin || IntMax < v then OutOfRange else Parsed(v, e)
  }

  /** The decimal digits of `n`, most significant first. */
  function Digits(n: nat): (d: string)
    ensures |d| > 0 && forall t :: 0 <= t < |d| ==> IsDigit(d[t])
  {
    if n < 10 then ['0' + n as char] else Digits(n / 10) + ['0' + (n % 10) as char]
  }

  /** The usual spelling of `n`: a minus sign for negative numbers. */
  function Decimal(n: int): string
  {
    if n < 0 then "-" + Digits(-n) else Digits(n)
  }

  lemma {:induction false} DigitsValueOfDigits(n: nat)
    ensures DigitsValue(Digits(n)) == n
  {
    if n >= 10 {
      var d := Digits(n);
      assert d[..|d| - 1] == Digits(n / 10);
      DigitsValueOfDigits(n / 10);
    }
  }

  /** Reading from a position where only digits remain reaches the end. */
  lemma {:induction false} DigitEndOfDigits(s: string, i: nat)
    requires i <= |s| && forall t :: i <= t < |s| ==> IsDigit(s[t])
    ensures DigitEnd(s, i) == |s|
    decreases |s| - i
  {
    if i < |s| {
      DigitEndOfDigits(s, i + 1);
    }
  }

  /** `to_int` with the library conversion reads back every `int` it is
      given in decimal. */
  lemma ToIntDecimal(n: int, what: string)
    requires IntMin <= n <= IntMax
    ensures ToInt(Decimal(n), what, StdStoi) == Ok(n)
  {
    if n < 0 {
      StoiNegative(-n);
    } else {
      StoiNatural(n);
    }
  }

  lemma StoiNatural(m: nat)
    requires m <= IntMax
    ensures StdStoi(Digits(m)) == Parsed(m, |Digits(m)|)
  {
    var s := Digits(m);
    assert SkipSpaces(s, 0) == 0;
    DigitEndOfDigits(s, 0);
    assert s[0..|s|] == s;
    DigitsValueOfDigits(m);
  }

  lemma StoiNegative(m: nat)
    requires 0 < m <= -IntMin
    ensures StdStoi("-" + Digits(m)) == Parsed(-(m as int), |Digits(m)| + 1)
  {
    var s := "-" + Digits(m);
    assert SkipSpaces(s, 0) == 0;
    DigitEndOfDigits(s, 1);
    assert s[1..|s|] == Digits(m);
    DigitsValueOfDigits(m);
  }

  /** Leading white space and a plus sign are read. */
  lemma ToIntLeadingSpace()
    ensures ToInt(" 42", "--repeat", StdStoi) == Ok(42)
  {
    assert SkipSpaces(" 42", 0) == 1;
    assert DigitEnd(" 42", 1) == 3;
    assert " 42"[1..3] == "42";
    assert "42"[..1] == "4";
    assert DigitsValue("42") == 42;
    assert StdStoi(" 42") == Parsed(42, 3);
  }

  lemma ToIntPlusSign()
    ensures ToInt("+7", "--repeat", StdStoi) == Ok(7)
  {
    assert SkipSpaces("+7", 0) == 0;
    assert DigitEnd("+7", 1) == 2;
    assert "+7"[1..2] == "7";
    assert DigitsValue("7") == 7;
    assert StdStoi("+7") == Parsed(7, 2);
  }

  /** Trailing white space or junk, a bare sign and an empty string are
      refused. */
  lemma ToIntRefusesJunk()
    ensures ToInt("42 ", "--repeat", StdStoi).Err?
    ensures ToInt("3x", "--kernel-size", StdStoi).Err?
    ensures ToInt("-", "--kernel-size", StdStoi).Err?
    ensures ToInt("", "--kernel-size", StdStoi).Err?
  {
    assert SkipSpaces("42 ", 0) == 0;
    assert DigitEnd("42 ", 0) == 2;
    assert SkipSpaces("3x", 0) == 0;
    assert DigitEnd("3x", 0) == 1;
    assert SkipSpaces("-", 0) == 0;
    assert DigitEnd("-", 1) == 1;
  }

  // ---------------------------------------------------------------------------
  // parse_args

  predicate IsHelp(tok: string)
  {
    tok == "--help" || tok == "-h"
  }

  /** The options that take the next token as their value. */
  predicate TakesValue(tok: string)
  {
    tok == "--in" || tok == "--out" || tok == "--filter" || tok == "--method"
    || tok == "--kernel-size" || tok == "--repeat"
  }

  /** The record after option `flag` has read `value` (src/main.cpp:77-88);
      the two numeric options go through `to_int`. */
  function Apply(a: Args, flag: string, value: string, stoi: Stoi): (r: Result<Args, CliError>)
    requires TakesValue(flag)
    ensures r.Err? ==> (flag == "--kernel-size" || flag == "--repeat") && r.error == InvalidInteger(flag, value)
  {
    if flag == "--in" then Ok(a.(inPath := value))
    else if flag == "--out" then Ok(a.(outPath := value))
    else if flag == "--filter" then Ok(a.(filter := value))
    else if flag == "--method" then Ok(a.(methodName := value))
    else if flag == "--kernel-size" then
      match ToInt(value, flag, stoi)
      case Ok(n) => Ok(a.(kernelSize := n))
      case Err(e) => Err(e)
    else
      match ToInt(value, flag, stoi)
      case Ok(n) => Ok(a.(repeat := n))
      case Err(e) => Err(e)
  }

  /** The token loop from position `i` on, with the record `a` built so far
      (src/main.cpp:62-92). */
  function Scan(v: seq<string>, i: nat, a: Args, stoi: Stoi): (r: Result<Args, CliError>)
    ensures r.Err? ==> r.error.MissingValue? || r.error.UnknownArgument? || r.error.InvalidInteger?
    ensures r.Ok? && r.value.help ==> a.help || exists j :: i <= j < |v| && IsHelp(v[j])
    decreases |v| - i
  {
    if i >= |v| then Ok(a)
    else if IsHelp(v[i]) then Ok(a.(help := true))
    else if !TakesValue(v[i]) then Err(UnknownArgument(v[i]))
    else if i + 1 >= |v| || IsFlag(v[i + 1]) then Err(MissingValue(v[i]))
    else
      match Apply(a, v[i], v[i + 1], stoi)
      case Err(e) => Err(e)
      case Ok(b) => Scan(v, i + 2, b, stoi)
  }

  /** The checks after the loop, in the order `parse_args` makes them
      (src/main.cpp:94-115): the first that fails is reported. */
  function Check(a: Args): (r: Option<CliError>)
    ensures r == None <==>
      a.inPath != "" && a.outPath != "" && a.kernelSize > 0 && a.kernelSize % 2 == 1 && a.repeat >= 1
      && a.methodName in {"naive", "fft"} && a.filter in {"blur", "sharpen", "edge", "emboss"}
      && (a.kernelSize == 3 || a.filter == "blur")
    ensures (a.inPath == "" || a.outPath == "") ==> r == Some(MissingPaths)
    ensures r == Some(BadKernelSize) <==>
      a.inPath != "" && a.outPath != "" && (a.kernelSize <= 0 || a.kernelSize % 2 == 0)
    ensures r == Some(BadRepeat) <==>
      a.inPath != "" && a.outPath != "" && a.kernelSize > 0 && a.kernelSize % 2 == 1 && a.repeat < 1
  {
    if a.inPath == "" || a.outPath == "" then Some(MissingPaths)
    else if a.kernelSize <= 0 || a.kernelSize % 2 == 0 then Some(BadKernelSize)
    else if a.repeat <= 0 then Some(BadRepeat)
    else if a.methodName != "naive" && a.methodName != "fft" then Some(BadMethod)
    else if a.filter != "blur" && a.filter != "sharpen" && a.filter != "edge" && a.filter != "emboss" then Some(BadFilter)
    else if a.kernelSize != 3 && a.filter != "blur" then Some(SizeOnlyForBlur)
    else None
  }

  /** `parse_args` as a function of the tokens after the program name: a
      help request is returned as it is, any other record must pass the
      checks. */
  function ParseArgsSpec(v: seq<string>, stoi: Stoi): (r: Result<Args, CliError>)
    ensures r.Ok? && !r.value.help ==> Check(r.value) == None
    ensures r.Ok? && r.value.help ==> exists j :: 0 <= j < |v| && IsHelp(v[j])
    ensures (forall j :: 0 <= j < |v| ==> !IsHelp(v[j])) && Scan(v, 0, Defaults, stoi).Ok? ==>
      r == (match Check(Scan(v, 0, Defaults, stoi).value)
            case Some(e) => Err(e)
            case None => Scan(v, 0, Defaults, stoi))
  {
    match Scan(v, 0, Defaults, stoi)
    case Err(e) => Err(e)
    case Ok(a) =>
      if a.help then Ok(a)
      else match Check(a)
        case Some(e) => Err(e)
        case None => Ok(a)
  }

  /** `parse_args` (src/main.cpp:58-118): the loop advances `i` once more
      inside the value step, as the `need_value` lambda does. */
  method ParseArgs(v: seq<string>, stoi: Stoi) returns (r: Result<Args, CliError>)
    ensures r == ParseArgsSpec(v, stoi)
  {
    var a := Defaults;
    var i := 0;
    while i < |v|
      invariant 0 <= i <= |v| && !a.help
      invariant Scan(v, i, a, stoi) == Scan(v, 0, Defaults, stoi)
      decreases |v| - i
    {
      var tok := v[i];
      if IsHelp(tok) {
        a := a.(help := true);
        return Ok(a);
      }
      if !TakesValue(tok) {
        return Err(UnknownArgument(tok));
      }
      if i + 1 >= |v| || IsFlag(v[i + 1]) {
        return Err(MissingValue(tok));
      }
      i := i + 1;
      var next := Apply(a, tok, v[i], stoi);
      if next.Err? {
        return Err(next.error);
      }
      a := next.value;
      i := i + 1;
    }
    var e := Check(a);
    if e.Some? {
      return Err(e.value);
    }
    return Ok(a);
  }

  /** Parsing that succeeds without a help request leaves a record that
      passes every check: both paths, a positive odd size that is 3 unless
      the filter is blur, at least one run, and known names. */
  lemma ParsedArgsAreChecked(v: seq<string>, stoi: Stoi)
    requires ParseArgsSpec(v, stoi).Ok? && !ParseArgsSpec(v, stoi).value.help
    ensures var a := ParseArgsSpec(v, stoi).value;
      a.inPath != "" && a.outPath != "" && a.kernelSize > 0 && a.kernelSize % 2 == 1 && a.repeat >= 1
      && a.methodName in {"naive", "fft"} && a.filter in {"blur", "sharpen", "edge", "emboss"}
      && (a.kernelSize == 3 || a.filter == "blur")
  {
  }

  /** A help token stops the scan: whatever follows it, however malformed,
      is not read, and no check is made. */
  lemma HelpStops(v: seq<string>, i: nat, a: Args, rest: seq<string>, stoi: Stoi)
    requires i < |v| && IsHelp(v[i])
    ensures Scan(v, i, a, stoi) == Ok(a.(help := true))
    ensures ParseArgsSpec([v[i]] + rest, stoi) == Ok(Defaults.(help := true))
  {
  }

  /** A value option followed by nothing, or by another flag (so also by a
      negative number), fails for want of a value; otherwise the value
      token is consumed and the scan goes on after it. */
  lemma MissingValueFails(v: seq<string>, i: nat, a: Args, stoi: Stoi)
    requires i < |v| && TakesValue(v[i])
    ensures (i + 1 == |v| || IsFlag(v[i + 1])) ==> Scan(v, i, a, stoi) == Err(MissingValue(v[i]))
    ensures i + 1 < |v| && !IsFlag(v[i + 1]) && Apply(a, v[i], v[i + 1], stoi).Ok? ==>
      Scan(v, i, a, stoi) == Scan(v, i + 2, Apply(a, v[i], v[i + 1], stoi).value, stoi)
    ensures i + 1 < |v| && !IsFlag(v[i + 1]) && Apply(a, v[i], v[i + 1], stoi).Err? ==>
      Scan(v, i, a, stoi) == Err(InvalidInteger(v[i], v[i + 1]))
  {
  }

  /** A token that is neither help nor a value option fails, naming it. */
  lemma UnknownTokenFails(v: seq<string>, i: nat, a: Args, stoi: Stoi)
    requires i < |v|
    ensures !IsHelp(v[i]) && !TakesValue(v[i]) ==> Scan(v, i, a, stoi) == Err(UnknownArgument(v[i]))
  {
  }

  /** The scan from position `d + i` reads only the tokens from `d` on: it is
      the scan of that suffix from `i`. */
  lemma {:induction false} ScanSuffix(v: seq<string>, d: nat, i: nat, a: Args, stoi: Stoi)
    requires d <= |v|
    ensures Scan(v, d + i, a, stoi) == Scan(v[d..], i, a, stoi)
    decreases |v| - d - i
  {
    var w := v[d..];
    if d + i < |v| {
      assert v[d + i] == w[i];
      if d + i + 1 < |v| {
        assert v[d + i + 1] == w[i + 1];
      }
      if TakesValue(w[i]) && !IsHelp(w[i]) && i + 1 < |w| && !IsFlag(w[i + 1]) && Apply(a, w[i], w[i + 1], stoi).Ok? {
        ScanSuffix(v, d, i + 2, Apply(a, w[i], w[i + 1], stoi).value, stoi);
      }
    }
  }

  /** In particular the scan from any position is the scan of the
      remaining tokens from their start. */
  lemma ScanFrom(v: seq<string>, i: nat, a: Args, stoi: Stoi)
    requires i <= |v|
    ensures Scan(v, i, a, stoi) == Scan(v[i..], 0, a, stoi)
  {
    ScanSuffix(v, i, 0, a, stoi);
  }

  /** Storing a second value for the same option replaces the first
      (src/main.cpp:77-88), for the numeric options too: the later value
      alone decides the field, or the error. */
  lemma ApplyOverwrites(a: Args, flag: string, x: string, y: string, stoi: Stoi)
    requires TakesValue(flag) && Apply(a, flag, x, stoi).Ok?
    ensures Apply(Apply(a, flag, x, stoi).value, flag, y, stoi) == Apply(a, flag, y, stoi)
  {
  }

  /** Two different options write different fields, so their order does
      not matter, and whether a value converts does not depend on the record. */
  lemma ApplyCommutes(a: Args, f: string, g: string, x: string, y: string, stoi: Stoi)
    requires TakesValue(f) && TakesValue(g) && f != g
    ensures Apply(a, f, x, stoi).Ok? ==> (Apply(Apply(a, f, x, stoi).value, g, y, stoi).Ok? <==> Apply(a, g, y, stoi).Ok?)
    ensures Apply(a, f, x, stoi).Ok? && Apply(a, g, y, stoi).Ok? ==>
      Apply(Apply(a, f, x, stoi).value, g, y, stoi) == Apply(Apply(a, g, y, stoi).value, f, x, stoi)
  {
  }

  /** A repeated option overwrites the earlier value, at any position: once
      `flag x` has been accepted, scanning on is the same as if that pair
      had never been there, and the later `flag y` decides. */
  lemma LaterValueWins(v: seq<string>, i: nat, flag: string, x: string, y: string, a: Args, stoi: Stoi)
    requires i + 4 <= |v| && v[i] == flag && v[i + 1] == x && v[i + 2] == flag && v[i + 3] == y
    requires TakesValue(flag) && !IsFlag(x) && !IsFlag(y) && Apply(a, flag, x, stoi).Ok?
    ensures Scan(v, i, a, stoi) == Scan(v[i + 2..], 0, a, stoi)
  {
    var w := v[i + 2..];
    assert w[0] == flag && w[1] == y;
    var b := Apply(a, flag, x, stoi).value;
    assert Scan(v, i, a, stoi) == Scan(v, i + 2, b, stoi);
    ApplyOverwrites(a, flag, x, y, stoi);
    ScanFrom(v, i + 2, b, stoi);
    assert Scan(w, 0, b, stoi) == Scan(w, 0, a, stoi);
  }

  /** The same when another option sits between the two: in
      `flag x other z flag y` the first pair is dropped. */
  lemma SeparatedRepeat(v: seq<string>, i: nat, flag: string, other: string, x: string, z: string, y: string,
                        a: Args, stoi: Stoi)
    requires i + 6 <= |v| && v[i] == flag && v[i + 1] == x && v[i + 2] == other && v[i + 3] == z
    requires v[i + 4] == flag && v[i + 5] == y
    requires TakesValue(flag) && TakesValue(other) && flag != other
    requires !IsFlag(x) && !IsFlag(z) && !IsFlag(y) && Apply(a, flag, x, stoi).Ok?
    ensures Scan(v, i, a, stoi) == Scan(v[i + 2..], 0, a, stoi)
  {
    var w := v[i + 2..];
    assert w[0] == other && w[1] == z && w[2] == flag && w[3] == y;
    var b := Apply(a, flag, x, stoi).value;
    assert Scan(v, i, a, stoi) == Scan(v, i + 2, b, stoi);
    ScanFrom(v, i + 2, b, stoi);
    ApplyCommutes(a, flag, other, x, z, stoi);
    ApplyCommutes(a, other, flag, z, x, stoi);
    if Apply(a, other, z, stoi).Ok? {
      var c := Apply(a, other, z, stoi).value;
      var d := Apply(c, flag, x, stoi).value;
      assert Apply(b, other, z, stoi) == Ok(d);
      ApplyOverwrites(c, flag, x, y, stoi);
      assert Scan(w, 0, b, stoi) == Scan(w, 2, d, stoi);
      assert Scan(w, 0, a, stoi) == Scan(w, 2, c, stoi);
    }
  }

  /** A negative number can never be given as a value: its spelling starts
      with a minus sign, so it reads as a flag and the option before it
      lacks its value. */
  lemma NegativeValueMissing(v: seq<string>, i: nat, n: int, a: Args, stoi: Stoi)
    requires i + 1 < |v| && TakesValue(v[i]) && v[i + 1] == Decimal(n) && n < 0
    ensures Scan(v, i, a, stoi) == Err(MissingValue(v[i]))
  {
    assert Decimal(n)[0] == '-';
  }

  /** With only the two paths given, every other option keeps its default. */
  lemma DefaultsKept(inPath: string, outPath: string, stoi: Stoi)
    requires inPath != "" && outPath != "" && !IsFlag(inPath) && !IsFlag(outPath)
    ensures ParseArgsSpec(["--in", inPath, "--out", outPath], stoi)
         == Ok(Args(inPath, outPath, "blur", "naive", 3, 1, false))
  {
    var v := ["--in", inPath, "--out", outPath];
    var a1 := Defaults.(inPath := inPath);
    assert Scan(v, 0, Defaults, stoi) == Scan(v, 2, a1, stoi);
    assert Scan(v, 2, a1, stoi) == Scan(v, 4, a1.(outPath := outPath), stoi);
  }

  // ---------------------------------------------------------------------------
  // run_once

  /** `run_once` (src/main.cpp:120-123): `naive` goes to the spatial
      convolver, every other method name to the frequency one. */
  method RunOnce(input: Image, k: Kernel, name: string, tw: Twiddle) returns (r: Result<Image, ConvError>)
    requires name != "naive" ==> WithinBounds(input, k)
    ensures name == "naive" ==> r == NaiveResult(input, k)
    ensures name != "naive" ==> r == FftResult(input, k, tw)
  {
    if name == "naive" {
      r := ConvolveNaive(input, k);
      return;
    }
    r := ConvolveFft(input, k, tw);
  }

  /** For every kernel the command line can build except emboss, the
      method does not change the result, under the convolution theorem for
      the padding. */
  lemma MethodIrrelevantForSymmetricFilters(input: Image, name: string, size: int, tw: Twiddle)
    requires MakeKernel(name, size).Ok? && name != "emboss"
    requires TheoremAtPadding(input, MakeKernel(name, size).value, tw)
    ensures FftResult(input, MakeKernel(name, size).value, tw) == NaiveResult(input, MakeKernel(name, size).value)
  {
    var k := MakeKernel(name, size).value;
    TableSymmetry();
    if name == "blur" && size != 3 {
      BoxBlurSymmetric(size);
    }
    SymmetricKernelsAgree(input, k, tw);
  }
}

=== FILE: complex.dfy ===
/** Complex numbers as pairs of reals: the exact-arithmetic stand-in for
    `std::complex<double>`. */
module ComplexNumbers {

  datatype Complex = Complex(re: real, im: real)

  const Zero: Complex := Complex(0.0, 0.0)
  const One: Complex := Complex(1.0, 0.0)

  function FromReal(r: real): Complex
  {
    Complex(r, 0.0)
  }

  function Add(a: Complex, b: Complex): Complex
  {
    Complex(a.re + b.re, a.im + b.im)
  }

  function Sub(a: Complex, b: Complex): Complex
  {
    Complex(a.re - b.re, a.im - b.im)
  }

  function Mul(a: Complex, b: Complex): Complex
  {
    Complex(a.re * b.re - a.im * b.im, a.re * b.im + a.im * b.re)
  }

  /** `x /= d` for a real divisor `d`. */
  function DivReal(a: Complex, d: real): Complex
    requires d != 0.0
  {
    Complex(a.re / d, a.im / d)
  }

  /** `w` multiplied into `One` `k` times, as the butterfly's running twiddle is. */
  function Power(w: Complex, k: nat): Complex
  {
    if k == 0 then One else Mul(Power(w, k - 1), w)
  }

  /** Real parts of a buffer. */
  function Re(s: seq<Complex>): (r: seq<real>)
    ensures |r| == |s| && forall i :: 0 <= i < |s| ==> r[i] == s[i].re
  {
    seq(|s|, i requires 0 <= i < |s| => s[i].re)
  }

  /** A real buffer as complex values with zero imaginary parts. */
  function ToComplex(s: seq<real>): (r: seq<Complex>)
    ensures |r| == |s|
  {
    seq(|s|, i requires 0 <= i < |s| => FromReal(s[i]))
  }

  /** Taking real parts undoes `ToComplex`. */
  lemma ReOfToComplex(s: seq<real>)
    ensures Re(ToComplex(s)) == s && IsReal(ToComplex(s))
  {
  }

  predicate IsReal(s: seq<Complex>)
  {
    forall i :: 0 <= i < |s| ==> s[i].im == 0.0
  }
}

=== FILE: conv_fft.dfy ===
/** The frequency convolver `convolve_fft` (src/conv_fft.cpp): the image is
    copied into the top-left corner of a zero grid of power-of-two sides,
    the kernel is placed with its centre at cell `(0, 0)` (wrapping negative
    offsets around), both grids go through the forward 2D transform, the
    spectra are multiplied cell by cell, the product goes through the
    inverse transform and the top-left block, real parts only, is the
    output.  The transform is the one of `Fft`, with its twiddle base a
    parameter. */
module ConvFft {
  import opened Wrappers
  import opened Bits
  import opened Grid
  import opened ComplexNumbers
  import opened Images
  import opened Fft

  // ---------------------------------------------------------------------------
  // The C++ remainder and the kernel placement (src/conv_fft.cpp:16-34)

  /** C++ `a % n` for `n > 0`: the quotient is truncated toward zero, so the
      remainder takes the sign of `a`. */
  function CppRem(a: int, n: int): (r: int)
    requires n > 0
    ensures -n < r < n
    ensures a >= 0 ==> r >= 0
    ensures a <= 0 ==> r <= 0
  {
    if a >= 0 then a % n else -((-a) % n)
  }

  /** Lines 26-29: the C++ remainder, moved up by `n` when it is negative. */
  function Wrap(a: int, n: int): (r: int)
    requires n > 0
    ensures 0 <= r < n
  {
    var t := CppRem(a, n);
    if t < 0 then t + n else t
  }

  /** The two steps of lines 26-29 compute the non-negative remainder. */
  lemma WrapIsMod(a: int, n: int)
    requires n > 0
    ensures Wrap(a, n) == a % n
  {
    if a < 0 {
      var q, s := (-a) / n, (-a) % n;
      assert -a == q * n + s;
      if s == 0 {
        DivModUnique(a, n, -q, 0);
      } else {
        DivModUnique(a, n, -q - 1, n - s);
      }
    }
  }

  /** The kernel column (or row) whose weight the placement puts in column
      (or row) `u` of a side of length `n`; a value outside `[0, 2r]` means
      that no weight lands there. */
  function Unwrap(u: int, r: int, n: int): int
  {
    if u <= r then u + r else u - n + r
  }

  /** `Unwrap` inverts the placement of every kernel column... */
  lemma UnwrapPlace(kx: int, r: int, n: int)
    requires 0 <= kx <= 2 * r && 2 * r < n
    ensures Unwrap(Wrap(kx - r, n), r, n) == kx
  {
    WrapIsMod(kx - r, n);
    if kx >= r {
      DivModUnique(kx - r, n, 0, kx - r);
    } else {
      DivModUnique(kx - r, n, -1, kx - r + n);
    }
  }

  /** ...and the placement inverts `Unwrap` on every cell a weight lands on. */
  lemma PlaceUnwrap(u: int, r: int, n: int)
    requires 0 <= u < n && 0 <= Unwrap(u, r, n) <= 2 * r && 2 * r < n
    ensures Wrap(Unwrap(u, r, n) - r, n) == u
  {
    var kx := Unwrap(u, r, n);
    WrapIsMod(kx - r, n);
    if u <= r {
      DivModUnique(kx - r, n, 0, u);
    } else {
      DivModUnique(kx - r, n, -1, u);
    }
  }

  /** Distinct kernel taps land on distinct cells, so the `+=` of line 31
      never adds two weights into one cell. */
  lemma PlacementInjective(kx1: int, ky1: int, kx2: int, ky2: int, r: int, wp: int, hp: int)
    requires 0 <= kx1 <= 2 * r && 0 <= ky1 <= 2 * r && 0 <= kx2 <= 2 * r && 0 <= ky2 <= 2 * r
    requires 2 * r < wp && 2 * r < hp
    requires Wrap(kx1 - r, wp) == Wrap(kx2 - r, wp) && Wrap(ky1 - r, hp) == Wrap(ky2 - r, hp)
    ensures kx1 == kx2 && ky1 == ky2
  {
    UnwrapPlace(kx1, r, wp);
    UnwrapPlace(kx2, r, wp);
    UnwrapPlace(ky1, r, hp);
    UnwrapPlace(ky2, r, hp);
  }

  /** The padded grid after the placement: cell `(u, v)` holds the weight
      of the tap that lands there, and 0 when none does. */
  function KernelPad(k: Kernel, wp: int, hp: int): (r: seq<real>)
    requires wp > 0 && hp >= 0
    ensures |r| == wp * hp
  {
    Tabulate(wp, hp, KernelPadFn(k, wp, hp))
  }

  function KernelPadFn(k: Kernel, wp: int, hp: int): (int, int) -> real
  {
    (u, v) => Weight(k, Unwrap(u, Radius(k), wp), Unwrap(v, Radius(k), hp))
  }

  /** Tap `(kx, ky)` sits at `((kx - r) mod wp, (ky - r) mod hp)`. */
  lemma KernelPadPlaced(k: Kernel, wp: int, hp: int, kx: int, ky: int)
    requires ValidKernel(k) && k.size <= wp && k.size <= hp
    requires 0 <= kx < k.size && 0 <= ky < k.size
    ensures 0 <= Idx(kx, ky, k.size) < |k.w| && Weight(k, kx, ky) == k.w[Idx(kx, ky, k.size)]
    ensures Cell(KernelPad(k, wp, hp), wp, hp, Wrap(kx - Radius(k), wp), Wrap(ky - Radius(k), hp))
         == k.w[Idx(kx, ky, k.size)]
  {
    var r := Radius(k);
    var u, v := Wrap(kx - r, wp), Wrap(ky - r, hp);
    UnwrapPlace(kx, r, wp);
    UnwrapPlace(ky, r, hp);
    IdxBounds(kx, ky, k.size, k.size);
    calc {
      Cell(KernelPad(k, wp, hp), wp, hp, u, v);
      KernelPadFn(k, wp, hp)(u, v);
      Weight(k, kx, ky);
      Cell(k.w, k.size, k.size, kx, ky);
    }
  }

  /** The centre weight lands on cell `(0, 0)`. */
  lemma KernelPadCentre(k: Kernel, wp: int, hp: int)
    requires ValidKernel(k) && k.size <= wp && k.size <= hp
    ensures 0 <= Idx(Radius(k), Radius(k), k.size) < |k.w|
    ensures Cell(KernelPad(k, wp, hp), wp, hp, 0, 0) == k.w[Idx(Radius(k), Radius(k), k.size)]
  {
    KernelPadPlaced(k, wp, hp, Radius(k), Radius(k));
    assert Wrap(0, wp) == 0 && Wrap(0, hp) == 0;
  }

  /** Every cell of the placed grid is either the cell of exactly one tap,
      holding that tap's weight, or 0. */
  lemma KernelPadCell(k: Kernel, wp: int, hp: int, u: int, v: int)
    requires ValidKernel(k) && k.size <= wp && k.size <= hp && 0 <= u < wp && 0 <= v < hp
    ensures var kx, ky := Unwrap(u, Radius(k), wp), Unwrap(v, Radius(k), hp);
      if 0 <= kx < k.size && 0 <= ky < k.size
      then Wrap(kx - Radius(k), wp) == u && Wrap(ky - Radius(k), hp) == v
           && Cell(KernelPad(k, wp, hp), wp, hp, u, v) == Weight(k, kx, ky)
      else Cell(KernelPad(k, wp, hp), wp, hp, u, v) == 0.0
  {
    var r := Radius(k);
    var kx, ky := Unwrap(u, r, wp), Unwrap(v, r, hp);
    assert Cell(KernelPad(k, wp, hp), wp, hp, u, v) == KernelPadFn(k, wp, hp)(u, v);
    if 0 <= kx < k.size && 0 <= ky < k.size {
      PlaceUnwrap(u, r, wp);
      PlaceUnwrap(v, r, hp);
    }
  }

  /** The grid after the first taps of the placement loops have been added:
      the taps in kernel rows above `ky`, and in row `ky` left of `kx`. */
  ghost function PlacedPrefix(k: Kernel, wp: int, hp: int, ky: int, kx: int): (s: seq<Complex>)
    requires wp > 0 && hp >= 0
    ensures |s| == wp * hp
  {
    seq(wp * hp, i requires 0 <= i < wp * hp =>
      var a, b := Unwrap(i % wp, Radius(k), wp), Unwrap(i / wp, Radius(k), hp);
      if b < ky || (b == ky && a < kx) then FromReal(Weight(k, a, b)) else Zero)
  }

  lemma PlacedPrefixNone(k: Kernel, wp: int, hp: int)
    requires wp > 0 && hp >= 0
    ensures PlacedPrefix(k, wp, hp, 0, 0) == seq(wp * hp, i => Zero)
  {
  }

  /** Entry `i` after adding tap `(kx, ky)` at its cell `c`. */
  lemma PlacedPrefixStepAt(k: Kernel, wp: int, hp: int, ky: int, kx: int, c: int, i: int)
    requires ValidKernel(k) && k.size <= wp && k.size <= hp
    requires 0 <= kx < k.size && 0 <= ky < k.size && 0 <= i < wp * hp
    requires c == Idx(Wrap(kx - Radius(k), wp), Wrap(ky - Radius(k), hp), wp)
    ensures 0 <= c < wp * hp
    ensures PlacedPrefix(k, wp, hp, ky, kx + 1)[i]
         == if i == c then Add(PlacedPrefix(k, wp, hp, ky, kx)[i], FromReal(Weight(k, kx, ky)))
            else PlacedPrefix(k, wp, hp, ky, kx)[i]
  {
    var r := Radius(k);
    var tx, ty := Wrap(kx - r, wp), Wrap(ky - r, hp);
    IdxBounds(tx, ty, wp, hp);
    Split(i, wp, hp);
    var a, b := Unwrap(i % wp, r, wp), Unwrap(i / wp, r, hp);
    if i == c {
      IdxDivMod(tx, ty, wp);
      UnwrapPlace(kx, r, wp);
      UnwrapPlace(ky, r, hp);
      assert a == kx && b == ky;
    } else if a == kx && b == ky {
      PlaceUnwrap(i % wp, r, wp);
      PlaceUnwrap(i / wp, r, hp);
      assert false;
    }
  }

  lemma PlacedPrefixStep(k: Kernel, wp: int, hp: int, ky: int, kx: int)
    requires ValidKernel(k) && k.size <= wp && k.size <= hp
    requires 0 <= kx < k.size && 0 <= ky < k.size
    ensures 0 <= Idx(Wrap(kx - Radius(k), wp), Wrap(ky - Radius(k), hp), wp) < wp * hp
    ensures 0 <= Idx(kx, ky, k.size) < |k.w|
    ensures var c := Idx(Wrap(kx - Radius(k), wp), Wrap(ky - Radius(k), hp), wp);
      var p := PlacedPrefix(k, wp, hp, ky, kx);
      PlacedPrefix(k, wp, hp, ky, kx + 1) == p[c := Add(p[c], FromReal(k.w[Idx(kx, ky, k.size)]))]
  {
    IdxBounds(Wrap(kx - Radius(k), wp), Wrap(ky - Radius(k), hp), wp, hp);
    IdxBounds(kx, ky, k.size, k.size);
    var c := Idx(Wrap(kx - Radius(k), wp), Wrap(ky - Radius(k), hp), wp);
    var p := PlacedPrefix(k, wp, hp, ky, kx);
    var q := PlacedPrefix(k, wp, hp, ky, kx + 1);
    assert Weight(k, kx, ky) == k.w[Idx(kx, ky, k.size)];
    forall i | 0 <= i < wp * hp
      ensures q[i] == p[c := Add(p[c], FromReal(k.w[Idx(kx, ky, k.size)]))][i]
    {
      PlacedPrefixStepAt(k, wp, hp, ky, kx, c, i);
    }
  }

  /** Past the last column of kernel row `ky` nothing else is placed in it. */
  lemma PlacedPrefixRow(k: Kernel, wp: int, hp: int, ky: int)
    requires ValidKernel(k) && wp > 0 && hp >= 0
    ensures PlacedPrefix(k, wp, hp, ky, k.size) == PlacedPrefix(k, wp, hp, ky + 1, 0)
  {
    var p, q := PlacedPrefix(k, wp, hp, ky, k.size), PlacedPrefix(k, wp, hp, ky + 1, 0);
    forall i | 0 <= i < wp * hp ensures p[i] == q[i] {
      Split(i, wp, hp);
    }
  }

  lemma PlacedPrefixAll(k: Kernel, wp: int, hp: int)
    requires ValidKernel(k) && wp > 0 && hp >= 0
    ensures PlacedPrefix(k, wp, hp, k.size, 0) == ToComplex(KernelPad(k, wp, hp))
  {
    var p, q := PlacedPrefix(k, wp, hp, k.size, 0), ToComplex(KernelPad(k, wp, hp));
    forall i | 0 <= i < wp * hp ensures p[i] == q[i] {
      Split(i, wp, hp);
      IdxDivMod(i % wp, i / wp, wp);
      assert KernelPad(k, wp, hp)[i] == Cell(KernelPad(k, wp, hp), wp, hp, i % wp, i / wp);
    }
  }

  /** One pass of the inner body of `place_centered_kernel`
      (src/conv_fft.cpp:26-31): the wrapped target cell of tap `(kx, ky)`,
      and the weight added into it. */
  method PlaceTap(a: array<Complex>, wp: int, hp: int, k: Kernel, ky: int, kx: int)
    requires ValidKernel(k) && k.size <= wp && k.size <= hp && 0 <= ky < k.size && 0 <= kx < k.size
    requires a.Length == wp * hp && a[..] == PlacedPrefix(k, wp, hp, ky, kx)
    modifies a
    ensures a[..] == PlacedPrefix(k, wp, hp, ky, kx + 1)
  {
    PlacedPrefixStep(k, wp, hp, ky, kx);
    var ks := k.size;
    var r := ks / 2;
    var tx := CppRem(kx - r, wp);
    var ty := CppRem(ky - r, hp);
    if tx < 0 {
      tx := tx + wp;
    }
    if ty < 0 {
      ty := ty + hp;
    }
    assert tx == Wrap(kx - Radius(k), wp) && ty == Wrap(ky - Radius(k), hp);
    var c := Idx(tx, ty, wp);
    a[c] := Add(a[c], FromReal(k.w[Idx(kx, ky, ks)]));
  }

  /** The inner loop of `place_centered_kernel` (src/conv_fft.cpp:24-32)
      for kernel row `ky`. */
  method PlaceRow(a: array<Complex>, wp: int, hp: int, k: Kernel, ky: int)
    requires ValidKernel(k) && k.size <= wp && k.size <= hp && 0 <= ky < k.size
    requires a.Length == wp * hp && a[..] == PlacedPrefix(k, wp, hp, ky, 0)
    modifies a
    ensures a[..] == PlacedPrefix(k, wp, hp, ky + 1, 0)
  {
    var kx := 0;
    while kx < k.size
      invariant 0 <= kx <= k.size
      invariant a[..] == PlacedPrefix(k, wp, hp, ky, kx)
    {
      PlaceTap(a, wp, hp, k, ky, kx);
      kx := kx + 1;
    }
    PlacedPrefixRow(k, wp, hp, ky);
  }

  /** `place_centered_kernel` (src/conv_fft.cpp:16-34): on a zero grid, it
      leaves exactly `KernelPad`. */
  method PlaceCenteredKernel(a: array<Complex>, wp: int, hp: int, k: Kernel)
    requires ValidKernel(k) && k.size <= wp && k.size <= hp
    requires a.Length == wp * hp && forall i :: 0 <= i < a.Length ==> a[i] == Zero
    modifies a
    ensures a[..] == ToComplex(KernelPad(k, wp, hp))
  {
    PlacedPrefixNone(k, wp, hp);
    assert a[..] == PlacedPrefix(k, wp, hp, 0, 0);
    var ky := 0;
    while ky < k.size
      invariant 0 <= ky <= k.size
      invariant a[..] == PlacedPrefix(k, wp, hp, ky, 0)
    {
      PlaceRow(a, wp, hp, k, ky);
      ky := ky + 1;
    }
    PlacedPrefixAll(k, wp, hp);
  }

  // ---------------------------------------------------------------------------
  // Padded sizes (src/conv_fft.cpp:54-60)

  /** `next_pow2(n + ks - 1)`: the least power of two that holds a side of
      length `n` and the `ks - 1` cells the kernel spreads beyond it. */
  function PaddedSize(n: int, ks: int): int
    requires n >= 1 && ks >= 1
  {
    CeilPow2(n + ks - 1)
  }

  /** The padded side is a power of two, holds `n + ks - 1` cells, and is
      the least such: half of it is too small. */
  lemma PaddedSizeFacts(n: int, ks: int)
    requires n >= 1 && ks >= 1
    ensures IsPowerOfTwo(PaddedSize(n, ks)) && PaddedSize(n, ks) >= n + ks - 1
    ensures PaddedSize(n, ks) == 1 || PaddedSize(n, ks) / 2 < n + ks - 1
    ensures forall p :: IsPowerOfTwo(p) && p >= n + ks - 1 ==> PaddedSize(n, ks) <= p
  {
    forall p | IsPowerOfTwo(p) && p >= n + ks - 1 ensures PaddedSize(n, ks) <= p {
      CeilPow2Least(n + ks - 1, p);
    }
  }

  /** A 10-pixel side with a 3-tap kernel is padded to 16. */
  lemma PaddedSizeExample()
    ensures PaddedSize(10, 3) == 16
  {
    var p := PaddedSize(10, 3);
    Pow2IsPowerOfTwo(4);
    assert Pow2(4) == 16;
    CeilPow2Least(12, 16);
    assert p <= 16 && p > 8;
    if p < 16 {
      PowerOfTwoGap(p, 16);
      assert false;
    }
  }

  /** Sides and kernel sizes up to `MaxDim` pad to at most `2^14`. */
  lemma PaddedSizeBound(n: int, ks: int)
    requires 1 <= n <= MaxDim && 1 <= ks <= MaxDim
    ensures PaddedSize(n, ks) <= 0x4000
  {
    Pow2IsPowerOfTwo(14);
    assert Pow2(14) == 0x4000 by {
      assert Pow2(4) == 16;
      assert Pow2(8) == 256 by {
        assert Pow2(5) == 32 && Pow2(6) == 64 && Pow2(7) == 128;
      }
      assert Pow2(11) == 2048 by {
        assert Pow2(9) == 512 && Pow2(10) == 1024;
      }
      assert Pow2(12) == 4096 && Pow2(13) == 8192;
    }
    CeilPow2Least(n + ks - 1, 0x4000);
  }

  /** What the convolver needs of its padded sides: powers of two that
      hold the image and the kernel, whose product fits the transform. */
  lemma PaddedArea(img: Image, k: Kernel, wp: int, hp: int)
    requires ValidImage(img) && ValidKernel(k) && WithinBounds(img, k)
    requires wp == PaddedSize(img.width, k.size) && hp == PaddedSize(img.height, k.size)
    ensures IsPowerOfTwo(wp) && IsPowerOfTwo(hp) && img.width <= wp && img.height <= hp
    ensures k.size <= wp && k.size <= hp && wp * hp <= 0x1000_0000
  {
    PaddedSizeFacts(img.width, k.size);
    PaddedSizeFacts(img.height, k.size);
    PaddedSizeBound(img.width, k.size);
    PaddedSizeBound(img.height, k.size);
    MulLeft(wp, 0x4000, hp);
    MulLeft(hp, 0x4000, 0x4000);
  }

  // ---------------------------------------------------------------------------
  // The image copy (src/conv_fft.cpp:63-71)

  /** The image in the top-left corner of a zero `wp * hp` grid. */
  function PadImage(img: Image, wp: int, hp: int): (r: seq<real>)
    requires wp > 0 && hp >= 0
    ensures |r| == wp * hp
  {
    Tabulate(wp, hp, PixelFn(img))
  }

  function PixelFn(img: Image): (int, int) -> real
  {
    (x, y) => Pixel(img, x, y)
  }

  /** Cell `(x, y)` of the padded image is pixel `(x, y)` inside the image
      and 0 everywhere else. */
  lemma PadImageCell(img: Image, wp: int, hp: int, x: int, y: int)
    requires ValidImage(img) && wp > 0 && hp > 0 && 0 <= x < wp && 0 <= y < hp
    ensures x < img.width && y < img.height ==>
      0 <= Idx(x, y, img.width) < |img.pixels| && Cell(PadImage(img, wp, hp), wp, hp, x, y) == img.pixels[Idx(x, y, img.width)]
    ensures !(x < img.width && y < img.height) ==> Cell(PadImage(img, wp, hp), wp, hp, x, y) == 0.0
  {
    if x < img.width && y < img.height {
      IdxBounds(x, y, img.width, img.height);
    }
  }

  /** The grid after the copy loops have written the image rows above `y`
      and, in row `y`, the pixels left of `x`. */
  ghost function CopyPrefix(img: Image, wp: int, hp: int, y: int, x: int): (s: seq<Complex>)
    requires wp > 0 && hp >= 0
    ensures |s| == wp * hp
  {
    seq(wp * hp, i requires 0 <= i < wp * hp =>
      if i / wp < y || (i / wp == y && i % wp < x) then FromReal(Pixel(img, i % wp, i / wp)) else Zero)
  }

  lemma CopyPrefixStep(img: Image, wp: int, hp: int, y: int, x: int)
    requires ValidImage(img) && 0 <= x < img.width <= wp && 0 <= y < img.height <= hp
    ensures 0 <= Idx(x, y, wp) < wp * hp && 0 <= Idx(x, y, img.width) < |img.pixels|
    ensures CopyPrefix(img, wp, hp, y, x + 1)
         == CopyPrefix(img, wp, hp, y, x)[Idx(x, y, wp) := FromReal(img.pixels[Idx(x, y, img.width)])]
  {
    IdxBounds(x, y, wp, hp);
    IdxBounds(x, y, img.width, img.height);
    IdxDivMod(x, y, wp);
    var p, q := CopyPrefix(img, wp, hp, y, x + 1), CopyPrefix(img, wp, hp, y, x)[Idx(x, y, wp) := FromReal(img.pixels[Idx(x, y, img.width)])];
    forall i | 0 <= i < wp * hp ensures p[i] == q[i] {
      Split(i, wp, hp);
      if i / wp == y && i % wp == x {
        IdxDivMod(i % wp, i / wp, wp);
      }
    }
  }

  lemma CopyPrefixRow(img: Image, wp: int, hp: int, y: int)
    requires ValidImage(img) && img.width <= wp && hp >= 0
    ensures CopyPrefix(img, wp, hp, y, img.width) == CopyPrefix(img, wp, hp, y + 1, 0)
  {
    var p, q := CopyPrefix(img, wp, hp, y, img.width), CopyPrefix(img, wp, hp, y + 1, 0);
    forall i | 0 <= i < wp * hp ensures p[i] == q[i] {
      Split(i, wp, hp);
    }
  }

  lemma CopyPrefixEnds(img: Image, wp: int, hp: int)
    requires ValidImage(img) && img.width <= wp && img.height <= hp
    ensures CopyPrefix(img, wp, hp, 0, 0) == seq(wp * hp, i => Zero)
    ensures CopyPrefix(img, wp, hp, img.height, 0) == ToComplex(PadImage(img, wp, hp))
  {
    var p, q := CopyPrefix(img, wp, hp, img.height, 0), ToComplex(PadImage(img, wp, hp));
    forall i | 0 <= i < wp * hp ensures p[i] == q[i] {
      Split(i, wp, hp);
      IdxDivMod(i % wp, i / wp, wp);
      assert PadImage(img, wp, hp)[i] == Cell(PadImage(img, wp, hp), wp, hp, i % wp, i / wp);
    }
  }

  /** One row of the copy loops (src/conv_fft.cpp:68-70). */
  method CopyRow(a: array<Complex>, img: Image, wp: int, hp: int, y: int)
    requires ValidImage(img) && img.width <= wp && 0 <= y < img.height <= hp
    requires a.Length == wp * hp && a[..] == CopyPrefix(img, wp, hp, y, 0)
    modifies a
    ensures a[..] == CopyPrefix(img, wp, hp, y + 1, 0)
  {
    var x := 0;
    while x < img.width
      invariant 0 <= x <= img.width
      invariant a[..] == CopyPrefix(img, wp, hp, y, x)
    {
      CopyPrefixStep(img, wp, hp, y, x);
      a[Idx(x, y, wp)] := FromReal(img.pixels[Idx(x, y, img.width)]);
      x := x + 1;
    }
    CopyPrefixRow(img, wp, hp, y);
  }

  /** The zero grid `I` and the copy loops (src/conv_fft.cpp:63-71). */
  method CopyImage(img: Image, wp: int, hp: int) returns (a: array<Complex>)
    requires ValidImage(img) && img.width <= wp && img.height <= hp
    ensures fresh(a) && a[..] == ToComplex(PadImage(img, wp, hp))
  {
    a := new Complex[wp * hp](_ => Zero);
    CopyPrefixEnds(img, wp, hp);
    assert a[..] == CopyPrefix(img, wp, hp, 0, 0);
    var y := 0;
    while y < img.height
      invariant 0 <= y <= img.height
      invariant a[..] == CopyPrefix(img, wp, hp, y, 0)
    {
      CopyRow(a, img, wp, hp, y);
      y := y + 1;
    }
  }

  // ---------------------------------------------------------------------------
  // Multiply and crop (src/conv_fft.cpp:80-99)

  /** The cell-by-cell product of two spectra. */
  function Product(a: seq<Complex>, b: seq<Complex>): (r: seq<Complex>)
    requires |a| == |b|
    ensures |r| == |a|
  {
    seq(|a|, i requires 0 <= i < |a| => Mul(a[i], b[i]))
  }

  /** The multiply loop (src/conv_fft.cpp:81-83): `a[i] *= b[i]` for every
      `i`; `b` is only read. */
  method MultiplyInPlace(a: array<Complex>, b: array<Complex>)
    requires a != b && a.Length == b.Length
    modifies a
    ensures a[..] == Product(old(a[..]), b[..])
  {
    ghost var s := a[..];
    var i := 0;
    while i < a.Length
      invariant 0 <= i <= a.Length
      invariant forall t :: 0 <= t < i ==> a[t] == Mul(s[t], b[t])
      invariant forall t :: i <= t < a.Length ==> a[t] == s[t]
    {
      a[i] := Mul(a[i], b[i]);
      i := i + 1;
    }
  }

  /** The real part of cell `(x, y)` of a `wp * hp` grid (0 off the grid). */
  function RealAt(s: seq<Complex>, wp: int, hp: int, x: int, y: int): real
  {
    if 0 <= x < wp && 0 <= y < hp && |s| == wp * hp then Cell(s, wp, hp, x, y).re else 0.0
  }

  function CropFn(s: seq<Complex>, wp: int, hp: int): (int, int) -> real
  {
    (x, y) => RealAt(s, wp, hp, x, y)
  }

  /** The output image: the real parts of the top-left `w * h` block of the
      `wp * hp` grid. */
  function Crop(s: seq<Complex>, wp: int, hp: int, w: int, h: int): (out: Image)
    requires 0 < w <= wp && 0 < h <= hp && |s| == wp * hp
    ensures ValidImage(out) && out.width == w && out.height == h
    ensures forall x, y :: 0 <= x < w && 0 <= y < h ==>
      Cell(out.pixels, w, h, x, y) == Cell(s, wp, hp, x, y).re
  {
    Image(w, h, Tabulate(w, h, CropFn(s, wp, hp)))
  }

  /** The crop loops for output row `y` (src/conv_fft.cpp:96-98). */
  method CropRow(out: array<real>, a: array<Complex>, wp: int, hp: int, w: int, h: int, y: int, ghost c: seq<real>)
    requires 0 < w <= wp && 0 <= y < h <= hp && a.Length == wp * hp && out.Length == w * h
    requires c == Crop(a[..], wp, hp, w, h).pixels
    requires 0 <= Idx(0, y, w) && Idx(0, y + 1, w) == Idx(0, y, w) + w <= out.Length
    requires forall i :: 0 <= i < Idx(0, y, w) ==> out[i] == c[i]
    modifies out
    ensures forall i :: 0 <= i < Idx(0, y + 1, w) ==> out[i] == c[i]
  {
    var x := 0;
    while x < w
      invariant 0 <= x <= w
      invariant forall i :: 0 <= i < Idx(x, y, w) ==> out[i] == c[i]
    {
      IdxBounds(x, y, w, h);
      IdxBounds(x, y, wp, hp);
      IdxDivMod(x, y, w);
      assert c[Idx(x, y, w)] == Cell(c, w, h, x, y) == a[Idx(x, y, wp)].re;
      out[Idx(x, y, w)] := a[Idx(x, y, wp)].re;
      x := x + 1;
    }
  }

  /** The output buffer and the crop loops (src/conv_fft.cpp:90-99). */
  method CropReal(a: array<Complex>, wp: int, hp: int, w: int, h: int) returns (out: array<real>)
    requires 0 < w <= wp && 0 < h <= hp && a.Length == wp * hp
    ensures out[..] == Crop(a[..], wp, hp, w, h).pixels
  {
    ghost var c := Crop(a[..], wp, hp, w, h).pixels;
    out := new real[w * h](_ => 0.0);
    var y := 0;
    while y < h
      invariant 0 <= y <= h
      invariant 0 <= Idx(0, y, w) <= out.Length
      invariant forall i :: 0 <= i < Idx(0, y, w) ==> out[i] == c[i]
    {
      RowSpan(y, w, h);
      CropRow(out, a, wp, hp, w, h, y, c);
      y := y + 1;
    }
    assert Idx(0, h, w) == out.Length;
  }

  // ---------------------------------------------------------------------------
  // The whole convolver (src/conv_fft.cpp:36-102)

  /** The frequency-domain filter of two padded grids: both forward
      transforms, their cell-by-cell product, and its inverse transform. */
  function Filter(x: seq<Complex>, kk: seq<Complex>, wp: int, hp: int, tw: Twiddle): (r: seq<Complex>)
    requires IsPowerOfTwo(wp) && IsPowerOfTwo(hp) && |x| == wp * hp && |kk| == wp * hp
    ensures |r| == wp * hp
  {
    Transform2(Product(Transform2(x, wp, hp, false, tw), Transform2(kk, wp, hp, false, tw)), wp, hp, true, tw)
  }

  /** The padded image and the placed kernel, filtered and cropped. */
  function FrequencyPath(img: Image, k: Kernel, tw: Twiddle): (out: Image)
    requires ValidImage(img) && ValidKernel(k)
    ensures ValidImage(out) && out.width == img.width && out.height == img.height
  {
    var wp, hp := PaddedSize(img.width, k.size), PaddedSize(img.height, k.size);
    PaddedSizeFacts(img.width, k.size);
    PaddedSizeFacts(img.height, k.size);
    Crop(Filter(ToComplex(PadImage(img, wp, hp)), ToComplex(KernelPad(k, wp, hp)), wp, hp, tw), wp, hp, img.width, img.height)
  }

  /** `convolve_fft` as a function: the first failing input check, or the
      frequency-domain result. */
  function FftResult(img: Image, k: Kernel, tw: Twiddle): (r: Result<Image, ConvError>)
    ensures r.Err? <==> CheckInputs(img, k).Some?
    ensures r.Err? ==> r.error == CheckInputs(img, k).value
    ensures r.Ok? ==> r.value.width == img.width && r.value.height == img.height
                      && |r.value.pixels| == img.width * img.height
  {
    match CheckInputs(img, k)
    case Some(e) => Err(e)
    case None => Ok(FrequencyPath(img, k, tw))
  }

  /** The two forward transforms, the multiply loop and the inverse
      transform (src/conv_fft.cpp:77-86): `a` ends up holding the filtered
      grid. */
  method FilterInPlace(a: array<Complex>, kpad: array<Complex>, wp: int, hp: int, tw: Twiddle)
    requires a != kpad && IsPowerOfTwo(wp) && IsPowerOfTwo(hp) && wp * hp < MaxPow2Arg
    requires a.Length == wp * hp && kpad.Length == wp * hp
    modifies a, kpad
    ensures a[..] == Filter(old(a[..]), old(kpad[..]), wp, hp, tw)
  {
    MulLeft(1, hp, wp);
    MulLeft(1, wp, hp);
    ghost var fi := Transform2(a[..], wp, hp, false, tw);
    ghost var fk := Transform2(kpad[..], wp, hp, false, tw);
    var ra := Fft2dInPlace(a, wp, hp, false, tw);
    assert a[..] == fi;
    var rk := Fft2dInPlace(kpad, wp, hp, false, tw);
    assert kpad[..] == fk && a[..] == fi;
    MultiplyInPlace(a, kpad);
    ghost var spectrum := a[..];
    assert spectrum == Product(fi, fk);
    var ri := Fft2dInPlace(a, wp, hp, true, tw);
  }

  /** The padded image and the placed kernel, in two new grids
      (src/conv_fft.cpp:63-74). */
  method PadInputs(img: Image, k: Kernel, wp: int, hp: int) returns (a: array<Complex>, kpad: array<Complex>)
    requires ValidImage(img) && ValidKernel(k) && img.width <= wp && img.height <= hp && k.size <= wp && k.size <= hp
    ensures fresh(a) && fresh(kpad) && a != kpad
    ensures a[..] == ToComplex(PadImage(img, wp, hp)) && kpad[..] == ToComplex(KernelPad(k, wp, hp))
  {
    a := CopyImage(img, wp, hp);
    kpad := new Complex[wp * hp](_ => Zero);
    PlaceCenteredKernel(kpad, wp, hp, k);
  }

  /** The padding, transforms, product and crop of `convolve_fft`
      (src/conv_fft.cpp:54-101) on inputs that passed the checks. */
  method FrequencyConvolve(img: Image, k: Kernel, tw: Twiddle) returns (out: Image)
    requires ValidImage(img) && ValidKernel(k) && WithinBounds(img, k)
    ensures out == FrequencyPath(img, k, tw)
  {
    var w, h, ks := img.width, img.height, k.size;
    var rw := NextPow2(w + ks - 1);
    var rh := NextPow2(h + ks - 1);
    var wp, hp := rw.value, rh.value;
    PaddedArea(img, k, wp, hp);
    assert wp * hp < MaxPow2Arg;
    var a, kpad := PadInputs(img, k, wp, hp);
    FilterInPlace(a, kpad, wp, hp, tw);
    var pixels := CropReal(a, wp, hp, w, h);
    out := Image(w, h, pixels[..]);
  }

  /** `convolve_fft` (src/conv_fft.cpp:36-102). The size bounds keep
      `W + ks - 1`, the padded sides and their product inside a 32-bit
      `int`. */
  method ConvolveFft(img: Image, k: Kernel, tw: Twiddle) returns (r: Result<Image, ConvError>)
    requires WithinBounds(img, k)
    ensures r == FftResult(img, k, tw)
  {
    if img.width <= 0 || img.height <= 0 {
      return Err(InvalidImageDimensions);
    }
    if |img.pixels| != img.width * img.height {
      return Err(PixelBufferMismatch);
    }
    if k.size <= 0 || k.size % 2 == 0 {
      return Err(KernelSizeNotPositiveOdd);
    }
    if |k.w| != k.size * k.size {
      return Err(KernelBufferMismatch);
    }
    var out := FrequencyConvolve(img, k, tw);
    return Ok(out);
  }
}

=== FILE: conv_naive.dfy ===
/** The spatial convolver `convolve_naive` (src/conv_naive.cpp): every output
    pixel is the sum, over the kernel taps whose sample falls inside the
    image, of sample times weight. The sample for tap `(kx, ky)` at output
    `(x, y)` is the pixel at `(x + kx - r, y + ky - r)`, so the sum is a
    correlation with the kernel (see `Alignment` for what that means for the
    frequency convolver). */
module ConvNaive {
  import opened Wrappers
  import opened Grid
  import opened Sums
  import opened Images

  /** Tap `(kx, ky)` at output `(x, y)`: sample times weight, 0 when the
      sample lies outside the image. */
  function Tap(img: Image, k: Kernel, x: int, y: int, kx: int, ky: int): real
  {
    Pixel(img, x + (kx - Radius(k)), y + (ky - Radius(k))) * Weight(k, kx, ky)
  }

  function TapsAcross(img: Image, k: Kernel, x: int, y: int, ky: int): int -> real
  {
    kx => Tap(img, k, x, y, kx, ky)
  }

  /** The contribution of kernel row `ky`. */
  function KernelRowSum(img: Image, k: Kernel, x: int, y: int, ky: int): real
  {
    Sum(k.size, TapsAcross(img, k, x, y, ky))
  }

  function RowSums(img: Image, k: Kernel, x: int, y: int): int -> real
  {
    ky => KernelRowSum(img, k, x, y, ky)
  }

  /** Output pixel `(x, y)`: the sum of all taps. */
  function CorrelationAt(img: Image, k: Kernel, x: int, y: int): real
  {
    Sum(k.size, RowSums(img, k, x, y))
  }

  function CorrelationFn(img: Image, k: Kernel): (int, int) -> real
  {
    (x, y) => CorrelationAt(img, k, x, y)
  }

  /** The output image: same width and height, pixel `(x, y)` is `CorrelationAt`. */
  function Correlate(img: Image, k: Kernel): (out: Image)
    requires ValidImage(img)
    ensures out.width == img.width && out.height == img.height && |out.pixels| == |img.pixels|
    ensures forall x, y :: 0 <= x < img.width && 0 <= y < img.height ==>
      Cell(out.pixels, out.width, out.height, x, y) == CorrelationAt(img, k, x, y)
  {
    Image(img.width, img.height, Tabulate(img.width, img.height, CorrelationFn(img, k)))
  }

  /** `convolve_naive` as a function: the first failing input check, or the
      correlation. */
  function NaiveResult(img: Image, k: Kernel): (r: Result<Image, ConvError>)
    ensures r.Err? <==> CheckInputs(img, k).Some?
    ensures r.Err? ==> r.error == CheckInputs(img, k).value
    ensures r.Ok? ==> (r.value.width == img.width && r.value.height == img.height
                       && |r.value.pixels| == img.width * img.height)
  {
    match CheckInputs(img, k)
    case Some(e) => Err(e)
    case None => Ok(Correlate(img, k))
  }

  /** A kernel row whose sample row is outside the image contributes 0. */
  lemma RowOutside(img: Image, k: Kernel, x: int, y: int, ky: int)
    requires !(0 <= y + (ky - Radius(k)) < img.height)
    ensures KernelRowSum(img, k, x, y, ky) == 0.0
  {
    SumOfZeros(k.size, TapsAcross(img, k, x, y, ky));
  }

  /** A tap's term is its sample times its weight. */
  lemma TapValue(img: Image, k: Kernel, x: int, y: int, kx: int, ky: int, p: real, w: real)
    requires Pixel(img, x + (kx - Radius(k)), y + (ky - Radius(k))) == p && Weight(k, kx, ky) == w
    ensures TapsAcross(img, k, x, y, ky)(kx) == p * w
  {
  }

  /** One step of the inner loop when the sample is inside the image: the
      row sum grows by the product of the two buffer entries the loop reads. */
  lemma RowStepInside(img: Image, k: Kernel, x: int, y: int, ky: int, kx: int, ix: int, iy: int, next: int)
    requires ValidImage(img) && ValidKernel(k) && 0 <= kx < k.size && 0 <= ky < k.size && next == kx + 1
    requires ix == x + (kx - Radius(k)) && iy == y + (ky - Radius(k))
    requires 0 <= ix < img.width && 0 <= iy < img.height
    ensures 0 <= Idx(ix, iy, img.width) < |img.pixels| && 0 <= Idx(kx, ky, k.size) < |k.w|
    ensures Sum(next, TapsAcross(img, k, x, y, ky))
         == Sum(kx, TapsAcross(img, k, x, y, ky)) + img.pixels[Idx(ix, iy, img.width)] * k.w[Idx(kx, ky, k.size)]
  {
    IdxBounds(kx, ky, k.size, k.size);
    IdxBounds(ix, iy, img.width, img.height);
    assert Pixel(img, ix, iy) == img.pixels[Idx(ix, iy, img.width)];
    assert Weight(k, kx, ky) == k.w[Idx(kx, ky, k.size)];
    TapValue(img, k, x, y, kx, ky, img.pixels[Idx(ix, iy, img.width)], k.w[Idx(kx, ky, k.size)]);
    SumStep(kx, next, TapsAcross(img, k, x, y, ky), img.pixels[Idx(ix, iy, img.width)] * k.w[Idx(kx, ky, k.size)]);
  }


  /** One step of the inner loop when the sample is left or right of the
      image: the row sum does not change. */
  lemma RowStepOutside(img: Image, k: Kernel, x: int, y: int, ky: int, kx: int, next: int)
    requires !(0 <= x + (kx - Radius(k)) < img.width) && next == kx + 1
    ensures Sum(next, TapsAcross(img, k, x, y, ky)) == Sum(kx, TapsAcross(img, k, x, y, ky))
  {
  }

  /** The inner loop over one kernel row (src/conv_naive.cpp:34-43): it adds
      the row's taps to `acc0`, skipping samples left or right of the image. */
  method AccumulateRow(img: Image, k: Kernel, x: int, y: int, ky: int, acc0: real) returns (acc: real)
    requires ValidImage(img) && ValidKernel(k) && 0 <= ky < k.size
    requires 0 <= y + (ky - Radius(k)) < img.height
    ensures acc == acc0 + KernelRowSum(img, k, x, y, ky)
  {
    var r := k.size / 2;
    assert r == Radius(k);
    var iy := y + (ky - r);
    acc := acc0;
    var kx := 0;
    while kx < k.size
      invariant 0 <= kx <= k.size
      invariant acc == acc0 + Sum(kx, TapsAcross(img, k, x, y, ky))
    {
      var ix := x + (kx - r);
      var next := kx + 1;
      if ix < 0 || ix >= img.width {
        RowStepOutside(img, k, x, y, ky, kx, next);
      } else {
        RowStepInside(img, k, x, y, ky, kx, ix, iy, next);
        var pixel := img.pixels[Idx(ix, iy, img.width)];
        var w := k.w[Idx(kx, ky, k.size)];
        acc := acc + pixel * w;
      }
      kx := next;
    }
  }

  /** The accumulation for one output pixel (src/conv_naive.cpp:27-45): kernel
      rows whose sample row is above or below the image are skipped. */
  method PixelSum(img: Image, k: Kernel, x: int, y: int) returns (acc: real)
    requires ValidImage(img) && ValidKernel(k) && 0 <= x < img.width && 0 <= y < img.height
    ensures acc == CorrelationAt(img, k, x, y)
  {
    var r := k.size / 2;
    acc := 0.0;
    var ky := 0;
    while ky < k.size
      invariant 0 <= ky <= k.size
      invariant acc == Sum(ky, RowSums(img, k, x, y))
    {
      var iy := y + (ky - r);
      if iy < 0 || iy >= img.height {
        RowOutside(img, k, x, y, ky);
      } else {
        acc := AccumulateRow(img, k, x, y, ky, acc);
      }
      ky := ky + 1;
    }
  }

  /** One pass of the loop over `x` (src/conv_naive.cpp:26-46): row `y` of
      the output gets its correlation values; earlier rows are kept. */
  method FillRow(img: Image, k: Kernel, out: array<real>, y: int)
    requires ValidImage(img) && ValidKernel(k) && out.Length == img.width * img.height
    requires 0 <= y < img.height
    requires forall i :: 0 <= i < Idx(0, y, img.width) ==> out[i] == Correlate(img, k).pixels[i]
    modifies out
    ensures forall i :: 0 <= i < Idx(0, y + 1, img.width) ==> out[i] == Correlate(img, k).pixels[i]
  {
    var width, height := img.width, img.height;
    ghost var expected := Correlate(img, k).pixels;
    RowSpan(y, width, height);
    var x := 0;
    while x < width
      invariant 0 <= x <= width
      invariant forall i :: 0 <= i < Idx(x, y, width) ==> out[i] == expected[i]
    {
      var acc := PixelSum(img, k, x, y);
      IdxBounds(x, y, width, height);
      assert expected[Idx(x, y, width)] == acc;
      out[y * width + x] := acc;
      x := x + 1;
    }
  }

  /** `convolve_naive` (src/conv_naive.cpp:4-51): the output buffer is
      filled in row-major order, one `PixelSum` per pixel. */
  method ConvolveNaive(img: Image, k: Kernel) returns (r: Result<Image, ConvError>)
    ensures r == NaiveResult(img, k)
  {
    if img.width <= 0 || img.height <= 0 {
      return Err(InvalidImageDimensions);
    }
    if |img.pixels| != img.width * img.height {
      return Err(PixelBufferMismatch);
    }
    if k.size <= 0 || k.size % 2 == 0 {
      return Err(KernelSizeNotPositiveOdd);
    }
    if |k.w| != k.size * k.size {
      return Err(KernelBufferMismatch);
    }
    var width, height := img.width, img.height;
    var out := new real[width * height](_ => 0.0);
    var y := 0;
    while y < height
      invariant 0 <= y <= height
      invariant forall i :: 0 <= i < Idx(0, y, width) ==> out[i] == Correlate(img, k).pixels[i]
    {
      FillRow(img, k, out, y);
      y := y + 1;
    }
    assert Idx(0, height, width) == out.Length;
    assert out[..] == Correlate(img, k).pixels;
    return Ok(Image(width, height, out[..]));
  }

  // ---------------------------------------------------------------------------
  // Properties

  /** A 1x1 kernel of weight 1 has radius 0 and leaves the image unchanged. */
  lemma IdentityKernel(img: Image)
    requires ValidImage(img)
    ensures NaiveResult(img, Kernel(1, [1.0])) == Ok(img)
  {
    var k := Kernel(1, [1.0]);
    var out := Correlate(img, k);
    forall x, y | 0 <= x < img.width && 0 <= y < img.height
      ensures Cell(out.pixels, img.width, img.height, x, y) == Cell(img.pixels, img.width, img.height, x, y)
    {
      assert KernelRowSum(img, k, x, y, 0) == Tap(img, k, x, y, 0, 0);
      assert CorrelationAt(img, k, x, y) == KernelRowSum(img, k, x, y, 0);
    }
    GridEq(out.pixels, img.pixels, img.width, img.height);
  }

  /** An all-zero kernel gives an all-zero output. */
  lemma ZeroKernel(img: Image, k: Kernel)
    requires ValidImage(img) && ValidKernel(k)
    requires forall i :: 0 <= i < |k.w| ==> k.w[i] == 0.0
    ensures forall i :: 0 <= i < |Correlate(img, k).pixels| ==> Correlate(img, k).pixels[i] == 0.0
  {
    var out := Correlate(img, k);
    IdxBoundsAll(k.size, k.size);
    forall x, y | 0 <= x < img.width && 0 <= y < img.height
      ensures Cell(out.pixels, img.width, img.height, x, y) == 0.0
    {
      forall ky | 0 <= ky < k.size ensures RowSums(img, k, x, y)(ky) == 0.0 {
        SumOfZeros(k.size, TapsAcross(img, k, x, y, ky));
      }
      SumOfZeros(k.size, RowSums(img, k, x, y));
    }
    forall i | 0 <= i < |out.pixels| ensures out.pixels[i] == 0.0 {
      Split(i, img.width, img.height);
      assert out.pixels[i] == Cell(out.pixels, img.width, img.height, i % img.width, i / img.width);
    }
  }

  /** `c` is the pixelwise combination `a * p + b * q` of two images of one size. */
  predicate Combination(c: Image, p: Image, q: Image, a: real, b: real)
  {
    ValidImage(p) && ValidImage(q) && c.width == p.width == q.width && c.height == p.height == q.height
    && |c.pixels| == |p.pixels|
    && forall i :: 0 <= i < |c.pixels| ==> c.pixels[i] == a * p.pixels[i] + b * q.pixels[i]
  }

  lemma TapLinear(c: Image, p: Image, q: Image, k: Kernel, a: real, b: real, x: int, y: int, kx: int, ky: int)
    requires Combination(c, p, q, a, b)
    ensures Tap(c, k, x, y, kx, ky) == Mix(a, Tap(p, k, x, y, kx, ky), b, Tap(q, k, x, y, kx, ky))
  {
    var r := Radius(k);
    var sx, sy := x + (kx - r), y + (ky - r);
    var wt := Weight(k, kx, ky);
    if 0 <= sx < p.width && 0 <= sy < p.height {
      IdxBounds(sx, sy, p.width, p.height);
      var pv, qv := Pixel(p, sx, sy), Pixel(q, sx, sy);
      assert Pixel(c, sx, sy) == a * pv + b * qv;
      assert (a * pv + b * qv) * wt == a * (pv * wt) + b * (qv * wt);
    }
  }

  lemma TapsLinear(c: Image, p: Image, q: Image, k: Kernel, a: real, b: real, x: int, y: int, ky: int)
    requires Combination(c, p, q, a, b)
    ensures CombinesOn(k.size, TapsAcross(p, k, x, y, ky), TapsAcross(q, k, x, y, ky), TapsAcross(c, k, x, y, ky), a, b)
  {
    forall kx | 0 <= kx < k.size
      ensures TapsAcross(c, k, x, y, ky)(kx) == Mix(a, TapsAcross(p, k, x, y, ky)(kx), b, TapsAcross(q, k, x, y, ky)(kx))
    {
      TapLinear(c, p, q, k, a, b, x, y, kx, ky);
    }
  }

  lemma RowLinear(c: Image, p: Image, q: Image, k: Kernel, a: real, b: real, x: int, y: int, ky: int)
    requires Combination(c, p, q, a, b)
    ensures KernelRowSum(c, k, x, y, ky) == Mix(a, KernelRowSum(p, k, x, y, ky), b, KernelRowSum(q, k, x, y, ky))
  {
    TapsLinear(c, p, q, k, a, b, x, y, ky);
    SumLinear(k.size, TapsAcross(p, k, x, y, ky), TapsAcross(q, k, x, y, ky), TapsAcross(c, k, x, y, ky), a, b);
  }

  lemma RowsLinear(c: Image, p: Image, q: Image, k: Kernel, a: real, b: real, x: int, y: int)
    requires Combination(c, p, q, a, b)
    ensures CombinesOn(k.size, RowSums(p, k, x, y), RowSums(q, k, x, y), RowSums(c, k, x, y), a, b)
  {
    forall ky | 0 <= ky < k.size
      ensures RowSums(c, k, x, y)(ky) == Mix(a, RowSums(p, k, x, y)(ky), b, RowSums(q, k, x, y)(ky))
    {
      RowLinear(c, p, q, k, a, b, x, y, ky);
    }
  }

  /** The output is linear in the image: correlating `a * p + b * q` gives
      `a` times the correlation of `p` plus `b` times that of `q`. */
  lemma Linearity(c: Image, p: Image, q: Image, k: Kernel, a: real, b: real, x: int, y: int)
    requires Combination(c, p, q, a, b)
    ensures CorrelationAt(c, k, x, y) == Mix(a, CorrelationAt(p, k, x, y), b, CorrelationAt(q, k, x, y))
  {
    RowsLinear(c, p, q, k, a, b, x, y);
    SumLinear(k.size, RowSums(p, k, x, y), RowSums(q, k, x, y), RowSums(c, k, x, y), a, b);
  }
}

=== FILE: fft.dfy ===
/** The radix-2 FFT of src/fft.h: the in-place bit-reversal permutation, the
    butterfly stages, the inverse scaling, and the 2D row/column driver.
    Complex values are exact (`ComplexNumbers`); the twiddle base of each
    stage is a parameter, so only the index structure and the data flow are
    modelled, not the numerical values of the transform. */
module Fft {
  import opened Wrappers
  import opened Bits
  import opened Grid
  import opened ComplexNumbers

  /** `tw(len, invert)` is the stage twiddle base `wlen` that src/fft.h:35-36
      computes with `cos`/`sin` from `len` and the direction. */
  type Twiddle = (int, bool) -> Complex

  datatype FftError =
    | SizeNotPowerOfTwo        // fft1d_inplace
    | InvalidDimensions        // fft2d_inplace: width or height <= 0
    | DimensionsNotPowerOfTwo  // fft2d_inplace
    | DataSizeMismatch         // fft2d_inplace: data.size() != width * height

  // ---------------------------------------------------------------------------
  // Bit-reversal permutation (src/fft.h:25-31)

  /** Element `t` of the result is element `Rev(t, m)` of `s`. */
  function BitReversed(s: seq<Complex>, m: nat): (r: seq<Complex>)
    requires |s| == Pow2(m)
    ensures |r| == |s|
  {
    seq(|s|, t requires 0 <= t < |s| => (RevBound(t, m); s[Rev(t, m)]))
  }

  /** Applying the permutation twice restores the original order. */
  lemma BitReversedTwice(s: seq<Complex>, m: nat)
    requires |s| == Pow2(m)
    ensures BitReversed(BitReversed(s, m), m) == s
  {
    forall t | 0 <= t < |s| ensures BitReversed(BitReversed(s, m), m)[t] == s[t] {
      RevInvolution(t, m);
    }
  }

  method Swap(a: array<Complex>, i: int, j: int)
    requires 0 <= i < a.Length && 0 <= j < a.Length
    modifies a
    ensures a[..] == old(a[..])[i := old(a[j])][j := old(a[i])]
    ensures multiset(a[..]) == multiset(old(a[..]))
  {
    a[i], a[j] := a[j], a[i];
  }

  /** Lines 27-29 of src/fft.h: with `j` the reversal of `i - 1`, clear the
      set bits of `j` from the top down, then set the first clear one; the
      result is the reversal of `i`. */
  method AdvanceReversed(j0: nat, n: int, ghost m: nat, ghost i: nat) returns (j: nat)
    requires m >= 1 && n == Pow2(m) && 1 <= i < n && j0 == Rev(i - 1, m)
    ensures j == Rev(i, m)
  {
    j := j0;
    var bit := n / 2;
    ghost var k: int := m - 1;
    while BitAnd(j, bit) != 0
      invariant -1 <= k && bit == (if k >= 0 then Pow2(k) else 0)
      invariant ReversedIncrement(j, k) == ReversedIncrement(j0, m - 1)
      decreases k + 1
    {
      BitAndPow2(j, k);
      BitXorPow2(j, k);
      j := BitXor(j, bit);
      bit := bit / 2;
      k := k - 1;
    }
    if k >= 0 {
      BitAndPow2(j, k);
      BitXorPow2(j, k);
      assert ReversedIncrement(j, k) == j + Pow2(k) == BitXor(j, bit);
    } else {
      assert ReversedIncrement(j, k) == j == BitXor(j, bit);
    }
    j := BitXor(j, bit);
    assert j == ReversedIncrement(j0, m - 1);
    ReversedIncrementStep(i - 1, m);
    assert i - 1 + 1 == i;
  }

  /** The buffer after the bit-reversal loop has handled `i = 1 .. k - 1`:
      entry `t` has moved from `Rev(t)` when `t` or its partner `Rev(t)` is
      below `k`, and is in place otherwise. */
  ghost function ReversedPrefix(s: seq<Complex>, m: nat, k: int): (r: seq<Complex>)
    requires |s| == Pow2(m)
    ensures |r| == |s|
  {
    seq(|s|, t requires 0 <= t < |s| => (RevBound(t, m); if t < k || Rev(t, m) < k then s[Rev(t, m)] else s[t]))
  }

  lemma ReversedPrefixEnds(s: seq<Complex>, m: nat)
    requires |s| == Pow2(m)
    ensures ReversedPrefix(s, m, 1) == s
    ensures ReversedPrefix(s, m, |s|) == BitReversed(s, m)
  {
    var p := ReversedPrefix(s, m, 1);
    forall t | 0 <= t < |s| ensures p[t] == s[t] {
      RevInvolution(t, m);
      if t == 0 {
        RevOfZero(m);
      } else if Rev(t, m) == 0 {
        RevOfZero(m);
        assert false;
      }
    }
  }

  /** Entry `t` after iteration `i`, where `j = Rev(i)`: the pair `i < j` is
      swapped, every other entry stays. */
  lemma ReversedPrefixStepAt(s: seq<Complex>, m: nat, i: int, j: int, t: int)
    requires |s| == Pow2(m) && 0 <= i < |s| && j == Rev(i, m) && 0 <= t < |s|
    ensures 0 <= j < |s|
    ensures ReversedPrefix(s, m, i + 1)[t]
         == (if i < j then ReversedPrefix(s, m, i)[i := ReversedPrefix(s, m, i)[j]][j := ReversedPrefix(s, m, i)[i]]
             else ReversedPrefix(s, m, i))[t]
  {
    RevInvolution(i, m);
    RevInvolution(t, m);
  }

  lemma ReversedPrefixStep(s: seq<Complex>, m: nat, i: int, j: int)
    requires |s| == Pow2(m) && 0 <= i < |s| && j == Rev(i, m)
    ensures 0 <= j < |s|
    ensures ReversedPrefix(s, m, i + 1)
         == if i < j then ReversedPrefix(s, m, i)[i := ReversedPrefix(s, m, i)[j]][j := ReversedPrefix(s, m, i)[i]]
            else ReversedPrefix(s, m, i)
  {
    RevBound(i, m);
    var p := ReversedPrefix(s, m, i + 1);
    var q := if i < j then ReversedPrefix(s, m, i)[i := ReversedPrefix(s, m, i)[j]][j := ReversedPrefix(s, m, i)[i]]
             else ReversedPrefix(s, m, i);
    forall t | 0 <= t < |s| ensures p[t] == q[t] {
      ReversedPrefixStepAt(s, m, i, j, t);
    }
  }

  /** Line 30 of src/fft.h: iteration `i` swaps with its partner `j = Rev(i)`
      when `i < j`, so each pair is swapped once. */
  method SwapIfBelow(a: array<Complex>, ghost s: seq<Complex>, ghost m: nat, i: int, j: int)
    requires a.Length == |s| == Pow2(m) && 0 <= i < |s| && j == Rev(i, m)
    requires a[..] == ReversedPrefix(s, m, i) && multiset(a[..]) == multiset(s)
    modifies a
    ensures a[..] == ReversedPrefix(s, m, i + 1) && multiset(a[..]) == multiset(s)
  {
    ReversedPrefixStep(s, m, i, j);
    if i < j {
      Swap(a, i, j);
    }
  }

  /** The bit-reversal loop (src/fft.h:25-31): each pair `i < Rev(i)` is
      swapped exactly once, when the loop reaches `i`. */
  method BitReversePermute(a: array<Complex>, ghost m: nat)
    requires a.Length == Pow2(m)
    modifies a
    ensures a[..] == BitReversed(old(a[..]), m)
    ensures multiset(a[..]) == multiset(old(a[..]))
  {
    var n := a.Length;
    ghost var s := a[..];
    ReversedPrefixEnds(s, m);
    var i := 1;
    var j: nat := 0;
    RevOfZero(m);
    while i < n
      invariant 1 <= i <= n
      invariant j == Rev(i - 1, m)
      invariant a[..] == ReversedPrefix(s, m, i)
      invariant multiset(a[..]) == multiset(s)
    {
      j := AdvanceReversed(j, n, m, i);
      SwapIfBelow(a, s, m, i, j);
      i := i + 1;
    }
  }

  // ---------------------------------------------------------------------------
  // Butterfly stages (src/fft.h:34-50)

  /** Row `y` of a row-major `w * h` buffer. */
  function Row(s: seq<Complex>, w: int, h: int, y: int): (r: seq<Complex>)
    requires w > 0 && h >= 0 && |s| == w * h && 0 <= y < h
    ensures |r| == w
    ensures forall x :: 0 <= x < w ==> r[x] == Cell(s, w, h, x, y)
  {
    seq(w, x requires 0 <= x < w => Cell(s, w, h, x, y))
  }

  /** The butterflies of one block of even length with twiddle base `w`:
      offset `k < half` and its partner `k + half` become `u + v` and
      `u - v`, where `u` is the value at `k` and `v` the value at the partner
      multiplied by `w^k`. */
  function BlockButterfly(blk: seq<Complex>, w: Complex): (r: seq<Complex>)
    requires |blk| % 2 == 0
    ensures |r| == |blk|
  {
    seq(|blk|, k requires 0 <= k < |blk| => ButterflyOutput(blk, w, k))
  }

  /** Output `k` of the block's butterflies. */
  function ButterflyOutput(blk: seq<Complex>, w: Complex, k: int): Complex
    requires |blk| % 2 == 0 && 0 <= k < |blk|
  {
    var half := |blk| / 2;
    if k < half then Add(blk[k], Mul(blk[k + half], Power(w, k)))
    else Sub(blk[k - half], Mul(blk[k], Power(w, k - half)))
  }

  /** Offsets `k` and `k + half` form a pair: both outputs are computed from
      the two inputs at those offsets and from nothing else. */
  lemma ButterflyPair(blk: seq<Complex>, w: Complex, k: int)
    requires |blk| % 2 == 0 && 0 <= k < |blk| / 2
    ensures BlockButterfly(blk, w)[k] == Add(blk[k], Mul(blk[k + |blk| / 2], Power(w, k)))
    ensures BlockButterfly(blk, w)[k + |blk| / 2] == Sub(blk[k], Mul(blk[k + |blk| / 2], Power(w, k)))
  {
  }

  /** `s` with the block `s[i..i + len]` replaced by its butterflies. */
  function ButterflyAt(s: seq<Complex>, i: int, len: int, w: Complex): (r: seq<Complex>)
    requires len % 2 == 0 && 0 <= i && i + len <= |s|
    ensures |r| == |s|
  {
    seq(|s|, t requires 0 <= t < |s| =>
      if i <= t < i + len then ButterflyOutput(s[i..i + len], w, t - i) else s[t])
  }

  /** The block `s[i..i + 2 * half]` after `j` steps of the innermost loop:
      the first `j` pairs hold their outputs, everything else is as in `s`. */
  ghost function PartialBlock(s: seq<Complex>, i: int, half: int, j: int, out: seq<Complex>): (r: seq<Complex>)
    requires 0 <= i && 0 <= j <= half && i + 2 * half <= |s| && |out| == 2 * half
    ensures |r| == |s|
  {
    seq(|s|, t requires 0 <= t < |s| =>
      if i <= t < i + j || i + half <= t < i + half + j then out[t - i] else s[t])
  }

  /** Step `j` of the innermost loop finds the pair at `i + j` and
      `i + j + half` still holding its inputs, so writing `u + v` and `u - v`
      there, with `u`, `v` as the loop computes them, gives the block after
      `j + 1` steps. */
  lemma PartialBlockStep(s: seq<Complex>, i: int, half: int, j: int, w: Complex, cur: seq<Complex>)
    requires 0 <= i && 0 <= j < half && i + 2 * half <= |s|
    requires cur == PartialBlock(s, i, half, j, BlockButterfly(s[i..i + 2 * half], w))
    ensures PartialBlock(s, i, half, j + 1, BlockButterfly(s[i..i + 2 * half], w))
         == PairStep(cur, i + j, i + j + half, Power(w, j))
  {
    var out := BlockButterfly(s[i..i + 2 * half], w);
    BlockPairFirst(s, i, half, j, w);
    BlockPairSecond(s, i, half, j, w);
    PartialBlockUpdate(s, i, half, j, out);
  }

  lemma PartialBlockUpdate(s: seq<Complex>, i: int, half: int, j: int, out: seq<Complex>)
    requires 0 <= i && 0 <= j < half && i + 2 * half <= |s| && |out| == 2 * half
    ensures PartialBlock(s, i, half, j, out)[i + j] == s[i + j]
    ensures PartialBlock(s, i, half, j, out)[i + j + half] == s[i + j + half]
    ensures PartialBlock(s, i, half, j + 1, out)
         == PartialBlock(s, i, half, j, out)[i + j := out[j]][i + j + half := out[j + half]]
  {
  }

  /** The first output of pair `j` of the block at `i`, in terms of the inputs. */
  lemma BlockPairFirst(s: seq<Complex>, i: int, half: int, j: int, w: Complex)
    requires 0 <= i && 0 <= j < half && i + 2 * half <= |s|
    ensures BlockButterfly(s[i..i + 2 * half], w)[j] == Add(s[i + j], Mul(s[i + j + half], Power(w, j)))
  {
    var blk := s[i..i + 2 * half];
    assert |blk| / 2 == half;
    ButterflyPair(blk, w, j);
    assert blk[j] == s[i + j] && blk[j + half] == s[i + j + half];
  }

  /** The second output of pair `j` of the block at `i`, in terms of the inputs. */
  lemma BlockPairSecond(s: seq<Complex>, i: int, half: int, j: int, w: Complex)
    requires 0 <= i && 0 <= j < half && i + 2 * half <= |s|
    ensures BlockButterfly(s[i..i + 2 * half], w)[j + half] == Sub(s[i + j], Mul(s[i + j + half], Power(w, j)))
  {
    var blk := s[i..i + 2 * half];
    assert |blk| / 2 == half;
    ButterflyPair(blk, w, j);
    assert blk[j] == s[i + j] && blk[j + half] == s[i + j + half];
  }

  lemma PartialBlockNone(s: seq<Complex>, i: int, half: int, out: seq<Complex>)
    requires 0 <= i && 0 <= half && i + 2 * half <= |s| && |out| == 2 * half
    ensures PartialBlock(s, i, half, 0, out) == s
  {
  }

  lemma PartialBlockAll(s: seq<Complex>, i: int, half: int, w: Complex)
    requires 0 <= i && 0 <= half && i + 2 * half <= |s|
    ensures PartialBlock(s, i, half, half, BlockButterfly(s[i..i + 2 * half], w)) == ButterflyAt(s, i, 2 * half, w)
  {
  }

  /** The data and the running twiddle `w` after the first `j` steps of the
      innermost loop on the block of length `2 * half` at `i`: step `k`
      replaces the pair at `i + k`, `i + k + half` by `u + v`, `u - v`, with
      `u` the value at `i + k` and `v` the value at `i + k + half` times `w`,
      and then multiplies `w` by `wlen`. */
  ghost function BlockSteps(s: seq<Complex>, i: int, half: int, j: int, wlen: Complex): (r: (seq<Complex>, Complex))
    requires 0 <= i && 0 <= j <= half && i + 2 * half <= |s|
    ensures |r.0| == |s|
    decreases j
  {
    if j == 0 then (s, One)
    else
      var (p, w) := BlockSteps(s, i, half, j - 1, wlen);
      (PairStep(p, i + j - 1, i + j - 1 + half, w), Mul(w, wlen))
  }

  lemma BlockStepsNext(s: seq<Complex>, i: int, half: int, j: int, wlen: Complex)
    requires 0 <= i && 0 <= j < half && i + 2 * half <= |s|
    ensures var prev := BlockSteps(s, i, half, j, wlen);
      BlockSteps(s, i, half, j + 1, wlen) == (PairStep(prev.0, i + j, i + j + half, prev.1), Mul(prev.1, wlen))
  {
  }

  /** After `j` steps the running twiddle is `wlen^j`, the first `j` pairs
      hold their butterfly outputs and everything else is untouched. */
  lemma {:induction false} BlockStepsPartial(s: seq<Complex>, i: int, half: int, j: int, w: Complex)
    requires 0 <= i && 0 <= j <= half && i + 2 * half <= |s|
    ensures BlockSteps(s, i, half, j, w).1 == Power(w, j)
    ensures BlockSteps(s, i, half, j, w).0 == PartialBlock(s, i, half, j, BlockButterfly(s[i..i + 2 * half], w))
    decreases j
  {
    if j == 0 {
      PartialBlockNone(s, i, half, BlockButterfly(s[i..i + 2 * half], w));
    } else {
      BlockStepsPartial(s, i, half, j - 1, w);
      PartialBlockStep(s, i, half, j - 1, w, BlockSteps(s, i, half, j - 1, w).0);
    }
  }

  /** All `half` steps together apply the block's butterflies. */
  lemma BlockStepsDone(s: seq<Complex>, i: int, len: int, half: int, w: Complex)
    requires 0 <= i && 0 <= half && len == 2 * half && i + len <= |s|
    ensures BlockSteps(s, i, half, half, w).0 == ButterflyAt(s, i, len, w)
  {
    BlockStepsPartial(s, i, half, half, w);
    PartialBlockAll(s, i, half, w);
  }

  /** One butterfly: the pair at `p`, `q` becomes `u + v`, `u - v` with
      `u = s[p]` and `v = s[q] * w`. */
  function PairStep(s: seq<Complex>, p: int, q: int, w: Complex): (r: seq<Complex>)
    requires 0 <= p < q < |s|
    ensures |r| == |s|
  {
    var u, v := s[p], Mul(s[q], w);
    s[p := Add(u, v)][q := Sub(u, v)]
  }

  /** Lines 43-46 of src/fft.h: one butterfly on the array. */
  method Butterfly(a: array<Complex>, p: int, q: int, w: Complex)
    requires 0 <= p < q < a.Length
    modifies a
    ensures a[..] == PairStep(old(a[..]), p, q, w)
  {
    var u := a[p];
    var v := Mul(a[q], w);
    a[p] := Add(u, v);
    a[q] := Sub(u, v);
  }

  /** The innermost loop (src/fft.h:41-47) on the block `a[i..i+len]`: the
      running `w` is `wlen^j`, and step `j` writes exactly the pair
      `i + j`, `i + j + half`. */
  method ButterflyBlock(a: array<Complex>, i: int, len: int, wlen: Complex)
    requires len >= 2 && len % 2 == 0 && 0 <= i && i + len <= a.Length
    modifies a
    ensures a[..] == ButterflyAt(old(a[..]), i, len, wlen)
  {
    var w := One;
    var half := len / 2;
    assert len == 2 * half;
    ghost var s := a[..];
    var j := 0;
    while j < half
      invariant 0 <= j <= half
      invariant a[..] == BlockSteps(s, i, half, j, wlen).0
      invariant w == BlockSteps(s, i, half, j, wlen).1
    {
      w := BlockStep(a, s, i, half, j, wlen, w);
      j := j + 1;
    }
    BlockStepsDone(s, i, len, half, wlen);
  }

  /** Step `j` of the innermost loop (src/fft.h:43-47): one butterfly with
      the running twiddle, which is then multiplied by `wlen`. */
  method BlockStep(a: array<Complex>, ghost s: seq<Complex>, i: int, half: int, j: int, wlen: Complex, w: Complex)
      returns (w': Complex)
    requires 0 <= i && 0 <= j < half && i + 2 * half <= |s| == a.Length
    requires a[..] == BlockSteps(s, i, half, j, wlen).0 && w == BlockSteps(s, i, half, j, wlen).1
    modifies a
    ensures a[..] == BlockSteps(s, i, half, j + 1, wlen).0 && w' == BlockSteps(s, i, half, j + 1, wlen).1
  {
    BlockStepsNext(s, i, half, j, wlen);
    Butterfly(a, i + j, i + j + half, w);
    w' := Mul(w, wlen);
  }

  /** One stage with blocks of length `len`: each of the `blocks` rows of
      length `len` of `s` replaced by its butterflies. */
  function Stage(s: seq<Complex>, len: int, blocks: int, w: Complex): (r: seq<Complex>)
    requires len >= 2 && len % 2 == 0 && blocks >= 0 && |s| == len * blocks
    ensures |r| == |s|
  {
    seq(|s|, t requires 0 <= t < |s| =>
      (Split(t, len, blocks); ButterflyOutput(Row(s, len, blocks, t / len), w, t % len)))
  }

  /** The buffer once the middle loop has processed the first `b` blocks. */
  ghost function StagePrefix(s: seq<Complex>, len: int, blocks: int, b: int, w: Complex): (r: seq<Complex>)
    requires len >= 2 && len % 2 == 0 && blocks >= 0 && |s| == len * blocks
    ensures |r| == |s|
  {
    var st := Stage(s, len, blocks, w);
    seq(|s|, t requires 0 <= t < |s| => if t / len < b then st[t] else s[t])
  }

  lemma StagePrefixEnds(s: seq<Complex>, len: int, blocks: int, w: Complex)
    requires len >= 2 && len % 2 == 0 && blocks >= 0 && |s| == len * blocks
    ensures StagePrefix(s, len, blocks, 0, w) == s
    ensures StagePrefix(s, len, blocks, blocks, w) == Stage(s, len, blocks, w)
  {
    var p, q := StagePrefix(s, len, blocks, 0, w), StagePrefix(s, len, blocks, blocks, w);
    forall t | 0 <= t < |s| ensures p[t] == s[t] && q[t] == Stage(s, len, blocks, w)[t] {
      Split(t, len, blocks);
    }
  }

  /** Block `b` still holds its inputs when the middle loop reaches it. */
  lemma StagePrefixBlock(s: seq<Complex>, len: int, blocks: int, b: int, w: Complex)
    requires len >= 2 && len % 2 == 0 && 0 <= b < blocks && |s| == len * blocks
    ensures 0 <= Idx(0, b, len) && Idx(0, b, len) + len <= |s|
    ensures StagePrefix(s, len, blocks, b, w)[Idx(0, b, len)..Idx(0, b, len) + len] == Row(s, len, blocks, b)
  {
    RowSpan(b, len, blocks);
    var i := Idx(0, b, len);
    var prev := StagePrefix(s, len, blocks, b, w);
    forall x | 0 <= x < len ensures prev[i..i + len][x] == Row(s, len, blocks, b)[x] {
      IdxDivMod(x, b, len);
    }
  }

  /** Element `t` after the butterflies of block `b`. */
  lemma StagePrefixStepAt(s: seq<Complex>, len: int, blocks: int, b: int, w: Complex, t: int)
    requires len >= 2 && len % 2 == 0 && 0 <= b < blocks && |s| == len * blocks && 0 <= t < |s|
    requires 0 <= Idx(0, b, len) && Idx(0, b, len) + len <= |s|
    requires StagePrefix(s, len, blocks, b, w)[Idx(0, b, len)..Idx(0, b, len) + len] == Row(s, len, blocks, b)
    ensures ButterflyAt(StagePrefix(s, len, blocks, b, w), Idx(0, b, len), len, w)[t]
         == StagePrefix(s, len, blocks, b + 1, w)[t]
  {
    var i := Idx(0, b, len);
    Split(t, len, blocks);
    if i <= t < i + len {
      DivModUnique(t, len, b, t - i);
    }
  }

  /** The butterflies of block `b` turn the prefix of `b` blocks into the
      prefix of `b + 1`. */
  lemma StagePrefixStep(s: seq<Complex>, len: int, blocks: int, b: int, w: Complex)
    requires len >= 2 && len % 2 == 0 && 0 <= b < blocks && |s| == len * blocks
    ensures 0 <= Idx(0, b, len) && Idx(0, b, len) + len <= |s|
    ensures ButterflyAt(StagePrefix(s, len, blocks, b, w), Idx(0, b, len), len, w)
         == StagePrefix(s, len, blocks, b + 1, w)
  {
    StagePrefixBlock(s, len, blocks, b, w);
    var p, q := ButterflyAt(StagePrefix(s, len, blocks, b, w), Idx(0, b, len), len, w), StagePrefix(s, len, blocks, b + 1, w);
    forall t | 0 <= t < |s| ensures p[t] == q[t] {
      StagePrefixStepAt(s, len, blocks, b, w, t);
    }
  }

  /** The middle loop (src/fft.h:38-48): the blocks are processed left to
      right, and after `b` of them the buffer is `StagePrefix(.., b, ..)`. */
  method ButterflyStage(a: array<Complex>, len: int, ghost blocks: nat, wlen: Complex)
    requires len >= 2 && len % 2 == 0 && a.Length == len * blocks
    modifies a
    ensures a[..] == Stage(old(a[..]), len, blocks, wlen)
  {
    ghost var s := a[..];
    StagePrefixEnds(s, len, blocks, wlen);
    var i := 0;
    ghost var b: nat := 0;
    while i < a.Length
      invariant b <= blocks && i == Idx(0, b, len)
      invariant a[..] == StagePrefix(s, len, blocks, b, wlen)
      decreases blocks - b
    {
      BlockCount(b, blocks, len);
      StagePrefixStep(s, len, blocks, b, wlen);
      ButterflyBlock(a, i, len, wlen);
      RowSpan(b, len, blocks);
      i := i + len;
      b := b + 1;
    }
    BlockCount(b, blocks, len);
    assert b == blocks;
  }

  // ---------------------------------------------------------------------------
  // The whole 1D transform (src/fft.h:18-56)

  /** The data after the first `k` stages, of lengths 2, 4, ..., `2^k`, of a
      transform of `n = 2^m` points; stage `len` uses the twiddle base
      `tw(len, invert)`. */
  function Stages(s: seq<Complex>, m: nat, k: nat, invert: bool, tw: Twiddle): (r: seq<Complex>)
    requires k <= m && |s| == Pow2(m)
    ensures |r| == |s|
  {
    if k == 0 then s
    else
      StageShape(m, k);
      Stage(Stages(s, m, k - 1, invert, tw), Pow2(k), Pow2(m - k), tw(Pow2(k), invert))
  }

  /** Stage `k` of a `2^m`-point transform has `2^(m-k)` blocks of even length `2^k`. */
  lemma StageShape(m: nat, k: nat)
    requires 1 <= k <= m
    ensures Pow2(k) >= 2 && Pow2(k) % 2 == 0 && Pow2(m) == Pow2(k) * Pow2(m - k)
  {
    Pow2Add(k, m - k);
    assert k + (m - k) == m;
  }

  /** Every element divided by `n` (src/fft.h:53-55). */
  function Normalized(s: seq<Complex>, n: int): (r: seq<Complex>)
    requires n != 0
    ensures |r| == |s|
    ensures forall t :: 0 <= t < |s| ==> r[t] == DivReal(s[t], n as real)
  {
    seq(|s|, t requires 0 <= t < |s| => DivReal(s[t], n as real))
  }

  /** The transform of a non-empty power-of-two-length buffer: the
      bit-reversal permutation, then all `log2 n` stages, then, for the
      inverse, the division by `n`. */
  function Transform(s: seq<Complex>, invert: bool, tw: Twiddle): (r: seq<Complex>)
    requires IsPowerOfTwo(|s|)
    ensures |r| == |s|
  {
    var m := Log2(|s|);
    PowerOfTwoIsPow2(|s|);
    var t := Stages(BitReversed(s, m), m, m, invert, tw);
    if invert then Normalized(t, |s|) else t
  }

  /** `fft1d_inplace` as a function of the old contents: an empty buffer is
      left alone, a length that is not a power of two is an error. */
  function Fft1d(s: seq<Complex>, invert: bool, tw: Twiddle): (r: Result<seq<Complex>, FftError>)
    ensures r.Err? <==> |s| > 0 && !IsPowerOfTwo(|s|)
    ensures r.Err? ==> r.error == SizeNotPowerOfTwo
    ensures |s| == 0 ==> r == Ok(s)
    ensures r.Ok? ==> |r.value| == |s|
  {
    if |s| == 0 then Ok(s)
    else if !IsPowerOfTwo(|s|) then Err(SizeNotPowerOfTwo)
    else Ok(Transform(s, invert, tw))
  }

  /** The normalisation loop of the inverse transform (src/fft.h:53-55). */
  method NormalizeInPlace(a: array<Complex>, n: int)
    requires n != 0
    modifies a
    ensures a[..] == Normalized(old(a[..]), n)
  {
    ghost var s := a[..];
    var i := 0;
    while i < a.Length
      invariant 0 <= i <= a.Length
      invariant forall t :: 0 <= t < i ==> a[t] == DivReal(s[t], n as real)
      invariant forall t :: i <= t < a.Length ==> a[t] == s[t]
    {
      a[i] := DivReal(a[i], n as real);
      i := i + 1;
    }
  }

  /** The stage loop (src/fft.h:34-51): `len` doubles from 2 up to `n`, and
      each stage runs with the twiddle base `tw(len, invert)`. The length
      bound keeps the doubling of `len` inside a 32-bit `int`. */
  method AllStages(a: array<Complex>, ghost m: nat, invert: bool, tw: Twiddle)
    requires a.Length == Pow2(m) && a.Length < MaxPow2Arg
    modifies a
    ensures a[..] == Stages(old(a[..]), m, m, invert, tw)
  {
    ghost var s := a[..];
    var n := a.Length;
    var len := 2;
    ghost var k: nat := 1;
    while len <= n
      invariant 1 <= k <= m + 1 && len == Pow2(k)
      invariant a[..] == Stages(s, m, k - 1, invert, tw)
      decreases n - len
    {
      Pow2Le(k, m);
      StageShape(m, k);
      ButterflyStage(a, len, Pow2(m - k), tw(len, invert));
      len := len * 2;
      k := k + 1;
    }
    Pow2Le(k, m);
  }

  /** `fft1d_inplace` (src/fft.h:18-56). */
  method Fft1dInPlace(a: array<Complex>, invert: bool, tw: Twiddle) returns (r: Result<(), FftError>)
    requires a.Length < MaxPow2Arg
    modifies a
    ensures r.Err? <==> Fft1d(old(a[..]), invert, tw).Err?
    ensures r.Err? ==> r.error == SizeNotPowerOfTwo && a[..] == old(a[..])
    ensures r.Ok? ==> Fft1d(old(a[..]), invert, tw) == Ok(a[..])
  {
    var n := a.Length;
    if n == 0 {
      return Ok(());
    }
    if !IsPowerOfTwo(n) {
      return Err(SizeNotPowerOfTwo);
    }
    ghost var m := Log2(n);
    PowerOfTwoIsPow2(n);
    BitReversePermute(a, m);
    AllStages(a, m, invert, tw);
    if invert {
      NormalizeInPlace(a, n);
    }
    return Ok(());
  }

  /** A one-point transform, forward or inverse, is the identity. */
  lemma TransformOnePoint(x: Complex, invert: bool, tw: Twiddle)
    ensures IsPowerOfTwo(1)
    ensures Transform([x], invert, tw) == [x]
  {
    assert BitAnd(1, 0) == 0;
    RevOfZero(0);
    assert BitReversed([x], 0) == [x];
  }

  /** The single stage of a two-point transform. */
  lemma TwoPointStages(x: Complex, y: Complex, invert: bool, tw: Twiddle)
    ensures Pow2(1) == 2
    ensures Stages([x, y], 1, 1, invert, tw) == [Add(x, y), Sub(x, y)]
  {
    var w := tw(2, invert);
    assert Mul(y, Power(w, 0)) == y;
    assert Row([x, y], 2, 1, 0) == [x, y];
    Split(0, 2, 1);
    Split(1, 2, 1);
    assert Stage([x, y], 2, 1, w) == [Add(x, y), Sub(x, y)];
  }

  /** For two points the only twiddle factor used is `w^0 = 1`, so whatever
      `tw` returns, the forward transform of `[x, y]` is `[x + y, x - y]`
      and the inverse one is half of that. */
  lemma TransformTwoPoints(x: Complex, y: Complex, tw: Twiddle)
    ensures IsPowerOfTwo(2)
    ensures Transform([x, y], false, tw) == [Add(x, y), Sub(x, y)]
    ensures Transform([x, y], true, tw) == [DivReal(Add(x, y), 2.0), DivReal(Sub(x, y), 2.0)]
  {
    assert BitAnd(2, 1) == 0;
    assert Log2(2) == 1;
    assert Rev(0, 1) == 0 && Rev(1, 1) == 1;
    assert BitReversed([x, y], 1) == [x, y];
    TwoPointStages(x, y, false, tw);
    TwoPointStages(x, y, true, tw);
  }

  /** The inverse two-point transform undoes the forward one, for every `tw`. */
  lemma TwoPointRoundTrip(x: Complex, y: Complex, tw: Twiddle)
    ensures IsPowerOfTwo(2)
    ensures Transform(Transform([x, y], false, tw), true, tw) == [x, y]
  {
    TransformTwoPoints(x, y, tw);
    TransformTwoPoints(Add(x, y), Sub(x, y), tw);
    assert DivReal(Add(Add(x, y), Sub(x, y)), 2.0) == x;
    assert DivReal(Sub(Add(x, y), Sub(x, y)), 2.0) == y;
  }

  // ---------------------------------------------------------------------------
  // The 2D transform (src/fft.h:58-95)

  /** Column `x` of a row-major `w * h` buffer. */
  function Col(s: seq<Complex>, w: int, h: int, x: int): (r: seq<Complex>)
    requires 0 <= x < w && h >= 0 && |s| == w * h
    ensures |r| == h
    ensures forall y :: 0 <= y < h ==> r[y] == Cell(s, w, h, x, y)
  {
    seq(h, y requires 0 <= y < h => Cell(s, w, h, x, y))
  }

  /** Every row replaced by its 1D transform. */
  function RowPass(s: seq<Complex>, w: int, h: int, invert: bool, tw: Twiddle): (r: seq<Complex>)
    requires IsPowerOfTwo(w) && h >= 0 && |s| == w * h
    ensures |r| == |s|
  {
    seq(w * h, i requires 0 <= i < w * h =>
      (Split(i, w, h); Transform(Row(s, w, h, i / w), invert, tw)[i % w]))
  }

  /** Every column replaced by its 1D transform. */
  function ColPass(s: seq<Complex>, w: int, h: int, invert: bool, tw: Twiddle): (r: seq<Complex>)
    requires w > 0 && IsPowerOfTwo(h) && |s| == w * h
    ensures |r| == |s|
  {
    seq(w * h, i requires 0 <= i < w * h =>
      (Split(i, w, h); Transform(Col(s, w, h, i % w), invert, tw)[i / w]))
  }

  /** The row pass and then the column pass. */
  function Transform2(s: seq<Complex>, w: int, h: int, invert: bool, tw: Twiddle): (r: seq<Complex>)
    requires IsPowerOfTwo(w) && IsPowerOfTwo(h) && |s| == w * h
    ensures |r| == |s|
  {
    ColPass(RowPass(s, w, h, invert, tw), w, h, invert, tw)
  }

  /** Row `y` after the row pass is the transform of row `y` before it. */
  lemma RowPassRow(s: seq<Complex>, w: int, h: int, invert: bool, tw: Twiddle, y: int)
    requires IsPowerOfTwo(w) && 0 <= y < h && |s| == w * h
    ensures Row(RowPass(s, w, h, invert, tw), w, h, y) == Transform(Row(s, w, h, y), invert, tw)
  {
    var r := RowPass(s, w, h, invert, tw);
    forall x | 0 <= x < w ensures Row(r, w, h, y)[x] == Transform(Row(s, w, h, y), invert, tw)[x] {
      IdxBounds(x, y, w, h);
      IdxDivMod(x, y, w);
    }
  }

  /** Column `x` after the column pass is the transform of column `x` before it. */
  lemma ColPassCol(s: seq<Complex>, w: int, h: int, invert: bool, tw: Twiddle, x: int)
    requires IsPowerOfTwo(h) && 0 <= x < w && |s| == w * h
    ensures Col(ColPass(s, w, h, invert, tw), w, h, x) == Transform(Col(s, w, h, x), invert, tw)
  {
    var r := ColPass(s, w, h, invert, tw);
    forall y | 0 <= y < h ensures Col(r, w, h, x)[y] == Transform(Col(s, w, h, x), invert, tw)[y] {
      IdxBounds(x, y, w, h);
      IdxDivMod(x, y, w);
    }
  }

  /** `fft2d_inplace` as a function of the old contents: the three checks
      run in the order of src/fft.h:59-67. */
  function Fft2d(s: seq<Complex>, width: int, height: int, invert: bool, tw: Twiddle): (r: Result<seq<Complex>, FftError>)
    ensures r.Ok? <==> width > 0 && height > 0 && IsPowerOfTwo(width) && IsPowerOfTwo(height) && |s| == width * height
    ensures (width <= 0 || height <= 0) ==> r == Err(InvalidDimensions)
    ensures width > 0 && height > 0 && !(IsPowerOfTwo(width) && IsPowerOfTwo(height)) ==> r == Err(DimensionsNotPowerOfTwo)
    ensures width > 0 && height > 0 && IsPowerOfTwo(width) && IsPowerOfTwo(height) && |s| != width * height
            ==> r == Err(DataSizeMismatch)
    ensures r.Ok? ==> |r.value| == |s|
  {
    if width <= 0 || height <= 0 then Err(InvalidDimensions)
    else if !IsPowerOfTwo(width) || !IsPowerOfTwo(height) then Err(DimensionsNotPowerOfTwo)
    else if |s| != width * height then Err(DataSizeMismatch)
    else Ok(Transform2(s, width, height, invert, tw))
  }

  /** Copies row `y` of `data` into `row` (src/fft.h:73-75). */
  method GatherRow(data: array<Complex>, w: int, h: int, y: int, row: array<Complex>)
    requires data != row && w > 0 && data.Length == w * h && row.Length == w && 0 <= y < h
    modifies row
    ensures row[..] == Row(data[..], w, h, y)
  {
    RowSpan(y, w, h);
    var x := 0;
    while x < w
      invariant 0 <= x <= w
      invariant forall t :: 0 <= t < x ==> row[t] == data[Idx(t, y, w)]
    {
      row[x] := data[y * w + x];
      x := x + 1;
    }
  }

  /** `s` with the entries of row `y` in columns below `n` taken from `r`. */
  function WithRow(s: seq<Complex>, w: int, h: int, y: int, r: seq<Complex>, n: int): (t: seq<Complex>)
    requires w > 0 && |s| == w * h && |r| == w && 0 <= y < h
    ensures |t| == |s|
  {
    seq(|s|, i requires 0 <= i < |s| => (Split(i, w, h); if i / w == y && i % w < n then r[i % w] else s[i]))
  }

  lemma WithRowStep(s: seq<Complex>, w: int, h: int, y: int, r: seq<Complex>, x: int)
    requires 0 <= x < w && 0 <= y < h && |s| == w * h && |r| == w
    ensures 0 <= Idx(x, y, w) < |s|
    ensures WithRow(s, w, h, y, r, x + 1) == WithRow(s, w, h, y, r, x)[Idx(x, y, w) := r[x]]
  {
    IdxBounds(x, y, w, h);
    IdxDivMod(x, y, w);
    var p, q := WithRow(s, w, h, y, r, x + 1), WithRow(s, w, h, y, r, x)[Idx(x, y, w) := r[x]];
    forall i | 0 <= i < |s| ensures p[i] == q[i] {
      Split(i, w, h);
      if i % w == x && i / w == y {
        IdxDivMod(i % w, i / w, w);
      }
    }
  }

  lemma WithRowNone(s: seq<Complex>, w: int, h: int, y: int, r: seq<Complex>)
    requires w > 0 && 0 <= y < h && |s| == w * h && |r| == w
    ensures WithRow(s, w, h, y, r, 0) == s
  {
    var p := WithRow(s, w, h, y, r, 0);
    forall i | 0 <= i < |s| ensures p[i] == s[i] {
      Split(i, w, h);
    }
  }

  /** Writes `row` back as row `y` of `data` (src/fft.h:77-79). */
  method ScatterRow(data: array<Complex>, w: int, h: int, y: int, row: array<Complex>)
    requires data != row && w > 0 && data.Length == w * h && row.Length == w && 0 <= y < h
    modifies data
    ensures data[..] == WithRow(old(data[..]), w, h, y, row[..], w)
  {
    ghost var s := data[..];
    WithRowNone(s, w, h, y, row[..]);
    var x := 0;
    while x < w
      invariant 0 <= x <= w
      invariant data[..] == WithRow(s, w, h, y, row[..], x)
    {
      WithRowStep(s, w, h, y, row[..], x);
      data[y * w + x] := row[x];
      x := x + 1;
    }
  }

  /** Copies column `x` of `data` into `col` (src/fft.h:84-86). */
  method GatherCol(data: array<Complex>, w: int, h: int, x: int, col: array<Complex>)
    requires data != col && data.Length == w * h && col.Length == h && 0 <= x < w
    modifies col
    ensures col[..] == Col(data[..], w, h, x)
  {
    ghost var c := Col(data[..], w, h, x);
    var y := 0;
    while y < h
      invariant 0 <= y <= h
      invariant forall t :: 0 <= t < y ==> col[t] == c[t]
    {
      IdxBounds(x, y, w, h);
      assert data[y * w + x] == c[y];
      col[y] := data[y * w + x];
      y := y + 1;
    }
  }

  /** `s` with the entries of column `x` in rows below `n` taken from `c`. */
  function WithCol(s: seq<Complex>, w: int, h: int, x: int, c: seq<Complex>, n: int): (r: seq<Complex>)
    requires 0 <= x < w && |s| == w * h && |c| == h
    ensures |r| == |s|
  {
    seq(|s|, i requires 0 <= i < |s| => (Split(i, w, h); if i % w == x && i / w < n then c[i / w] else s[i]))
  }

  lemma WithColStep(s: seq<Complex>, w: int, h: int, x: int, c: seq<Complex>, y: int)
    requires 0 <= x < w && 0 <= y < h && |s| == w * h && |c| == h
    ensures 0 <= Idx(x, y, w) < |s|
    ensures WithCol(s, w, h, x, c, y + 1) == WithCol(s, w, h, x, c, y)[Idx(x, y, w) := c[y]]
  {
    IdxBounds(x, y, w, h);
    IdxDivMod(x, y, w);
    var p, q := WithCol(s, w, h, x, c, y + 1), WithCol(s, w, h, x, c, y)[Idx(x, y, w) := c[y]];
    forall i | 0 <= i < |s| ensures p[i] == q[i] {
      Split(i, w, h);
      if i % w == x && i / w == y {
        IdxDivMod(i % w, i / w, w);
      }
    }
  }

  lemma WithColNone(s: seq<Complex>, w: int, h: int, x: int, c: seq<Complex>)
    requires 0 <= x < w && |s| == w * h && |c| == h
    ensures WithCol(s, w, h, x, c, 0) == s
  {
    var p := WithCol(s, w, h, x, c, 0);
    forall i | 0 <= i < |s| ensures p[i] == s[i] {
      Split(i, w, h);
    }
  }

  /** Writes `col` back as column `x` of `data` (src/fft.h:88-90). */
  method ScatterCol(data: array<Complex>, w: int, h: int, x: int, col: array<Complex>)
    requires data != col && data.Length == w * h && col.Length == h && 0 <= x < w
    modifies data
    ensures data[..] == WithCol(old(data[..]), w, h, x, col[..], h)
  {
    ghost var s := data[..];
    WithColNone(s, w, h, x, col[..]);
    var y := 0;
    while y < h
      invariant 0 <= y <= h
      invariant data[..] == WithCol(s, w, h, x, col[..], y)
    {
      WithColStep(s, w, h, x, col[..], y);
      data[y * w + x] := col[y];
      y := y + 1;
    }
  }

  /** The buffer after the first `y` rows went through the row pass. */
  ghost function RowPrefix(s: seq<Complex>, w: int, h: int, y: int, invert: bool, tw: Twiddle): (r: seq<Complex>)
    requires IsPowerOfTwo(w) && h >= 0 && |s| == w * h
    ensures |r| == |s|
  {
    var rp := RowPass(s, w, h, invert, tw);
    seq(|s|, i requires 0 <= i < |s| => if i / w < y then rp[i] else s[i])
  }

  /** One iteration of the row loop turns one more row into its transform. */
  lemma RowAdvance(s: seq<Complex>, w: int, h: int, y: int, invert: bool, tw: Twiddle)
    requires IsPowerOfTwo(w) && 0 <= y < h && |s| == w * h
    ensures Row(RowPrefix(s, w, h, y, invert, tw), w, h, y) == Row(s, w, h, y)
    ensures WithRow(RowPrefix(s, w, h, y, invert, tw), w, h, y, Transform(Row(s, w, h, y), invert, tw), w)
         == RowPrefix(s, w, h, y + 1, invert, tw)
  {
    var prev := RowPrefix(s, w, h, y, invert, tw);
    forall x | 0 <= x < w ensures Row(prev, w, h, y)[x] == Row(s, w, h, y)[x] {
      IdxBounds(x, y, w, h);
      IdxDivMod(x, y, w);
    }
    RowPassRow(s, w, h, invert, tw, y);
    var r := Transform(Row(s, w, h, y), invert, tw);
    var rp := RowPass(s, w, h, invert, tw);
    var p, q := WithRow(prev, w, h, y, r, w), RowPrefix(s, w, h, y + 1, invert, tw);
    forall i | 0 <= i < |s| ensures p[i] == q[i] {
      Split(i, w, h);
      if i / w == y {
        assert r[i % w] == Row(rp, w, h, y)[i % w];
      }
    }
  }

  lemma RowPrefixEnds(s: seq<Complex>, w: int, h: int, invert: bool, tw: Twiddle)
    requires IsPowerOfTwo(w) && h >= 0 && |s| == w * h
    ensures RowPrefix(s, w, h, 0, invert, tw) == s
    ensures RowPrefix(s, w, h, h, invert, tw) == RowPass(s, w, h, invert, tw)
  {
    var p, q := RowPrefix(s, w, h, 0, invert, tw), RowPrefix(s, w, h, h, invert, tw);
    forall i | 0 <= i < |s| ensures p[i] == s[i] && q[i] == RowPass(s, w, h, invert, tw)[i] {
      Split(i, w, h);
    }
  }

  /** The row loop (src/fft.h:70-80), with the one scratch buffer `row`. */
  method RowPassInPlace(data: array<Complex>, w: int, h: int, invert: bool, tw: Twiddle)
    requires IsPowerOfTwo(w) && h >= 0 && data.Length == w * h && w < MaxPow2Arg
    modifies data
    ensures data[..] == RowPass(old(data[..]), w, h, invert, tw)
  {
    ghost var s := data[..];
    var row := new Complex[w](_ => Zero);
    RowPrefixEnds(s, w, h, invert, tw);
    var y := 0;
    while y < h
      invariant 0 <= y <= h
      invariant data[..] == RowPrefix(s, w, h, y, invert, tw)
    {
      RowAdvance(s, w, h, y, invert, tw);
      GatherRow(data, w, h, y, row);
      var res := Fft1dInPlace(row, invert, tw);
      ScatterRow(data, w, h, y, row);
      y := y + 1;
    }
  }

  /** The buffer after the first `x` columns went through the column pass. */
  ghost function ColPrefix(s: seq<Complex>, w: int, h: int, x: int, invert: bool, tw: Twiddle): (r: seq<Complex>)
    requires w > 0 && IsPowerOfTwo(h) && |s| == w * h
    ensures |r| == |s|
  {
    var cp := ColPass(s, w, h, invert, tw);
    seq(|s|, i requires 0 <= i < |s| => if i % w < x then cp[i] else s[i])
  }

  /** One iteration of the column loop turns one more column into its transform. */
  lemma ColAdvance(s: seq<Complex>, w: int, h: int, x: int, invert: bool, tw: Twiddle)
    requires IsPowerOfTwo(h) && 0 <= x < w && |s| == w * h
    ensures Col(ColPrefix(s, w, h, x, invert, tw), w, h, x) == Col(s, w, h, x)
    ensures WithCol(ColPrefix(s, w, h, x, invert, tw), w, h, x, Transform(Col(s, w, h, x), invert, tw), h)
         == ColPrefix(s, w, h, x + 1, invert, tw)
  {
    var prev := ColPrefix(s, w, h, x, invert, tw);
    forall y | 0 <= y < h ensures Col(prev, w, h, x)[y] == Col(s, w, h, x)[y] {
      IdxBounds(x, y, w, h);
      IdxDivMod(x, y, w);
    }
    ColPassCol(s, w, h, invert, tw, x);
    var c := Transform(Col(s, w, h, x), invert, tw);
    var cp := ColPass(s, w, h, invert, tw);
    var p, q := WithCol(prev, w, h, x, c, h), ColPrefix(s, w, h, x + 1, invert, tw);
    forall i | 0 <= i < |s| ensures p[i] == q[i] {
      Split(i, w, h);
      if i % w == x {
        assert c[i / w] == Col(cp, w, h, x)[i / w];
      }
    }
  }

  lemma ColPrefixEnds(s: seq<Complex>, w: int, h: int, invert: bool, tw: Twiddle)
    requires w > 0 && IsPowerOfTwo(h) && |s| == w * h
    ensures ColPrefix(s, w, h, 0, invert, tw) == s
    ensures ColPrefix(s, w, h, w, invert, tw) == ColPass(s, w, h, invert, tw)
  {
    var p, q := ColPrefix(s, w, h, 0, invert, tw), ColPrefix(s, w, h, w, invert, tw);
    forall i | 0 <= i < |s| ensures p[i] == s[i] && q[i] == ColPass(s, w, h, invert, tw)[i] {
      Split(i, w, h);
    }
  }

  /** The column loop (src/fft.h:82-92), with the one scratch buffer `col`. */
  method ColPassInPlace(data: array<Complex>, w: int, h: int, invert: bool, tw: Twiddle)
    requires w > 0 && IsPowerOfTwo(h) && data.Length == w * h && h < MaxPow2Arg
    modifies data
    ensures data[..] == ColPass(old(data[..]), w, h, invert, tw)
  {
    ghost var s := data[..];
    var col := new Complex[h](_ => Zero);
    ColPrefixEnds(s, w, h, invert, tw);
    var x := 0;
    while x < w
      invariant 0 <= x <= w
      invariant data[..] == ColPrefix(s, w, h, x, invert, tw)
    {
      ColAdvance(s, w, h, x, invert, tw);
      GatherCol(data, w, h, x, col);
      var res := Fft1dInPlace(col, invert, tw);
      ScatterCol(data, w, h, x, col);
      x := x + 1;
    }
  }

  /** `fft2d_inplace` (src/fft.h:58-95). The bound applies only to
      power-of-two sides, the ones whose product line 65 computes: that
      product must fit a 32-bit `int`, and when the transforms run, each side
      must stay below `2^30` so that `len <<= 1` in `fft1d_inplace` cannot
      overflow. */
  method Fft2dInPlace(data: array<Complex>, width: int, height: int, invert: bool, tw: Twiddle)
      returns (r: Result<(), FftError>)
    requires width > 0 && height > 0 && IsPowerOfTwo(width) && IsPowerOfTwo(height) ==>
      width * height <= MaxPow2Arg
      && (data.Length == width * height ==> width < MaxPow2Arg && height < MaxPow2Arg)
    modifies data
    ensures r.Err? <==> Fft2d(old(data[..]), width, height, invert, tw).Err?
    ensures r.Err? ==> Fft2d(old(data[..]), width, height, invert, tw) == Err(r.error) && data[..] == old(data[..])
    ensures r.Ok? ==> Fft2d(old(data[..]), width, height, invert, tw) == Ok(data[..])
  {
    if width <= 0 || height <= 0 {
      return Err(InvalidDimensions);
    }
    if !IsPowerOfTwo(width) || !IsPowerOfTwo(height) {
      return Err(DimensionsNotPowerOfTwo);
    }
    if data.Length != width * height {
      return Err(DataSizeMismatch);
    }
    RowPassInPlace(data, width, height, invert, tw);
    ColPassInPlace(data, width, height, invert, tw);
    return Ok(());
  }
}

=== FILE: grid.dfy ===
/** Row-major grids: cell `(x, y)` of a grid of width `w` lives at index
    `y * w + x`.  The nonlinear arithmetic the model needs about that index
    is proved here once. */
module Grid {

  /** `idx2d` (src/conv_fft.cpp:9-11). */
  function Idx(x: int, y: int, w: int): int
  {
    y * w + x
  }

  lemma MulLeft(a: int, b: int, c: int)
    requires a <= b && c >= 0
    ensures a * c <= b * c
  {
  }

  /** Stepping through `blocks` blocks of length `len` one block at a time. */
  lemma BlockCount(b: int, blocks: int, len: int)
    requires len > 0 && 0 <= b
    ensures b * len < blocks * len ==> b + 1 <= blocks && (b + 1) * len <= blocks * len
    ensures b * len >= blocks * len && b <= blocks ==> b == blocks
    ensures (b + 1) * len == b * len + len
  {
    if b * len < blocks * len && b >= blocks {
      MulLeft(blocks, b, len);
    }
    if b + 1 <= blocks {
      MulLeft(b + 1, blocks, len);
    }
    if b * len >= blocks * len && b < blocks {
      MulLeft(b + 1, blocks, len);
    }
  }

  /** Euclidean division is determined by any quotient/remainder pair. */
  lemma DivModUnique(d: int, p: int, q: int, s: int)
    requires p > 0 && d == q * p + s && 0 <= s < p
    ensures d / p == q && d % p == s
  {
    var q', s' := d / p, d % p;
    assert d == q' * p + s';
    if q' > q {
      MulLeft(q + 1, q', p);
      assert false;
    } else if q' < q {
      MulLeft(q' + 1, q, p);
      assert false;
    }
  }

  /** Every in-range cell has an index inside the buffer. */
  lemma IdxBounds(x: int, y: int, w: int, h: int)
    requires 0 <= x < w && 0 <= y < h
    ensures 0 <= Idx(x, y, w) < w * h
  {
    MulLeft(y + 1, h, w);
  }

  /** The index gives back its column and row. */
  lemma IdxDivMod(x: int, y: int, w: int)
    requires 0 <= x < w && 0 <= y
    ensures Idx(x, y, w) / w == y && Idx(x, y, w) % w == x
  {
    DivModUnique(Idx(x, y, w), w, y, x);
  }

  /** Distinct in-range cells have distinct indices. */
  lemma IdxInjective(w: int, h: int)
    requires w > 0
    ensures forall x1, y1, x2, y2 ::
      0 <= x1 < w && 0 <= y1 && 0 <= x2 < w && 0 <= y2 && Idx(x1, y1, w) == Idx(x2, y2, w) ==> x1 == x2 && y1 == y2
  {
    forall x1, y1, x2, y2 | 0 <= x1 < w && 0 <= y1 && 0 <= x2 < w && 0 <= y2 && Idx(x1, y1, w) == Idx(x2, y2, w)
      ensures x1 == x2 && y1 == y2
    {
      IdxDivMod(x1, y1, w);
      IdxDivMod(x2, y2, w);
    }
  }

  /** Every buffer index is the index of one in-range cell. */
  lemma Split(i: int, w: int, h: int)
    requires w > 0 && 0 <= i < w * h
    ensures 0 <= i % w < w && 0 <= i / w < h && i == Idx(i % w, i / w, w)
  {
    if i / w >= h {
      MulLeft(h, i / w, w);
      assert false;
    }
  }

  /** Row `y` occupies the index range `[Idx(0, y, w), Idx(0, y, w) + w)`. */
  lemma RowSpan(y: int, w: int, h: int)
    requires w > 0 && 0 <= y < h
    ensures 0 <= Idx(0, y, w) && Idx(0, y, w) + w <= w * h && Idx(0, y + 1, w) == Idx(0, y, w) + w
  {
    MulLeft(y + 1, h, w);
  }

  /** All in-range cells at once, for contexts that cannot call `IdxBounds` per cell. */
  lemma IdxBoundsAll(w: int, h: int)
    ensures forall x, y :: 0 <= x < w && 0 <= y < h ==> 0 <= Idx(x, y, w) < w * h
  {
    forall x, y | 0 <= x < w && 0 <= y < h ensures 0 <= Idx(x, y, w) < w * h {
      IdxBounds(x, y, w, h);
    }
  }

  /** Cell `(x, y)` of a `w * h` buffer. */
  function Cell<T>(s: seq<T>, w: int, h: int, x: int, y: int): T
    requires |s| == w * h && 0 <= x < w && 0 <= y < h
  {
    IdxBounds(x, y, w, h);
    s[Idx(x, y, w)]
  }

  /** The `w * h` buffer whose cell `(x, y)` holds `f(x, y)`. */
  function Tabulate<T>(w: int, h: int, f: (int, int) -> T): (r: seq<T>)
    requires w > 0 && h >= 0
    ensures |r| == w * h
    ensures forall x, y :: 0 <= x < w && 0 <= y < h ==> Cell(r, w, h, x, y) == f(x, y)
  {
    var r := seq(w * h, i requires 0 <= i < w * h => (Split(i, w, h); f(i % w, i / w)));
    assert forall x, y :: 0 <= x < w && 0 <= y < h ==> Cell(r, w, h, x, y) == f(x, y) by {
      forall x, y | 0 <= x < w && 0 <= y < h ensures Cell(r, w, h, x, y) == f(x, y) {
        var i := Idx(x, y, w);
        IdxBounds(x, y, w, h);
        IdxDivMod(x, y, w);
        assert r[i] == f(i % w, i / w);
      }
    }
    r
  }

  /** Two buffers that agree on every cell are equal. */
  lemma GridEq<T>(s: seq<T>, t: seq<T>, w: int, h: int)
    requires w > 0 && h >= 0 && |s| == w * h && |t| == w * h
    requires forall x, y :: 0 <= x < w && 0 <= y < h ==> Cell(s, w, h, x, y) == Cell(t, w, h, x, y)
    ensures s == t
  {
    forall i | 0 <= i < w * h ensures s[i] == t[i] {
      Split(i, w, h);
      var x, y := i % w, i / w;
      assert Cell(s, w, h, x, y) == Cell(t, w, h, x, y);
    }
  }
}

=== FILE: images.dfy ===
/** The two value types both convolvers work on (`Image` of src/image.h,
    `Kernel` of src/kernels.h), the input validation the convolvers share,
    and zero-padded access to pixels and weights. */
module Images {
  import opened Wrappers
  import opened Grid

  /** A grayscale image, row-major: pixel `(x, y)` is `pixels[y * width + x]`. */
  datatype Image = Image(width: int, height: int, pixels: seq<real>)

  /** A square kernel of odd `size`, row-major: `at(row, col)` is `w[row * size + col]`. */
  datatype Kernel = Kernel(size: int, w: seq<real>)

  predicate ValidImage(img: Image)
  {
    img.width > 0 && img.height > 0 && |img.pixels| == img.width * img.height
  }

  predicate ValidKernel(k: Kernel)
  {
    k.size > 0 && k.size % 2 == 1 && |k.w| == k.size * k.size
  }

  /** Largest image side and kernel size the model accepts: it keeps the
      padded sizes of the frequency convolver, and their product, inside a
      32-bit `int`. */
  const MaxDim: int := 0x2000

  predicate WithinBounds(img: Image, k: Kernel)
  {
    img.width <= MaxDim && img.height <= MaxDim && k.size <= MaxDim
  }

  /** The four ways the convolvers reject their input. */
  datatype ConvError =
    | InvalidImageDimensions
    | PixelBufferMismatch
    | KernelSizeNotPositiveOdd
    | KernelBufferMismatch

  /** The checks at the top of both convolvers (src/conv_naive.cpp:6-17 and
      src/conv_fft.cpp:37-48), in their order: the first failing one is reported. */
  function CheckInputs(img: Image, k: Kernel): (r: Option<ConvError>)
    ensures r == None <==> ValidImage(img) && ValidKernel(k)
    ensures (img.width <= 0 || img.height <= 0) ==> r == Some(InvalidImageDimensions)
    ensures img.width > 0 && img.height > 0 && |img.pixels| != img.width * img.height ==> r == Some(PixelBufferMismatch)
    ensures ValidImage(img) && (k.size <= 0 || k.size % 2 == 0) ==> r == Some(KernelSizeNotPositiveOdd)
    ensures ValidImage(img) && k.size > 0 && k.size % 2 == 1 && |k.w| != k.size * k.size ==> r == Some(KernelBufferMismatch)
  {
    if img.width <= 0 || img.height <= 0 then Some(InvalidImageDimensions)
    else if |img.pixels| != img.width * img.height then Some(PixelBufferMismatch)
    else if k.size <= 0 || k.size % 2 == 0 then Some(KernelSizeNotPositiveOdd)
    else if |k.w| != k.size * k.size then Some(KernelBufferMismatch)
    else None
  }

  /** Pixel `(x, y)`, and 0 outside the image: the zero padding of both
      convolvers. */
  function Pixel(img: Image, x: int, y: int): (v: real)
    ensures !(0 <= x < img.width && 0 <= y < img.height) ==> v == 0.0
  {
    if 0 <= x < img.width && 0 <= y < img.height && |img.pixels| == img.width * img.height
    then Cell(img.pixels, img.width, img.height, x, y)
    else 0.0
  }

  /** `Kernel::at(ky, kx)`: the weight in row `ky`, column `kx` (0 outside the kernel). */
  function Weight(k: Kernel, kx: int, ky: int): real
  {
    if 0 <= kx < k.size && 0 <= ky < k.size && |k.w| == k.size * k.size
    then Cell(k.w, k.size, k.size, kx, ky)
    else 0.0
  }

  /** The kernel's radius `r = size / 2`; the centre weight is at `(r, r)`. */
  function Radius(k: Kernel): int
  {
    k.size / 2
  }

  /** The kernel turned by 180 degrees: tap `(kx, ky)` takes the weight of
      tap `(size - 1 - kx, size - 1 - ky)`. */
  function Rotate180(k: Kernel): (rk: Kernel)
    requires ValidKernel(k)
    ensures ValidKernel(rk) && rk.size == k.size
    ensures forall kx, ky :: Weight(rk, kx, ky) == Weight(k, k.size - 1 - kx, k.size - 1 - ky)
  {
    var rk := Kernel(k.size, Tabulate(k.size, k.size, RotatedFn(k)));
    assert forall kx, ky :: Weight(rk, kx, ky) == RotatedFn(k)(kx, ky) by {
      forall kx, ky ensures Weight(rk, kx, ky) == RotatedFn(k)(kx, ky) {
        if 0 <= kx < k.size && 0 <= ky < k.size {
          assert Weight(rk, kx, ky) == Cell(rk.w, k.size, k.size, kx, ky);
          assert Cell(rk.w, k.size, k.size, kx, ky) == RotatedFn(k)(kx, ky);
        } else {
          assert !(0 <= k.size - 1 - kx < k.size && 0 <= k.size - 1 - ky < k.size);
          assert RotatedFn(k)(kx, ky) == Weight(k, k.size - 1 - kx, k.size - 1 - ky);
        }
      }
    }
    rk
  }

  function RotatedFn(k: Kernel): (int, int) -> real
  {
    (kx, ky) => Weight(k, k.size - 1 - kx, k.size - 1 - ky)
  }

  /** A kernel that the 180-degree turn leaves unchanged. */
  predicate Symmetric(k: Kernel)
  {
    forall kx, ky :: 0 <= kx < k.size && 0 <= ky < k.size ==>
      Weight(k, kx, ky) == Weight(k, k.size - 1 - kx, k.size - 1 - ky)
  }

  /** Turning twice gives the kernel back, and a symmetric kernel is its own turn. */
  lemma RotateTwice(k: Kernel)
    requires ValidKernel(k)
    ensures Rotate180(Rotate180(k)) == k
    ensures Symmetric(k) <==> Rotate180(k) == k
  {
    var rk, rrk := Rotate180(k), Rotate180(Rotate180(k));
    forall i | 0 <= i < |k.w| ensures rrk.w[i] == k.w[i] {
      Split(i, k.size, k.size);
      assert Weight(k, i % k.size, i / k.size) == k.w[i];
      assert Weight(rrk, i % k.size, i / k.size) == rrk.w[i];
    }
    if Symmetric(k) {
      forall i | 0 <= i < |k.w| ensures rk.w[i] == k.w[i] {
        Split(i, k.size, k.size);
        assert Weight(k, i % k.size, i / k.size) == k.w[i];
        assert Weight(rk, i % k.size, i / k.size) == rk.w[i];
      }
    }
    if rk == k {
      forall kx, ky | 0 <= kx < k.size && 0 <= ky < k.size
        ensures Weight(k, kx, ky) == Weight(k, k.size - 1 - kx, k.size - 1 - ky)
      {
        assert Weight(rk, kx, ky) == Weight(k, k.size - 1 - kx, k.size - 1 - ky);
      }
    }
  }
}

=== FILE: kernels.dfy ===
/** The named filters of src/kernels.cpp: a box blur of any odd size, and
    fixed 3x3 sharpen, edge and emboss tables. Weights are reals; the
    doubles of the source (`1.0/9` rounded) are not modelled. */
module Kernels {
  import opened Wrappers
  import opened Grid
  import opened Sums
  import opened Images

  /** The exceptions `make3`, `box_blur` and `make_kernel` throw: a table
      that is not nine long, a bad size seen by `box_blur` and by
      `make_kernel` (two different messages), a size other than 3 for a
      fixed table, and a name that is not one of the four filters. */
  datatype KernelError =
    | NotNineValues
    | BoxBlurSizeNotPositiveOdd
    | SizeNotPositiveOdd
    | OnlyBlurResizes
    | UnknownFilter(name: string)

  /** `make3` (src/kernels.cpp:5-13): nine row-major weights as a 3x3 kernel. */
  function Make3(vals: seq<real>): (r: Result<Kernel, KernelError>)
    ensures r.Ok? <==> |vals| == 9
    ensures r.Ok? ==> ValidKernel(r.value) && r.value.size == 3 && r.value.w == vals
    ensures r.Err? ==> r.error == NotNineValues
  {
    if |vals| != 9 then Err(NotNineValues) else Ok(Kernel(3, vals))
  }

  /** The weight of every tap of a `size x size` box blur. */
  function BlurWeight(size: int): real
    requires size > 0
  {
    1.0 / (size * size) as real
  }

  /** `box_blur` (src/kernels.cpp:15-27): every weight is `1 / size^2`. */
  function BoxBlur(size: int): (r: Result<Kernel, KernelError>)
    ensures r.Ok? <==> size > 0 && size % 2 == 1
    ensures r.Err? ==> r.error == BoxBlurSizeNotPositiveOdd
    ensures r.Ok? ==> ValidKernel(r.value) && r.value.size == size
    ensures r.Ok? ==> forall i :: 0 <= i < |r.value.w| ==> r.value.w[i] == BlurWeight(size)
  {
    if size <= 0 || size % 2 == 0 then Err(BoxBlurSizeNotPositiveOdd)
    else Ok(Kernel(size, seq(size * size, i => BlurWeight(size))))
  }

  /** `box_blur` with its fill loop (src/kernels.cpp:20-24). */
  method BoxBlurFill(size: int) returns (r: Result<Kernel, KernelError>)
    ensures r == BoxBlur(size)
  {
    if size <= 0 || size % 2 == 0 {
      return Err(BoxBlurSizeNotPositiveOdd);
    }
    var w := new real[size * size](_ => 0.0);
    var val := 1.0 / (size * size) as real;
    var i := 0;
    while i < w.Length
      invariant 0 <= i <= w.Length
      invariant forall t :: 0 <= t < i ==> w[t] == BlurWeight(size)
    {
      w[i] := val;
      i := i + 1;
    }
    assert w[..] == seq(size * size, i => BlurWeight(size));
    return Ok(Kernel(size, w[..]));
  }

  /** The weights sum to 1: a box blur keeps the mean brightness. */
  lemma BoxBlurSumsToOne(size: int)
    requires size > 0 && size % 2 == 1
    ensures BoxBlur(size).Ok? && WeightSum(BoxBlur(size).value) == 1.0
  {
    var k := BoxBlur(size).value;
    var n := size * size;
    SumOfConstant(n, WeightAt(k), BlurWeight(size));
    assert n as real * BlurWeight(size) == 1.0;
  }

  /** A box blur is symmetric under the 180-degree turn. */
  lemma BoxBlurSymmetric(size: int)
    requires size > 0 && size % 2 == 1
    ensures BoxBlur(size).Ok? && Symmetric(BoxBlur(size).value)
  {
    var k := BoxBlur(size).value;
    forall kx, ky | 0 <= kx < size && 0 <= ky < size
      ensures Weight(k, kx, ky) == Weight(k, size - 1 - kx, size - 1 - ky)
    {
      IdxBounds(kx, ky, size, size);
      IdxBounds(size - 1 - kx, size - 1 - ky, size, size);
    }
  }

  function WeightAt(k: Kernel): int -> real
  {
    i => if 0 <= i < |k.w| then k.w[i] else 0.0
  }

  /** The sum of all weights of a kernel. */
  function WeightSum(k: Kernel): real
  {
    Sum(|k.w|, WeightAt(k))
  }

  const BlurTable: seq<real> := [1.0 / 9.0, 1.0 / 9.0, 1.0 / 9.0,
                                 1.0 / 9.0, 1.0 / 9.0, 1.0 / 9.0,
                                 1.0 / 9.0, 1.0 / 9.0, 1.0 / 9.0]

  const SharpenTable: seq<real> := [0.0, -1.0, 0.0,
                                    -1.0, 5.0, -1.0,
                                    0.0, -1.0, 0.0]

  const EdgeTable: seq<real> := [-1.0, -1.0, -1.0,
                                 -1.0, 8.0, -1.0,
                                 -1.0, -1.0, -1.0]

  const EmbossTable: seq<real> := [-2.0, -1.0, 0.0,
                                   -1.0, 1.0, 1.0,
                                   0.0, 1.0, 2.0]

  /** `make_kernel` (src/kernels.cpp:29-80): the size is checked first, then
      `blur` accepts any odd size, and every other name needs size 3 before
      its name is looked up. */
  function MakeKernel(name: string, size: int): (r: Result<Kernel, KernelError>)
    ensures r.Ok? ==> ValidKernel(r.value) && r.value.size == size
    ensures (size <= 0 || size % 2 == 0) ==> r == Err(SizeNotPositiveOdd)
    ensures size > 0 && size % 2 == 1 && name == "blur" ==> r.Ok?
    ensures size > 0 && size % 2 == 1 && size != 3 && name != "blur" ==> r == Err(OnlyBlurResizes)
    ensures size == 3 && name !in {"blur", "sharpen", "edge", "emboss"} ==> r == Err(UnknownFilter(name))
    ensures r.Ok? <==> size > 0 && size % 2 == 1 && (name == "blur" || (size == 3 && name in {"sharpen", "edge", "emboss"}))
    ensures size == 3 && name == "blur" ==> r == Ok(Kernel(3, BlurTable))
    ensures size == 3 && name == "sharpen" ==> r == Ok(Kernel(3, SharpenTable))
    ensures size == 3 && name == "edge" ==> r == Ok(Kernel(3, EdgeTable))
    ensures size == 3 && name == "emboss" ==> r == Ok(Kernel(3, EmbossTable))
    ensures size > 0 && size % 2 == 1 && size != 3 && name == "blur" ==> r == BoxBlur(size)
  {
    if size <= 0 || size % 2 == 0 then Err(SizeNotPositiveOdd)
    else if name == "blur" then
      (if size == 3 then Make3(BlurTable) else BoxBlur(size))
    else if size != 3 then Err(OnlyBlurResizes)
    else if name == "sharpen" then Make3(SharpenTable)
    else if name == "edge" then Make3(EdgeTable)
    else if name == "emboss" then Make3(EmbossTable)
    else Err(UnknownFilter(name))
  }

  /** The 3x3 blur table is the 3x3 box blur: for every odd size the blur
      is a box blur. */
  lemma BlurIsBoxBlur(size: int)
    requires size > 0 && size % 2 == 1
    ensures MakeKernel("blur", size) == BoxBlur(size)
  {
    if size == 3 {
      assert BoxBlur(3).value.w == BlurTable;
    }
  }

  /** The weight sums: blur, sharpen and emboss keep the mean brightness
      (sum 1), the edge detector removes it (sum 0). */
  lemma TableSums()
    ensures MakeKernel("sharpen", 3).Ok? && WeightSum(MakeKernel("sharpen", 3).value) == 1.0
    ensures MakeKernel("edge", 3).Ok? && WeightSum(MakeKernel("edge", 3).value) == 0.0
    ensures MakeKernel("emboss", 3).Ok? && WeightSum(MakeKernel("emboss", 3).value) == 1.0
  {
    SumOfNine(Kernel(3, SharpenTable));
    SumOfNine(Kernel(3, EdgeTable));
    SumOfNine(Kernel(3, EmbossTable));
  }

  lemma SumOfNine(k: Kernel)
    requires |k.w| == 9
    ensures WeightSum(k) == k.w[0] + k.w[1] + k.w[2] + k.w[3] + k.w[4] + k.w[5] + k.w[6] + k.w[7] + k.w[8]
  {
    var f := WeightAt(k);
    assert Sum(9, f) == Sum(8, f) + k.w[8];
    assert Sum(8, f) == Sum(7, f) + k.w[7];
    assert Sum(7, f) == Sum(6, f) + k.w[6];
    assert Sum(6, f) == Sum(5, f) + k.w[5];
    assert Sum(5, f) == Sum(4, f) + k.w[4];
    assert Sum(4, f) == Sum(3, f) + k.w[3];
    assert Sum(3, f) == Sum(2, f) + k.w[2];
    assert Sum(2, f) == Sum(1, f) + k.w[1];
    assert Sum(1, f) == Sum(0, f) + k.w[0];
  }

  /** A 3x3 kernel is symmetric exactly when its table reads the same
      backwards. */
  lemma Symmetric3(k: Kernel)
    requires ValidKernel(k) && k.size == 3
    ensures Symmetric(k) <==> forall i :: 0 <= i < 9 ==> k.w[i] == k.w[8 - i]
  {
    if Symmetric(k) {
      forall i | 0 <= i < 9 ensures k.w[i] == k.w[8 - i] {
        var kx, ky := i % 3, i / 3;
        assert Weight(k, kx, ky) == k.w[i];
        assert Weight(k, 2 - kx, 2 - ky) == k.w[8 - i];
      }
    }
    if forall i :: 0 <= i < 9 ==> k.w[i] == k.w[8 - i] {
      forall kx, ky | 0 <= kx < 3 && 0 <= ky < 3
        ensures Weight(k, kx, ky) == Weight(k, 2 - kx, 2 - ky)
      {
        assert Weight(k, kx, ky) == k.w[ky * 3 + kx];
        assert Weight(k, 2 - kx, 2 - ky) == k.w[8 - (ky * 3 + kx)];
      }
    }
  }

  lemma Palindrome(t: seq<real>)
    requires |t| == 9 && t[0] == t[8] && t[1] == t[7] && t[2] == t[6] && t[3] == t[5]
    ensures forall i :: 0 <= i < 9 ==> t[i] == t[8 - i]
  {
  }

  /** Blur, sharpen and edge are symmetric under the 180-degree turn; emboss
      is not. */
  lemma TableSymmetry()
    ensures Symmetric(Kernel(3, BlurTable))
    ensures Symmetric(Kernel(3, SharpenTable))
    ensures Symmetric(Kernel(3, EdgeTable))
    ensures !Symmetric(Kernel(3, EmbossTable))
  {
    Palindrome(BlurTable);
    Symmetric3(Kernel(3, BlurTable));
    Palindrome(SharpenTable);
    Symmetric3(Kernel(3, SharpenTable));
    Palindrome(EdgeTable);
    Symmetric3(Kernel(3, EdgeTable));
    Symmetric3(Kernel(3, EmbossTable));
    assert EmbossTable[0] != EmbossTable[8];
  }
}

=== FILE: sums.dfy ===
/** Finite sums over reals: `Sum(n, f)` is `f(0) + ... + f(n - 1)`.
    The accumulating loops of both convolvers are proved against these sums. */
module Sums {

  function Sum(n: int, f: int -> real): real
    decreases n
  {
    if n <= 0 then 0.0 else Sum(n - 1, f) + f(n - 1)
  }

  /** One more term: the sum grows by that term's value `t`. */
  lemma SumStep(n: int, next: int, f: int -> real, t: real)
    requires n >= 0 && next == n + 1 && f(n) == t
    ensures Sum(next, f) == Sum(n, f) + t
  {
  }

  /** Sums of functions that agree on the range are equal. */
  lemma {:induction false} SumCongruence(n: int, f: int -> real, g: int -> real)
    requires forall i :: 0 <= i < n ==> f(i) == g(i)
    ensures Sum(n, f) == Sum(n, g)
    decreases n
  {
    if n > 0 {
      SumCongruence(n - 1, f, g);
    }
  }

  lemma {:induction false} SumOfZeros(n: int, f: int -> real)
    requires forall i :: 0 <= i < n ==> f(i) == 0.0
    ensures Sum(n, f) == 0.0
    decreases n
  {
    if n > 0 {
      SumOfZeros(n - 1, f);
    }
  }

  lemma {:induction false} SumOfConstant(n: nat, f: int -> real, c: real)
    requires forall i :: 0 <= i < n ==> f(i) == c
    ensures Sum(n, f) == n as real * c
  {
    if n > 0 {
      SumOfConstant(n - 1, f, c);
      calc {
        Sum(n, f);
        Sum(n - 1, f) + f(n - 1);
        (n - 1) as real * c + c;
        n as real * c;
      }
    }
  }

  /** The linear combination `a * u + b * v`. */
  function Mix(a: real, u: real, b: real, v: real): real
  {
    a * u + b * v
  }

  /** `h` agrees with `a * f + b * g` on `0 .. n - 1`. */
  predicate CombinesOn(n: int, f: int -> real, g: int -> real, h: int -> real, a: real, b: real)
  {
    forall i :: 0 <= i < n ==> h(i) == Mix(a, f(i), b, g(i))
  }

  /** `Sum` is linear in the summand. */
  lemma {:induction false} SumLinear(n: int, f: int -> real, g: int -> real, h: int -> real, a: real, b: real)
    requires CombinesOn(n, f, g, h, a, b)
    ensures Sum(n, h) == Mix(a, Sum(n, f), b, Sum(n, g))
    decreases n
  {
    if n > 0 {
      SumLinear(n - 1, f, g, h, a, b);
    }
  }

  /** Changing one summand changes the sum by the same amount. */
  lemma {:induction false} SumChangeOne(n: int, f: int -> real, g: int -> real, p: int)
    requires 0 <= p < n
    requires forall i :: 0 <= i < n && i != p ==> f(i) == g(i)
    ensures Sum(n, g) == Sum(n, f) + (g(p) - f(p))
    decreases n
  {
    if p < n - 1 {
      SumChangeOne(n - 1, f, g, p);
    } else {
      SumCongruence(n - 1, f, g);
    }
  }

  /** Peeling off the first summand. */
  lemma {:induction false} SumFirst(n: int, f: int -> real, g: int -> real)
    requires n >= 1
    requires forall i :: 0 <= i < n - 1 ==> g(i) == f(i + 1)
    ensures Sum(n, f) == f(0) + Sum(n - 1, g)
    decreases n
  {
    if n > 1 {
      SumFirst(n - 1, f, g);
    }
  }

  /** Splitting the `t = n + m` terms after the first `n`; `g` is `f`
      shifted by `n`. */
  lemma {:induction false} SumSplit(n: int, m: int, t: int, f: int -> real, g: int -> real)
    requires 0 <= n && 0 <= m && t == n + m
    requires forall i :: 0 <= i < m ==> g(i) == f(n + i)
    ensures Sum(t, f) == Sum(n, f) + Sum(m, g)
    decreases m
  {
    if m > 0 {
      SumSplit(n, m - 1, t - 1, f, g);
      assert Sum(t, f) == Sum(t - 1, f) + f(n + m - 1);
    }
  }

  /** Summing in the opposite order gives the same total. */
  lemma {:induction false} SumReverse(n: int, f: int -> real, g: int -> real)
    requires forall i :: 0 <= i < n ==> g(i) == f(n - 1 - i)
    ensures Sum(n, g) == Sum(n, f)
    decreases n
  {
    if n > 0 {
      var f' := (i: int) => f(i + 1);
      SumFirst(n, f, f');
      SumReverse(n - 1, f', g);
    }
  }
}

=== FILE: wrappers.dfy ===
/** Failure-carrying results: the C++ code reports every failure by throwing,
    and the model returns the error instead. */
module Wrappers {

  datatype Option<+T> = None | Some(value: T)

  datatype Result<+T, +E> = Ok(value: T) | Err(error: E)
}
